=== FILE: README.md ===
# javelin shader translation core, in Dafny

This project models four pieces of javelin, an early form of the naga
shader translator:

- **The GLSL preprocessor front end.** This is the `lex` module of
  `src/front/glsl/preprocessor.rs` and its `preprocess` pipeline:
  - a line-based lexer with backslash continuation;
  - comment stripping;
  - a directive machine for `#define`, `#undef`, `#pragma`, `#extension`,
    `#version` and `#line`, following section 3.3 of the OpenGL Shading
    Language 4.60 specification;
  - macro expansion that keeps columns;
  - rebuilding the source text from the token spans.
- **The module validator** (`src/valid/mod.rs`):
  - the sizedness of types;
  - the constant checks;
  - the phase order of `Validator::validate`;
  - the per-stage uniqueness of entry points.
- **The expression validator** (`src/valid/expression.rs`): one rule per
  expression kind. It returns the shader stages an expression is usable in,
  or the first error.
- **The shared GLSL back end** (`src/back/glsl_common.rs`):
  - type names, storage classes, image flags and array sizes;
  - the expression and statement writers.

The files are:

| file | module | contents |
|---|---|---|
| `base.dfy` | `Wrappers`, `Strings`, `IrBasics` | `Result` / `Option` / `Outcome`, decimal text, scalar kinds and vector sizes |
| `lexer.dfy` | `Lex` | `consume_token`, line joining, the lexer as a state value, the token stream |
| `preprocessor.dfy` | `Preprocessor` | `parse_comments`, `parse_preprocessor`, the text rebuild |
| `ir.dfy` | `Ir` | the intermediate representation that the validator reads |
| `validator.dfy` | `Valid` | `is_sized`, `validate_constant`, `Validator::validate` |
| `expression.dfy` | `ValidExpression` | `validate_expression` |
| `glsl_common.dfy` | `GlslCommon` | the type, expression and statement writers of the GLSL back end |

How the model represents the source:

- **Arenas and handles.** Arenas are sequences and a handle is an index.
- **Panics.** A Rust panic becomes a value:
  - an `unwrap` of `None`, `todo!`, `unimplemented!` or `panic!` in the preprocessor becomes `ErrorKind.Abort`;
  - in the GLSL back end it becomes `Error.Panic`;
  - in the validator it becomes a precondition wherever the source's phase order guarantees the access; the one index no earlier phase guarantees, a constant's type handle, gives the error `DanglingType` instead.
- **Positions** are character indices.
- **Integer widths.** The model follows a debug build, where an overflowing `i32` operation or an underflowing `usize` subtraction panics:
  - the `i32` additions of `__LINE__` and the `i32` subtraction of `#line` abort on overflow (`LineValue`, `LineDirective`);
  - the `usize` subtractions of macro relocation and of the text rebuild abort on underflow;
  - the casts `as i32` and `as usize` wrap (`I32`, `AsUsize`);
  - `usize` additions are unbounded (see "## Left out");
  - an integer literal is unbounded, and its `usize` parse panic is not modelled (see "## Left out", Lex.ScanNumber).
- **Recursion in the GLSL writers.** The writers follow handles through an arena, so they take a `fuel` bound equal to the arena's size. `GlslCommon.ExprTextFuel` shows that more fuel never changes a text that was produced.

## Model

| member | source | states |
|---|---|---|
| Strings.DecimalRoundTrip | src/back/glsl_common.rs:533-539 | the decimal text of a natural number reads back as that number |
| Strings.SignedRoundTrip | src/back/glsl_common.rs:380 | the decimal text of a signed integer, with its `-`, reads back as that integer |
| Strings.RepeatRun | src/front/glsl/preprocessor.rs:474-480 | repeating one character `n` times gives exactly `n` copies of it, the newlines and spaces of the text rebuild |
| Lex.ConsumeAny | src/front/glsl/preprocessor.rs:13-17 | the input splits at the first character failing the predicate; everything before it satisfies it |
| Lex.ScanAngle | src/front/glsl/preprocessor.rs:45-60 | `<`/`>` tokens span one or two characters within the input, two exactly when followed by `=` or by the same character (corrected span for `<=`, see Findings) |
| Lex.ScanNumber | src/front/glsl/preprocessor.rs:61-94 | a number token spans at least its first digit and never runs past the input (corrected resumption, see Findings) |
| Lex.ScanToken | src/front/glsl/preprocessor.rs:32-183 | every non-blank input yields a non-`End` token of width between 1 and the input length |
| Lex.MaximalMunch | src/front/glsl/preprocessor.rs:32-183 | a symbol token takes two characters exactly when its first two characters form one of the two-character symbols the scanner knows (`IsTwoCharSymbol`: `::`, `<=`, `<<`, `+=`, `++`, `&&`, `/*`, `//` and the rest), and one otherwise |
| Lex.PlusMinus | src/front/glsl/preprocessor.rs:99-108 | `+` or `-` followed by `=` is a compound assignment of width 2, doubled it is an increment or decrement of width 2, and otherwise it is the operator alone, of width 1 |
| Lex.ConsumeToken | src/front/glsl/preprocessor.rs:19-31 | leading whitespace is skipped; `End` exactly when only whitespace is left, with span `start..start+1`; otherwise the rest is what follows the token |
| Lex.ScanLexeme | src/front/glsl/preprocessor.rs:337-361 | every token other than a number or `::` displays as exactly the characters it was read from; an integer is its decimal value |
| Lex.NumberLexeme | src/front/glsl/preprocessor.rs:61-94 | an integer token is read from a run of digits and holds its decimal value; a double's literal is the text before its `lf` suffix and holds a dot; any other number displays as its text |
| Lex.WordLexeme | src/front/glsl/preprocessor.rs:95-98 | a word displays as exactly the run of letters, digits and underscores it was read from |
| Lex.SymbolLexeme | src/front/glsl/preprocessor.rs:337-361 | a token starting with a symbol is never a number, and every such token but `::` displays as the one or two characters it was read from |
| Lex.Lines | src/front/glsl/preprocessor.rs:196-197 | no line holds a line break |
| Lex.JoinContinuations | src/front/glsl/preprocessor.rs:200-207 | lines are absorbed only after a text ending in `\` while lines remain; the joined length is the sum minus one per backslash dropped; the joined text ends with the last absorbed line; a trailing `\` is left only when no line remains |
| Lex.JoinSplices | src/front/glsl/preprocessor.rs:200-207 | the joined text is the first line followed by the absorbed lines, each line but the last with its final backslash removed (for absorbed lines that are not empty) |
| Lex.JoinBackslashes | src/front/glsl/preprocessor.rs:200-207 | the first line and every absorbed line but the last end in the backslash that continued them |
| Lex.EmptyContinuation | src/front/glsl/preprocessor.rs:200-207 | an empty line after a text ending in two backslashes keeps the join going: `a\\`, an empty line and `b` join to `ab` |
| Lex.LoadLine | src/front/glsl/preprocessor.rs:222-237 | the new input is the first pending line joined with its continuations, the lines it absorbed leave the pending list, the column resets to 0 and the line count is kept |
| Lex.NewLexer | src/front/glsl/preprocessor.rs:195-215 | the input is the source's first line joined with its continuations and the lines after those are pending; without lines the input is empty; the lexer starts on line 0, column 0 |
| Lex.Next | src/front/glsl/preprocessor.rs:218-256 | each read makes progress or returns `End`; spans are non-empty; a token's end is the new column; `End` only when no line is pending |
| Lex.SpansNonDecreasing | src/front/glsl/preprocessor.rs:248-253 | two consecutive tokens on one line do not overlap and come in order |
| Lex.ExhaustedIsFixedPoint | src/front/glsl/preprocessor.rs:240-244 | with no lines pending, `End` leaves the lexer unchanged |
| Lex.EndIsStable | src/front/glsl/preprocessor.rs:219-245 | reading after `End` returns the same `End` |
| Lex.AllTokens | src/front/glsl/preprocessor.rs:218-256 | the stream of reads holds exactly one `End`, at its end |
| Lex.StreamStep | src/front/glsl/preprocessor.rs:258-261 | the `k`-th read of a lexer is the `k`-th element of its stream (the final `End` repeating), so peeking is reading a copy |
| Lex.Peek | src/front/glsl/preprocessor.rs:259-261 | peeking returns the first token of the lexer's stream |
| Lex.DoubleUnreachableAsWritten | src/front/glsl/preprocessor.rs:64-85 | as written, no input lexes to a double |
| Lex.FloatRestAsWritten | src/front/glsl/preprocessor.rs:64-84 | as written, `1.5` leaves `.5` to be lexed again |
| Lex.FloatExample | src/front/glsl/preprocessor.rs:64-84 | the corrected scanner reads `1.5` whole as a float |
| Lex.DoubleExample | src/front/glsl/preprocessor.rs:64-84 | the corrected scanner reads `1.5lf` whole as a double whose literal is `1.5` |
| Lex.AngleSpanAsWritten | src/front/glsl/preprocessor.rs:45-54 | as written, `<=` consumes two characters but reports a span of one |
| Lex.LogicalTextAsWritten | src/front/glsl/preprocessor.rs:349 | as written, `&&` is rebuilt as `&=` |
| Preprocessor.BlockCommentEnd | src/front/glsl/preprocessor.rs:498-511 | a block comment ends just after its first `*/`; without one, EOF |
| Preprocessor.LineCommentEnd | src/front/glsl/preprocessor.rs:513-517 | a line comment skips exactly the remaining tokens of its line (corrected loop condition) |
| Preprocessor.StripComments | src/front/glsl/preprocessor.rs:491-527 | the result keeps the stream's final `End` and holds no comment token before it; the only error is EOF |
| Preprocessor.StrippedTokensFromInput | src/front/glsl/preprocessor.rs:491-527 | every token kept by the stripping comes from the input at or after the starting position |
| Preprocessor.ParseComments | src/front/glsl/preprocessor.rs:491-527 | a successful strip of a fresh lexer ends in `End` |
| Preprocessor.NoCommentsIsIdentity | src/front/glsl/preprocessor.rs:522-523 | a stream without comment openers passes through unchanged |
| Preprocessor.BlockCommentRemoved | src/front/glsl/preprocessor.rs:498-512 | stripping from a `/*` equals stripping from just after its `*/` |
| Preprocessor.LineCommentNeverEndsAsWritten | src/front/glsl/preprocessor.rs:513-517 | as written, the skip loop's condition holds at every read unless the comment is on the final line |
| Preprocessor.LineCommentCounterexampleAsWritten | src/front/glsl/preprocessor.rs:513-517 | `// ` on line 0 and a word on line 1: the as-written loop never stops |
| Preprocessor.LineCommentCorrected | src/front/glsl/preprocessor.rs:513-517 | with the intended condition that stream strips to the word and `End` |
| Preprocessor.I32 | src/front/glsl/preprocessor.rs:559 | `as i32` gives a value in the `i32` range and leaves a value already in range unchanged |
| Preprocessor.AsUsize | src/front/glsl/preprocessor.rs:559 | `as usize` gives a value below 2^64 congruent to its input modulo 2^64, and leaves a value already in range unchanged |
| Preprocessor.LineValue | src/front/glsl/preprocessor.rs:559 | `__LINE__` succeeds exactly when both `i32` additions stay in range, and aborts otherwise; its value is the line plus offset plus one, modulo 2^64 |
| Preprocessor.LineValueInRange | src/front/glsl/preprocessor.rs:559 | for a line and offset whose sum stays a non-negative `i32`, `__LINE__` is the line plus offset plus one |
| Preprocessor.LineValueOverflows | src/front/glsl/preprocessor.rs:559 | after `#line 2147483647` on line 0, `__LINE__` on line 1 overflows `i32` and aborts |
| Preprocessor.LineValueWraps | src/front/glsl/preprocessor.rs:559 | an offset of -2 on line 0 makes `__LINE__` wrap to 2^64 - 1 |
| Preprocessor.RelocateFrom | src/front/glsl/preprocessor.rs:574-587 | relocation succeeds exactly when no body token ends before it starts or starts before the previous one (the `usize` subtractions that would underflow), and aborts otherwise; relocated tokens move to the use's line and keep their widths and their distances from the first body token |
| Preprocessor.Relocate | src/front/glsl/preprocessor.rs:571-589 | a body in order is placed with its first token where the use starts, keeping widths and distances; a body out of order aborts |
| Preprocessor.RelocateSingle | src/front/glsl/preprocessor.rs:571-589 | a one-token body lands at the use's start on the use's line, keeping its width |
| Preprocessor.BuiltinAt | src/front/glsl/preprocessor.rs:556-571 | the token of `__LINE__`, `__FILE__` or `__VERSION__` sits where relocation would put a one-token body: at the use's line and start (corrected placement, see Findings) |
| Preprocessor.BuiltinAfterTokenAsWritten | src/front/glsl/preprocessor.rs:556-571 | as written, a built-in left at line 0, columns 0..1 after any other output token makes the text rebuild fail |
| Preprocessor.BuiltinKeepsReadingOrder | src/front/glsl/preprocessor.rs:474-481 | a built-in placed at its use keeps a stream in reading order, so the text rebuild succeeds whenever the stream was in order |
| Preprocessor.Expand | src/front/glsl/preprocessor.rs:556-591 | a word expands exactly when it is `__LINE__`, `__FILE__`, `__VERSION__` or a defined macro; `__LINE__` fails exactly when its `i32` arithmetic overflows and is otherwise that value, `__FILE__` is 0 and `__VERSION__` is 460, each at the use (corrected placement); a defined macro fails exactly when its body is empty or out of order and otherwise expands to the relocated body |
| Preprocessor.Expect | src/front/glsl/preprocessor.rs:630-645 | the next token is taken exactly when it is on the directive's line; otherwise EOL, or EOF when none is left |
| Preprocessor.ExpectWord | src/front/glsl/preprocessor.rs:647-656 | a successful read is a word on the directive's line |
| Preprocessor.ExpectIntegral | src/front/glsl/preprocessor.rs:1175-1184 | a successful read is an integer on the directive's line |
| Preprocessor.DefineBody | src/front/glsl/preprocessor.rs:664-685 | the body takes exactly the tokens of the directive's line: every token skipped is on that line, the rest is a suffix starting on a later line, and a stream that never leaves the line is an error |
| Preprocessor.DefineBodyVerbatim | src/front/glsl/preprocessor.rs:664-685 | when no token of the line is a word that expands, the body is exactly the tokens skipped |
| Preprocessor.NestedDefineOutOfOrder | src/front/glsl/preprocessor.rs:664-685 | a macro used inside `#define` is stored at the column of the `#`, before the token it follows: `#define B x A` with `A` defined as `1` stores `x` at columns 10-11 and `1` at 0-1 |
| Preprocessor.NestedExpansionAborts | src/front/glsl/preprocessor.rs:571-589 | such a stored body aborts when it is expanded, by the `usize` underflow of relocation |
| Preprocessor.Pragma | src/front/glsl/preprocessor.rs:754-951 | a successful `#pragma` consumes tokens and leaves the state unchanged |
| Preprocessor.PragmaRules | src/front/glsl/preprocessor.rs:754-951 | `#pragma` succeeds exactly on `optimize` or `debug`, `(`, a word and `)` on the directive's line, consuming those four tokens and changing nothing; any other pragma word is `UnknownPragma` naming it |
| Preprocessor.Extension | src/front/glsl/preprocessor.rs:953-1069 | a successful `#extension` consumes tokens and leaves the state unchanged |
| Preprocessor.Version | src/front/glsl/preprocessor.rs:1070-1156 | a successful `#version` consumes tokens |
| Preprocessor.LineDirective | src/front/glsl/preprocessor.rs:1157-1214 | `#line` takes an integer and a word on the directive's line and sets the offset to the integer minus the line, both as `i32`; it aborts exactly when that subtraction overflows `i32` |
| Preprocessor.Directive | src/front/glsl/preprocessor.rs:628-1222 | a directive never returns more tokens than it was given |
| Preprocessor.Run | src/front/glsl/preprocessor.rs:529-1284 | a successful run ends with `End` |
| Preprocessor.Emit | src/front/glsl/preprocessor.rs:1243-1281 | a non-word, or a word that is not a macro, is emitted alone with the pending shift applied; an expansion is never empty |
| Preprocessor.RunEmitStep | src/front/glsl/preprocessor.rs:1243-1281 | an ordinary token's output is followed by the run of the rest from the state it leaves, and its error stops the run |
| Preprocessor.RenderSucceedsIffInReadingOrder | src/front/glsl/preprocessor.rs:465-488 | rebuilding text succeeds exactly when no token goes back a line or overlaps the previous one on its line |
| Preprocessor.RenderKeepsColumns | src/front/glsl/preprocessor.rs:474-486 | on one line, each token's text lands at its own columns in the rebuilt text |
| Preprocessor.RunWithoutDirectivesIsIdentity | src/front/glsl/preprocessor.rs:1243-1281 | a stream without `#`, macro uses or a pending shift comes out unchanged |
| Preprocessor.DefineOfReservedNameFails | src/front/glsl/preprocessor.rs:658-662 | `#define GL_…` is rejected as a reserved macro |
| Preprocessor.UndefRemovesMacro | src/front/glsl/preprocessor.rs:687-716 | `#undef n` removes `n` from the macro table and nothing else |
| Preprocessor.VersionRules | src/front/glsl/preprocessor.rs:1097-1155 | only 450 and 460 are accepted; only `core` is accepted and it defines `GL_core_profile`; `compatibility`/`es` are unsupported; anything else is unknown |
| Preprocessor.ExtensionRules | src/front/glsl/preprocessor.rs:1036-1068 | `all` may be warned or disabled but not required or enabled; a named extension cannot be required; other behaviours are unknown |
| Preprocessor.LineDirectiveRenumbers | src/front/glsl/preprocessor.rs:1213 | after `#line n` on line `L`, `__LINE__` on line `L2` expands to `L2 - L + n + 1` |
| Preprocessor.TrailingTokenAfterDirective | src/front/glsl/preprocessor.rs:1224-1230 | a token left on the directive's line is reported as `ExpectedEOL` naming it |
| Preprocessor.LoneHashIsDropped | src/front/glsl/preprocessor.rs:601-617 | a `#` alone on its line is dropped |
| Preprocessor.ExpansionKeepsGap | src/front/glsl/preprocessor.rs:1243-1258 | after an expansion, the next token on the line keeps its distance to the end of the replacement |
| Preprocessor.ExampleUseTail | src/front/glsl/preprocessor.rs:1265-1281 | after the expansion of `TWO`, `+x` and `End` move two columns left |
| Preprocessor.ExampleDefineStep | src/front/glsl/preprocessor.rs:629-685 | `#define TWO 2` adds the macro and consumes only its line |
| Preprocessor.ExampleUseStep | src/front/glsl/preprocessor.rs:1243-1258 | `TWO+x` becomes `2+x` shifted to close the gap |
| Preprocessor.ExampleRender | src/front/glsl/preprocessor.rs:465-488 | those tokens rebuild to an empty line and `2+x` |
| Preprocessor.DefineAndUseExample | src/front/glsl/preprocessor.rs:465-488 | the token lists of the two lines run and render to `\n2+x` |
| Preprocessor.LineUseRun | src/front/glsl/preprocessor.rs:1243-1281 | `x __LINE__` on line 1 runs to `x`, then `2` at the column of `__LINE__`, then `End` moved left to close the gap (corrected placement, see Findings) |
| Preprocessor.LineUseExample | src/front/glsl/preprocessor.rs:465-488 | the token list of `x __LINE__` on line 1 runs and renders to `\nx 2` (corrected placement, see Findings; as written this input fails in the rebuild) |
| Valid.IsSized | src/valid/mod.rs:123-139 | a type is sized exactly unless it is a runtime-sized array, an image or a sampler |
| Valid.FirstNotBefore | src/valid/mod.rs:186-188 | no component is reported exactly when all are declared before the constant; otherwise the first offender is reported |
| Valid.ValidateConstant | src/valid/mod.rs:155-192 | a scalar is accepted exactly when its width passes the width rule; a composite is rejected for a runtime-sized array and for an array size declared later, and otherwise accepted exactly when all components are declared before it, the first later one being reported as `UnresolvedComponent`; a dangling type handle is `DanglingType` |
| Valid.FunctionChain | src/valid/mod.rs:231-245 | each function is analysed with the results of exactly the functions before it |
| Valid.ChainStep | src/valid/mod.rs:231-245 | the last step of a successful chain analyses the last function over the chain before it |
| Valid.ChainPrefixAt | src/valid/mod.rs:231-245 | the first `i` results of a successful chain are the chain of `i` functions, and result `i` is its analysis over them |
| Valid.ChainPrefixes | src/valid/mod.rs:231-245 | a successful chain has each prefix as the chain of that length, and each result is that function's analysis over its prefix |
| Valid.FunctionInfoIsItsAnalysis | src/valid/mod.rs:231-245 | the info stored for a function is the analysis of that function given the earlier ones |
| Valid.Validate | src/valid/mod.rs:194-272 | an error is the first failing check in phase order (constants, types, globals, functions, entry points); success means every phase passed, the infos are the function chain and entry-point analyses, and no two entry points share stage and name |
| ValidExpression.VectorTotal | src/valid/expression.rs:175-203 | vector components succeed exactly when each is a scalar or vector of the kind and width; the total is the sum of their sizes; otherwise the first misfit |
| ValidExpression.MatchEach | src/valid/expression.rs:256-266 | components pass exactly when each has the expected type; otherwise the first mismatch |
| ValidExpression.Resolver.Resolve | src/valid/expression.rs:77-87 | an operand resolves exactly when it comes before the expression being validated, to its recorded type; otherwise it is a forward dependency naming it |
| ValidExpression.ValidateExpression | src/valid/expression.rs:90-607 | an accepted expression only refers to earlier expressions, and the stages returned are the stages of its kind |
| ValidExpression.ValidateLoad | src/valid/expression.rs:304-317 | an accepted load reads an earlier pointer and is available in every stage |
| ValidExpression.ValidateImageQuery | src/valid/expression.rs:335-363 | an accepted image query is available in every stage |
| ValidExpression.ValidateOperator | src/valid/expression.rs:364-604 | an accepted operator expression only refers to earlier expressions and is available in every stage |
| ValidExpression.AccessIndexRule | src/valid/expression.rs:136-159 | a constant index is accepted exactly when it is below the base's limit: vector size, matrix columns, array length, member count, or `u32::MAX` for runtime arrays and pointers |
| ValidExpression.VectorComposeRule | src/valid/expression.rs:175-204 | a vector is composed exactly when its components fit and their sizes add up to the vector's size; the first misfit is reported by position, and components that all fit but add up wrong give `InvalidComposeCount` with their total |
| ValidExpression.MatrixComposeRule | src/valid/expression.rs:205-231 | a matrix is composed from exactly `columns` float vectors of `rows` components and its width |
| ValidExpression.ArrayComposeRule | src/valid/expression.rs:232-255 | an array of constant length is composed exactly from that many earlier values of its element type, a wrong count giving `InvalidComposeCount`; a runtime-sized array cannot be composed |
| ValidExpression.StructComposeChecksMembersFirst | src/valid/expression.rs:256-282 | a struct with a wrong first member type is reported as a component-type error even when the count is wrong too |
| ValidExpression.OperandClassRules | src/valid/expression.rs:384-493 | arithmetic and comparison need numeric operands, logical ones need booleans, bitwise ones need integers, and equality needs equal sized types |
| ValidExpression.MultiplyRule | src/valid/expression.rs:391-461 | multiplication accepts exactly scalar/vector by scalar, and matrix and vector products whose dimensions agree, with equal widths |
| ValidExpression.ShiftRule | src/valid/expression.rs:494-525 | a shift takes an integer scalar or vector and an unsigned amount of the same shape |
| ValidExpression.BinaryRule | src/valid/expression.rs:379-525 | a binary expression is accepted exactly when both operands are earlier and the operator's type rule holds |
| ValidExpression.UnaryRule | src/valid/expression.rs:364-378 | negation takes signed integers, booleans and floats but not unsigned integers; `!` takes signed and unsigned integers and booleans but not floats; the operand is anything with a scalar kind: a scalar, a vector, or a matrix (whose kind is float) |
| ValidExpression.SelectRule | src/valid/expression.rs:526-555 | select needs a boolean condition of the accepted value's shape |
| ValidExpression.ImageQueryRule | src/valid/expression.rs:335-363 | each image query is accepted only for the image classes and arrayness that have it |
| GlslCommon.ScalarName | src/back/glsl_common.rs:427-441 | integers are `int`/`uint` at any width, floats are `float` or `double` by width, other float widths are an error |
| GlslCommon.KindPrefix | src/back/glsl_common.rs:444-457 | the kind prefix is at most one letter and fails exactly for odd float widths |
| GlslCommon.ArraySizeText | src/back/glsl_common.rs:533-539 | a runtime size writes nothing and a static size writes decimal digits that read back as the length |
| GlslCommon.DimText | src/back/glsl_common.rs:552-565 | the dimension is `1D`, `2D`, `3D` or `Cube` |
| GlslCommon.DimRoundTrip | src/back/glsl_common.rs:552-565 | each dimension writes the text that reads back as it: `1D`, `2D`, `3D`, `Cube` |
| GlslCommon.FlagsText | src/back/glsl_common.rs:577-589 | the suffix starts with `MS` exactly when multisampled and ends with `Array` exactly when arrayed |
| GlslCommon.StorageClassText | src/back/glsl_common.rs:401-418 | every storage class but the function class writes one of `const `, `in `, `out `, `buffer `, `uniform `, `shared ` or nothing |
| GlslCommon.QualifierRoundTrip | src/back/glsl_common.rs:401-418 | each written qualifier reads back as the storage class that wrote it |
| GlslCommon.ConstantText | src/back/glsl_common.rs:377-389 | integer constants write decimal text that reads back as their value, booleans `true` or `false` by value, floats their text; composites are not written |
| GlslCommon.NumericNameRoundTrip | src/back/glsl_common.rs:427-483 | the name of a scalar, vector or matrix type reads back as its shape, sizes, kind and float width |
| GlslCommon.NumericNamesDistinguishTypes | src/back/glsl_common.rs:427-483 | two such types get the same name exactly when they agree on shape, sizes, kind and float width |
| GlslCommon.SizeDigitParses | src/back/glsl_common.rs:458-462 | a vector size is written as one digit that reads back as the size |
| GlslCommon.PrefixedShapeParses | src/back/glsl_common.rs:442-483 | a kind prefix followed by `vecN` or `matCxR` reads back as the kind and shape |
| GlslCommon.FloatWidthRule | src/back/glsl_common.rs:430-438 | a float of a width other than 4 or 8 has no name |
| GlslCommon.ArrayNameRule | src/back/glsl_common.rs:485-489 | an array is named by its element type and its length in brackets, with empty brackets for a runtime size |
| GlslCommon.ImageName | src/back/glsl_common.rs:491-507 | an image over a signed, unsigned or float scalar is `iimage`, `uimage` or `image` followed by the dimension and the flags; over a boolean it is the boolean-image error; over any other type it is the error naming that type's own name (or that name's error); a dangling sample handle is an error |
| GlslCommon.ImageAndSamplerNames | src/back/glsl_common.rs:491-518 | images follow the rule of `ImageName`; a depth image is `image`, the dimension and `Array` when arrayed; a sampler with comparison is `sampler` and one without is `samplerShadow` |
| GlslCommon.ComposeNamesNumericType | src/back/glsl_common.rs:208-266 | `Compose` and the type writer give a scalar, vector or matrix type the same name, which reads back as that type |
| GlslCommon.BinarySymbol | src/back/glsl_common.rs:301-326 | every binary operator except the logical right shift has a one- or two-character symbol |
| GlslCommon.BinarySymbolsDistinct | src/back/glsl_common.rs:304-323 | different operators get different symbols |
| GlslCommon.UnarySymbolsDistinct | src/back/glsl_common.rs:293-299 | negation and complement get different symbols |
| GlslCommon.ExprTextsEach | src/back/glsl_common.rs:275-279 | a list of operands is written exactly when each operand is, and the texts are the operands' texts in order |
| GlslCommon.BlockTextsEach | src/back/glsl_common.rs:68-72 | a block is written exactly when each statement is, and the texts are the statements' texts in order |
| GlslCommon.ExprTextFuel | src/back/glsl_common.rs:161-366 | an expression's text does not depend on the recursion bound once it is produced |
| GlslCommon.OperandText | src/back/glsl_common.rs:161-366 | an operand written within the arena's bound is the writer's text for it |
| GlslCommon.BinaryText | src/back/glsl_common.rs:301-326 | a written binary expression is `(left op right)`, one space on each side of the symbol, from its operands' texts; a logical right shift is an error |
| GlslCommon.UnaryText | src/back/glsl_common.rs:293-300 | a written unary expression is `(- x)` or `(~ x)` from its operand's text |
| GlslCommon.LinesAppend | src/back/glsl_common.rs:133-135 | writing two statement lists in a row equals writing their concatenation, errors included |
| GlslCommon.LoopText | src/back/glsl_common.rs:131-143 | a loop is `while(true) {`, then each statement of the body and then of the continuing block on its own line indented four spaces, then `}` |
| GlslCommon.LoopInlinesContinuing | src/back/glsl_common.rs:131-142 | a loop's continuing block is written as the tail of its body |
| GlslCommon.SwitchCaseLayout | src/back/glsl_common.rs:110-120 | a case is its label line, then its statements indented six spaces, then `      break;` exactly when it has a fallthrough entry |

## Left out

- Reading files, the `log` calls, `Display` of error messages and the `From` conversions are not modelled. The preprocessor returns the `ErrorKind`, not the message.
- Float values of the lexer are not modelled. `Float` and `Double` carry the literal text, because Rust's `f32`/`f64` parsing and printing are not modelled.
- Preprocessor.Directive: the conditional directives (`#if`, `#ifdef`, `#ifndef`, `#else`, `#elif`, `#endif`) are `unimplemented!` in the source. They are modelled as an abort, and so is `#error`, which panics.
- Lex.Lines: `str::lines` is taken to split at `\n` and drop a trailing `\r` from each line. The standard library is not part of this model.
- Lex.ScanNumber: the parses of a number's text are not modelled as failing. An integer holds the unbounded value of its digits, where `parse::<usize>().unwrap()` panics on a digit run above 2^64 - 1. A float or double carries its text, where `parse().unwrap()` panics on text Rust does not read as a float, such as `1.2.3`, which the digit-and-dot run accepts.
- Lex.ScanToken: `is_alphanumeric` is taken as ASCII letters and digits. Non-ASCII letters inside identifiers are not modelled.
- Lex.ConsumeToken: positions are character indices throughout. The source takes a byte index from `find` but falls back to a character count, so a line ending in non-ASCII whitespace (such as `x` followed by U+00A0) slices inside a character and panics, or yields `Unknown`; the model reads `End` there. Strings are sequences of characters here, with no byte encoding.
- Lex.JoinSplices: the splice equation is stated for joins whose absorbed lines, but the last, are not empty. An empty line absorbed mid-join carries no backslash of its own; `Lex.EmptyContinuation` shows what the join does then.
- Preprocessor.RelocateFrom: the `usize` additions of relocation (`offset`, the new start and end) are unbounded. They would need columns near 2^64 to wrap.
- Preprocessor.Preprocess: no lemma runs the whole pipeline on a source string, because lexing a concrete string is beyond what the verifier unfolds cheaply. The examples start from token lists; each stage (`NewLexer`, `ParseComments`, `Run`, `Render`) has its own contract.
- Valid.Validate: `validate_type`, `validate_global_var`, `validate_function`, `validate_entry_point` and `check_width` are defined in files outside this model. They are parameters (`Hooks`), so only the phase order and the bookkeeping around them are proved. The `Layouter` and the storage of per-type flags are left out for the same reason.
- Valid.ValidateConstant: the `TODO` branch for composites of other types only checks the component order, as the source does. The composite's own type is not checked.
- Valid.ValidateConstant: a composite whose type handle is outside the type arena gives `DanglingType`, where the source panics on `types[ty]`; the source has no error kind for it.
- ValidExpression.ValidateExpression: the operands of `ImageSample`, `ImageLoad`, `Math` and `As` are not modelled, because the source accepts those expressions unconditionally.
- ValidExpression.ValidateExpression: `Call` reads the info of the called function. The model requires that function to be already analysed, where the source would panic on an out-of-range index.
- ValidExpression.ValidateExpression: the `TypeResolution::inner_with` and `to_array_length` helpers come from files outside this model, and are modelled in the usual way. `to_array_length` accepts an unsigned value up to `u32::MAX` or a non-negative signed one.
- ValidExpression.VectorTotal: the `u32` sum of component sizes is unbounded in the model. The source's wrap-around would need more than 2^32 components.
- GlslCommon.ExprTextFuel: the writers take a fuel bound equal to the arena's size. A cyclic arena, which the source would recurse on forever, gives an error instead. That this bound never cuts off an acyclic arena is not proved; `ExprTextFuel` shows only that more fuel never changes a text already produced.
- GlslCommon.BinaryText: only the direction from a written text to its operands' texts is stated. The converse (written operands give a written binary expression) would need the fuel bound argument above.
- GlslCommon.UnaryText: only the direction from a written text to its operand's text is stated. The converse (a written operand gives a written negation) would need the fuel bound argument above.
- GlslCommon.StatementText: switch cases are written in the iteration order of the source's hash map. The model takes that order as given, as a sequence.
- GlslCommon.ExprText: `AccessIndex` reads the base's type from a precomputed map instead of running the `Typifier`, which is outside this model. A missing entry is the typifier's error.
- GlslCommon.ComposeTypeName: the module's type arena and the builder's arena are the same sequence in the model.
- Rust's `Display` for integers is the decimal text; for the float constants of the back end it is the carried text.

## Findings

| source | as written | input that shows it | evidently intended | confidence | as-written member | corrected member |
|---|---|---|---|---|---|---|
| src/front/glsl/preprocessor.rs:61-93 | after a number containing `.`, lexing resumes after its first character, and the `lf` check looks inside the number itself | `1.5` leaves `.5` to be lexed again; `1.5lf` never yields a double | resume after the whole number and look for `lf` after it | not executed | Lex.DoubleUnreachableAsWritten | Lex.NumberLexeme |
| src/front/glsl/preprocessor.rs:45-54 | `<=` and `>=` consume two characters but report a span of one | `<=x`: span `0..1`, rest `x` | span `start..start+2`, like the other two-character operators | not executed | Lex.AngleSpanAsWritten | Lex.ScanAngle |
| src/front/glsl/preprocessor.rs:513-517 | the `//` skip loop continues while the next token is on another line OR is not `End`, so it stops only at the final `End` of the comment's own line | `// ` on line 0 followed by `x` on line 1 | skip while the next token is on the comment's line AND is not `End` | not executed | Preprocessor.LineCommentCounterexampleAsWritten | Preprocessor.LineCommentCorrected |
| src/front/glsl/preprocessor.rs:556-571 | `__LINE__`, `__FILE__` and `__VERSION__` expand to a token at line 0, columns 0..1, never moved to the use, so the text rebuild's `usize` subtractions underflow after any earlier output token | `x __LINE__` on line 1: `x` at 1:0..1 is followed by the expansion at line 0 | place the token at the use's line and start, as relocation does for a defined one-token macro | not executed | Preprocessor.BuiltinAfterTokenAsWritten | Preprocessor.BuiltinKeepsReadingOrder |
| src/front/glsl/preprocessor.rs:349 | a logical operation displays as its character followed by `=` | `a && b` is rebuilt as `a &= b` | `&&`, `\|\|`, `==` print the character twice, `<=`, `>=`, `!=` add `=` | not executed | Lex.LogicalTextAsWritten | Lex.ScanLexeme |

Behaviours that look odd but are modelled as written:

- A comparison sampler is named `sampler` and a plain one `samplerShadow`.
- A switch case writes `break;` exactly when it has a fallthrough entry, so a case marked to fall through is the one that stops.
- After `#line n` on line `L`, `__LINE__` on line `L2` is `L2 - L + n + 1`, so the line right after the directive reports `n + 2` (`Preprocessor.LineDirectiveRenumbers`). This is the value; where its token lands is the Findings row for preprocessor.rs:556-571. Section 3.3 of the OpenGL Shading Language specification numbers that line `n`.
- A `#line` that numbers lines below zero makes `__LINE__` wrap to a huge unsigned value (`Preprocessor.LineValueWraps`).
- A macro used inside a `#define` body is stored at the column of the `#`, before the tokens that precede it, so expanding the outer macro later aborts on the underflow of relocation (`Preprocessor.NestedDefineOutOfOrder`, `Preprocessor.NestedExpansionAborts`).
- `#extension` takes `::` between the name and the behaviour.
- A directive on the last line fails, because `End` shares its line.
- `Return` writes two spaces after `return`.
- A struct `Compose` checks member types before the count.

=== FILE: base.dfy ===
/** Failure-compatible result types shared by every module of the model. */
module Wrappers {

  /** Either a value or an error; usable with `:-`. */
  datatype Result<+T, +E> = Ok(value: T) | Err(error: E) {
    predicate IsFailure() {
      Err?
    }

    function PropagateFailure<U>(): Result<U, E>
      requires Err?
    {
      Err(error)
    }

    function Extract(): T
      requires Ok?
    {
      value
    }
  }

  /** A result without a value, for checks that only pass or fail. */
  datatype Outcome<+E> = Pass | Fail(error: E) {
    predicate IsFailure() {
      Fail?
    }

    function PropagateFailure<U>(): Result<U, E>
      requires Fail?
    {
      Err(error)
    }
  }

  datatype Option<+T> = None | Some(value: T)
}

/** Text helpers: decimal rendering, repetition and joining. */
module Strings {

  predicate IsDigit(c: char) {
    '0' <= c <= '9'
  }

  function DigitChar(d: nat): (c: char)
    requires d < 10
    ensures IsDigit(c)
    ensures c as int - '0' as int == d
  {
    ['0', '1', '2', '3', '4', '5', '6', '7', '8', '9'][d]
  }

  /** Decimal rendering of a natural number, as Rust's `{}` prints an unsigned integer. */
  function NatToString(n: nat): (s: string)
    ensures |s| > 0
    ensures forall i :: 0 <= i < |s| ==> IsDigit(s[i])
    ensures n < 10 ==> s == [DigitChar(n)]
    decreases n
  {
    if n < 10 then [DigitChar(n)] else NatToString(n / 10) + [DigitChar(n % 10)]
  }

  /** Decimal rendering of a signed integer, with a leading `-` when negative. */
  function IntToString(i: int): (s: string)
    ensures |s| > 0
    ensures i < 0 <==> s[0] == '-'
  {
    if i < 0 then "-" + NatToString(-i) else NatToString(i)
  }

  /** The value of a string of decimal digits. */
  function DecimalValue(s: string): nat
    decreases |s|
  {
    if |s| == 0 then 0
    else
      var last := s[|s| - 1];
      var d := if IsDigit(last) then (last as int - '0' as int) else 0;
      DecimalValue(s[..|s| - 1]) * 10 + d
  }

  /** Reading back a rendered natural number gives the number. */
  lemma {:induction false} DecimalRoundTrip(n: nat)
    ensures DecimalValue(NatToString(n)) == n
    decreases n
  {
    var s := NatToString(n);
    if n >= 10 {
      DecimalRoundTrip(n / 10);
      assert s[..|s| - 1] == NatToString(n / 10);
    }
  }

  /** The value of a decimal string with an optional leading `-`. */
  function SignedValue(s: string): int {
    if |s| > 0 && s[0] == '-' then -(DecimalValue(s[1..]) as int) else DecimalValue(s)
  }

  /** Reading back a rendered signed integer gives the integer. */
  lemma SignedRoundTrip(i: int)
    ensures SignedValue(IntToString(i)) == i
  {
    if i < 0 {
      DecimalRoundTrip(-i);
      assert IntToString(i)[1..] == NatToString(-i);
    } else {
      DecimalRoundTrip(i);
    }
  }

  /** `str::repeat`: `n` copies of `s`. */
  function Repeat(s: string, n: nat): (r: string)
    ensures |r| == n * |s|
  {
    if n == 0 then "" else s + Repeat(s, n - 1)
  }

  /** Repeating one character gives a run of exactly that character. */
  lemma {:induction false} RepeatRun(c: char, n: nat)
    ensures |Repeat([c], n)| == n
    ensures forall i :: 0 <= i < n ==> Repeat([c], n)[i] == c
  {
    if n > 0 {
      RepeatRun(c, n - 1);
      var r := Repeat([c], n);
      forall i | 0 < i < n
        ensures r[i] == c
      {
        assert r[i] == Repeat([c], n - 1)[i - 1];
      }
    }
  }

  function StartsWith(s: string, prefix: string): bool {
    |prefix| <= |s| && s[..|prefix|] == prefix
  }

  /** `[..].join(sep)`. */
  function Join(parts: seq<string>, sep: string): string {
    if |parts| == 0 then ""
    else if |parts| == 1 then parts[0]
    else parts[0] + sep + Join(parts[1..], sep)
  }
}

/** Small enumerations that both IR generations in the repository share. */
module IrBasics {

  datatype ScalarKind = Sint | Uint | Float | Bool

  /** A vector or matrix dimension; the source's enum discriminants are 2, 3 and 4. */
  datatype VectorSize = Bi | Tri | Quad {
    function Count(): nat {
      match this
      case Bi => 2
      case Tri => 3
      case Quad => 4
    }
  }

  datatype ImageDimension = D1 | D2 | D3 | Cube
}

=== FILE: expression.dfy ===
/**
 * The typing rules the validator applies to one expression of a function:
 * which operand types each kind of expression accepts, the static index
 * bounds, the component rules of `Compose`, and the shader stages the
 * expression may be used in.
 *
 * Operand types come from the function's analysis (`FunctionInfo`), and only
 * for expressions before the one being validated (the `root`).
 */
module ValidExpression {
  import opened Wrappers
  import opened IrBasics
  import opened Ir
  import opened Valid

  datatype ExpressionError =
    | DoesntExist
    | NotInScope
    | ForwardDependency(handle: nat)
    | InvalidBaseType(handle: nat)
    | InvalidIndexType(handle: nat)
    | IndexOutOfBounds(handle: nat, index: U32)
    | FunctionArgumentDoesntExist(argument: U32)
    | ConstantDoesntExist(handle: nat)
    | GlobalVarDoesntExist(handle: nat)
    | LocalVarDoesntExist(handle: nat)
    | InvalidPointerType(handle: nat)
    | InvalidArrayType(handle: nat)
    | ComposeTypeDoesntExist(handle: nat)
    | InvalidComposeType(handle: nat)
    | InvalidComposeCount(given: nat, expected: nat)
    | InvalidComponentType(position: nat, handle: nat)
    | InvalidUnaryOperandType(uop: UnaryOperator, handle: nat)
    | InvalidBinaryOperandTypes(bop: BinaryOperator, left: nat, right: nat)
    | InvalidSelectTypes
    | InvalidBooleanVector(handle: nat)
    | InvalidFloatArgument(handle: nat)
    | ExpectedGlobalVariable
    | CallToUndeclaredFunction(handle: nat)
    | ExpectedImageType(handle: nat)
    | ExpectedSamplerType(handle: nat)
    | InvalidImageClass(iclass: ImageClass)

  /** `as u32` on a length. */
  function TruncateU32(n: nat): U32 {
    n % (U32Max + 1)
  }

  /** Looks up operand types for the expression `root`. */
  datatype Resolver = Resolver(root: nat, types: seq<Type>, info: FunctionInfo) {
    /** The analysis covers every expression before `root`, and the type handles it holds exist. */
    predicate WellFormed() {
      && root <= |info.expressions|
      && forall h :: 0 <= h < root && info.expressions[h].TypeHandle? ==> info.expressions[h].handle < |types|
    }

    function TypeOf(h: nat): TypeInner
      requires WellFormed() && h < root
    {
      match info.expressions[h]
      case TypeHandle(t) => types[t].inner
      case Value(inner) => inner
    }

    /** Only expressions before `root` have been processed; any other operand is a forward dependency. */
    function Resolve(h: nat): (r: Result<TypeInner, ExpressionError>)
      requires WellFormed()
      ensures r.Ok? <==> h < root
      ensures r.Err? ==> r.error == ForwardDependency(h)
      ensures r.Ok? ==> r.value == TypeOf(h)
    {
      if h < root then Ok(TypeOf(h)) else Err(ForwardDependency(h))
    }
  }

  /** What the validation of one expression reads besides the expression itself. */
  datatype Context = Context(
    func: Function,
    ir: Module,
    info: FunctionInfo,
    otherInfos: seq<FunctionInfo>,
    typeInfos: seq<TypeInfo>)

  function ResolverFor(root: nat, ctx: Context): Resolver {
    Resolver(root, ctx.ir.types, ctx.info)
  }

  // ---------------------------------------------------------------------
  // Compose
  // ---------------------------------------------------------------------

  /** What a component adds to a composed vector: one per scalar and its size per vector, when kind and width agree. */
  function Contribution(t: TypeInner, kind: ScalarKind, width: nat): Option<nat> {
    match t
    case Scalar(k, w) => if k == kind && w == width then Some(1) else None
    case Vector(size, k, w) => if k == kind && w == width then Some(size.Count()) else None
    case _ => None
  }

  predicate FitsVector(res: Resolver, c: nat, kind: ScalarKind, width: nat)
    requires res.WellFormed()
  {
    c < res.root && Contribution(res.TypeOf(c), kind, width).Some?
  }

  /** The number of vector components the given operands supply together. */
  function Total(res: Resolver, kind: ScalarKind, width: nat, comps: seq<nat>): nat
    requires res.WellFormed()
    requires forall k :: 0 <= k < |comps| ==> FitsVector(res, comps[k], kind, width)
  {
    if |comps| == 0 then 0
    else
      assert FitsVector(res, comps[0], kind, width);
      assert forall k :: 0 <= k < |comps| - 1 ==> comps[1..][k] == comps[k + 1];
      Contribution(res.TypeOf(comps[0]), kind, width).value + Total(res, kind, width, comps[1..])
  }

  /** The error reported for an operand that does not fit at `position`. */
  function Misfit(res: Resolver, position: nat, c: nat): ExpressionError {
    if c < res.root then InvalidComponentType(position, c) else ForwardDependency(c)
  }

  /** `e` reports `comps[k]` for the first `k >= i` that does not fit the vector. */
  predicate FirstVectorMisfit(res: Resolver, kind: ScalarKind, width: nat, comps: seq<nat>, i: nat, e: ExpressionError)
    requires res.WellFormed()
  {
    exists k :: i <= k < |comps| && !FitsVector(res, comps[k], kind, width)
      && (forall j :: i <= j < k ==> FitsVector(res, comps[j], kind, width))
      && e == Misfit(res, k, comps[k])
  }

  /** The loop that sums what the components of a composed vector supply, from `i` on. */
  function VectorTotal(res: Resolver, kind: ScalarKind, width: nat, comps: seq<nat>, i: nat, acc: nat)
    : (r: Result<nat, ExpressionError>)
    requires res.WellFormed()
    requires i <= |comps|
    ensures r.Ok? <==> forall k :: i <= k < |comps| ==> FitsVector(res, comps[k], kind, width)
    ensures r.Ok? ==> r.value == acc + Total(res, kind, width, comps[i..])
    ensures r.Err? ==> FirstVectorMisfit(res, kind, width, comps, i, r.error)
    decreases |comps| - i
  {
    if i == |comps| then Ok(acc)
    else
      var t :- res.Resolve(comps[i]);
      match Contribution(t, kind, width)
      case None => Err(InvalidComponentType(i, comps[i]))
      case Some(n) =>
        assert comps[i..][0] == comps[i] && comps[i..][1..] == comps[i + 1..];
        VectorTotal(res, kind, width, comps, i + 1, acc + n)
  }

  predicate Matches(res: Resolver, c: nat, expected: TypeInner)
    requires res.WellFormed()
  {
    c < res.root && res.TypeOf(c) == expected
  }

  /** `e` reports `comps[k]` for the first `k >= i` whose type is not `expected[k]`. */
  predicate FirstMismatch(res: Resolver, comps: seq<nat>, expected: seq<TypeInner>, i: nat, e: ExpressionError)
    requires res.WellFormed()
    requires |expected| <= |comps|
  {
    exists k :: i <= k < |expected| && !Matches(res, comps[k], expected[k])
      && (forall j :: i <= j < k ==> Matches(res, comps[j], expected[j]))
      && e == Misfit(res, k, comps[k])
  }

  /** The loop that checks each component against the type expected at its position, from `i` on. */
  function MatchEach(res: Resolver, comps: seq<nat>, expected: seq<TypeInner>, i: nat)
    : (r: Result<(), ExpressionError>)
    requires res.WellFormed()
    requires |expected| <= |comps| && i <= |expected|
    ensures r.Ok? <==> forall k :: i <= k < |expected| ==> Matches(res, comps[k], expected[k])
    ensures r.Err? ==> FirstMismatch(res, comps, expected, i, r.error)
    decreases |expected| - i
  {
    if i == |expected| then Ok(())
    else
      var t :- res.Resolve(comps[i]);
      if t != expected[i] then
        assert !Matches(res, comps[i], expected[i]);
        Err(InvalidComponentType(i, comps[i]))
      else
        assert Matches(res, comps[i], expected[i]);
        MatchEach(res, comps, expected, i + 1)
  }

  function Min(a: nat, b: nat): nat {
    if a <= b then a else b
  }

  /** The handles `Compose` indexes without checking exist. */
  predicate ComposeIndexable(ty: nat, comps: seq<nat>, m: Module)
    requires ty < |m.types|
  {
    match m.types[ty].inner
    case Array(base, ConstantSize(h), _) =>
      && h < |m.constants| && ArrayLengthOf(m.constants[h]).Some?
      && (ArrayLengthOf(m.constants[h]).value == |comps| ==> base < |m.types|)
    case Struct(_, members) =>
      forall k :: 0 <= k < Min(|members|, |comps|) ==> members[k].ty < |m.types|
    case _ => true
  }

  /** The types of the first `n` struct members. */
  function MemberTypes(members: seq<StructMember>, types: seq<Type>, n: nat): (r: seq<TypeInner>)
    requires n <= |members|
    requires forall k :: 0 <= k < n ==> members[k].ty < |types|
    ensures |r| == n
    ensures forall k :: 0 <= k < n ==> r[k] == types[members[k].ty].inner
  {
    seq(n, k requires 0 <= k < n => types[members[k].ty].inner)
  }

  /** The rules for the components of a composed vector, matrix, array or struct. */
  function ValidateCompose(res: Resolver, ty: nat, comps: seq<nat>, m: Module): Result<(), ExpressionError>
    requires res.WellFormed()
    requires ty < |m.types| && ComposeIndexable(ty, comps, m)
  {
    match m.types[ty].inner
    case Vector(size, kind, width) =>
      var total :- VectorTotal(res, kind, width, comps, 0, 0);
      if size.Count() != total then Err(InvalidComposeCount(total, size.Count())) else Ok(())
    case Matrix(columns, rows, width) =>
      if columns.Count() != |comps| then Err(InvalidComposeCount(|comps|, columns.Count()))
      else
        var column := Vector(rows, Float, width);
        MatchEach(res, comps, seq(|comps|, _ => column), 0)
    case Array(base, ConstantSize(h), _) =>
      var count := ArrayLengthOf(m.constants[h]).value;
      if count != |comps| then Err(InvalidComposeCount(|comps|, count))
      else
        var element := m.types[base].inner;
        MatchEach(res, comps, seq(|comps|, _ => element), 0)
    case Struct(_, members) =>
      var _ :- MatchEach(res, comps, MemberTypes(members, m.types, Min(|members|, |comps|)), 0);
      if |members| != |comps| then Err(InvalidComposeCount(|comps|, |members|)) else Ok(())
    case _ => Err(InvalidComposeType(ty))
  }

  // ---------------------------------------------------------------------
  // Operators
  // ---------------------------------------------------------------------

  function WidthOf(t: TypeInner): nat {
    match t
    case Scalar(_, w) => w
    case Vector(_, _, w) => w
    case Matrix(_, _, w) => w
    case _ => 0
  }

  /** Whether the two operand types fit the operator. */
  function BinaryOperandsAgree(op: BinaryOperator, l: TypeInner, r: TypeInner): bool {
    match op
    case Add | Subtract | Divide | Modulo | Less | LessEqual | Greater | GreaterEqual =>
      (l.Scalar? || l.Vector?) && l.kind != Bool && l == r
    case Multiply =>
      var kindMatch := ScalarKindOf(l).Some? && ScalarKindOf(l) != Some(Bool);
      var typesMatch :=
        match (l, r)
        case (Scalar(k1, _), Scalar(k2, _)) => k1 == k2
        case (Vector(_, k1, _), Scalar(k2, _)) => k1 == k2
        case (Scalar(k1, _), Vector(_, k2, _)) => k1 == k2
        case (Scalar(Float, _), Matrix(_, _, _)) => true
        case (Matrix(_, _, _), Scalar(Float, _)) => true
        case (Vector(size1, k1, _), Vector(size2, k2, _)) => k1 == k2 && size1 == size2
        case (Matrix(columns, _, _), Vector(size, Float, _)) => columns == size
        case (Vector(size, Float, _), Matrix(_, rows, _)) => size == rows
        case (Matrix(columns, _, _), Matrix(_, rows, _)) => columns == rows
        case _ => false;
      kindMatch && typesMatch && WidthOf(l) == WidthOf(r)
    case Equal | NotEqual => IsSized(l) && l == r
    case LogicalAnd | LogicalOr => (l.Scalar? || l.Vector?) && l.kind == Bool && l == r
    case And | ExclusiveOr | InclusiveOr => (l.Scalar? || l.Vector?) && (l.kind == Sint || l.kind == Uint) && l == r
    case ShiftLeft | ShiftRight =>
      var baseSize: Result<Option<VectorSize>, ()> :=
        match l
        case Scalar(_, _) => Ok(None)
        case Vector(size, _, _) => Ok(Some(size))
        case _ => Err(());
      var baseKind := if l.Scalar? || l.Vector? then l.kind else Bool;
      var shiftSize: Result<Option<VectorSize>, ()> :=
        match r
        case Scalar(Uint, _) => Ok(None)
        case Vector(size, Uint, _) => Ok(Some(size))
        case _ => Err(());
      (baseKind == Sint || baseKind == Uint) && baseSize.Ok? && baseSize == shiftSize
  }

  function UnaryOperandAgrees(op: UnaryOperator, t: TypeInner): bool {
    var kind := ScalarKindOf(t);
    kind == Some(Sint) || kind == Some(Bool) || (op == Negate && kind == Some(Float)) || (op == Not && kind == Some(Uint))
  }

  /** Whether a `Select` condition of type `c` can choose between values of type `a`. */
  function SelectConditionAgrees(c: TypeInner, a: TypeInner): bool {
    match c
    case Scalar(Bool, _) => IsSized(a)
    case Vector(size, Bool, _) => a.Vector? && a.size == size
    case _ => false
  }

  // ---------------------------------------------------------------------
  // Image queries
  // ---------------------------------------------------------------------

  /** Whether images of this class have mip levels to query. */
  function CanLevel(iclass: ImageClass): bool {
    match iclass
    case Sampled(_, multi) => !multi
    case StorageImage(_) => false
    case Depth => true
  }

  function QueryAgrees(query: ImageQuery, arrayed: bool, iclass: ImageClass): bool {
    match query
    case NumLayers => arrayed
    case Size(Some(_)) => CanLevel(iclass)
    case NumLevels => CanLevel(iclass)
    case Size(None) => !CanLevel(iclass)
    case NumSamples => !CanLevel(iclass)
  }

  // ---------------------------------------------------------------------
  // The expression rules
  // ---------------------------------------------------------------------

  /** The static limit on a constant index into a value of type `t`. */
  function IndexLimit(t: TypeInner, base: nat, constants: seq<Constant>): Result<U32, ExpressionError>
    requires t.Array? && t.asize.ConstantSize? ==>
      t.asize.handle < |constants| && ArrayLengthOf(constants[t.asize.handle]).Some?
  {
    match t
    case Vector(size, _, _) => Ok(size.Count())
    case Matrix(columns, _, _) => Ok(columns.Count())
    case Array(_, ConstantSize(h), _) => Ok(ArrayLengthOf(constants[h]).value)
    case Array(_, Dynamic, _) => Ok(U32Max)
    case Pointer(_, _) => Ok(U32Max)
    case Struct(_, members) => Ok(TruncateU32(|members|))
    case _ => Err(InvalidBaseType(base))
  }

  /**
   * The handles the rule for `e` indexes without checking exist. In the
   * source a handle always belongs to its arena, except where the rule
   * checks it and reports that it does not exist.
   */
  predicate Indexable(root: nat, e: Expression, ctx: Context) {
    var res := ResolverFor(root, ctx);
    && res.WellFormed()
    && (match e
        case AccessIndex(base, _) =>
          base < root && res.TypeOf(base).Array? && res.TypeOf(base).asize.ConstantSize? ==>
            var h := res.TypeOf(base).asize.handle;
            h < |ctx.ir.constants| && ArrayLengthOf(ctx.ir.constants[h]).Some?
        case Compose(ty, comps) => ty < |ctx.ir.types| ==> ComposeIndexable(ty, comps, ctx.ir)
        case Load(p) => p < root && res.TypeOf(p).Pointer? ==> res.TypeOf(p).base < |ctx.typeInfos|
        case ImageQuery(image, _) =>
          && image < |ctx.func.expressions|
          && (ctx.func.expressions[image].GlobalVariable? ==>
                var g := ctx.func.expressions[image].global;
                g < |ctx.ir.globalVariables| && ctx.ir.globalVariables[g].ty < |ctx.ir.types|)
        case Call(f) => f < |ctx.otherInfos|
        case _ => true)
  }

  /** The operands whose types the rule for `e` looks up. */
  function Operands(e: Expression): seq<nat> {
    match e
    case Access(base, index) => [base, index]
    case AccessIndex(base, _) => [base]
    case Compose(_, comps) => comps
    case Load(p) => [p]
    case Unary(_, x) => [x]
    case Binary(_, l, r) => [l, r]
    case Select(c, a, r) => [c, a, r]
    case Relational(_, x) => [x]
    case ArrayLength(x) => [x]
    case _ => []
  }

  /** The stages an accepted expression is available in: derivatives only in fragment shaders, calls where the callee is. */
  function StagesOf(e: Expression, ctx: Context): set<ShaderStage>
    requires e.Call? ==> e.callee < |ctx.otherInfos|
  {
    match e
    case Derivative(_, _) => {Fragment}
    case Call(f) => ctx.otherInfos[f].availableStages
    case _ => AllStages
  }

  /** The `Load` rule: the pointer must point at sized data, or be a value pointer. */
  function ValidateLoad(res: Resolver, pointer: nat, ctx: Context): (r: Result<set<ShaderStage>, ExpressionError>)
    requires res.WellFormed()
    requires pointer < res.root && res.TypeOf(pointer).Pointer? ==> res.TypeOf(pointer).base < |ctx.typeInfos|
    ensures r.Ok? ==> pointer < res.root && r.value == AllStages
  {
    var t :- res.Resolve(pointer);
    match t
    case Pointer(base, _) =>
      if {Sized, Data} <= ctx.typeInfos[base].flags then Ok(AllStages)
      else Err(InvalidPointerType(pointer))
    case ValuePointer(_, _, _, _) => Ok(AllStages)
    case _ => Err(InvalidPointerType(pointer))
  }

  /** The `ImageQuery` rule: the image is a global variable of an image type whose class supports the query. */
  function ValidateImageQuery(image: nat, query: ImageQuery, ctx: Context): (r: Result<set<ShaderStage>, ExpressionError>)
    requires image < |ctx.func.expressions|
    requires ctx.func.expressions[image].GlobalVariable? ==>
               var g := ctx.func.expressions[image].global;
               g < |ctx.ir.globalVariables| && ctx.ir.globalVariables[g].ty < |ctx.ir.types|
    ensures r.Ok? ==> r.value == AllStages
  {
    match ctx.func.expressions[image]
    case GlobalVariable(g) =>
      var gv := ctx.ir.globalVariables[g];
      (match ctx.ir.types[gv.ty].inner
       case Image(_, arrayed, iclass) =>
         if !QueryAgrees(query, arrayed, iclass) then Err(InvalidImageClass(iclass)) else Ok(AllStages)
       case _ => Err(ExpectedImageType(gv.ty)))
    case _ => Err(ExpectedGlobalVariable)
  }

  /** The rules for operators and `arrayLength`, which check the types of their operands. */
  function ValidateOperator(res: Resolver, e: Expression): (r: Result<set<ShaderStage>, ExpressionError>)
    requires res.WellFormed()
    requires e.Unary? || e.Binary? || e.Select? || e.Relational? || e.ArrayLength?
    ensures r.Ok? ==> (forall h :: h in Operands(e) ==> h < res.root) && r.value == AllStages
  {
    match e
    case Unary(op, x) =>
      var t :- res.Resolve(x);
      if UnaryOperandAgrees(op, t) then Ok(AllStages) else Err(InvalidUnaryOperandType(op, x))
    case Binary(op, left, right) =>
      var l :- res.Resolve(left);
      var r :- res.Resolve(right);
      if !BinaryOperandsAgree(op, l, r) then Err(InvalidBinaryOperandTypes(op, left, right))
      else Ok(AllStages)
    case Select(condition, accept, reject) =>
      var a :- res.Resolve(accept);
      var rj :- res.Resolve(reject);
      var c :- res.Resolve(condition);
      if !SelectConditionAgrees(c, a) || a != rj then Err(InvalidSelectTypes) else Ok(AllStages)
    case Relational(fun, argument) =>
      var t :- res.Resolve(argument);
      (match fun
       case All | Any =>
         if t.Vector? && t.kind == Bool then Ok(AllStages) else Err(InvalidBooleanVector(argument))
       case IsNan | IsInf | IsFinite | IsNormal =>
         if (t.Scalar? || t.Vector?) && t.kind == Float then Ok(AllStages)
         else Err(InvalidFloatArgument(argument)))
    case ArrayLength(x) =>
      var t :- res.Resolve(x);
      if t.Array? then Ok(AllStages) else Err(InvalidArrayType(x))
  }

  /** Check one expression of a function; `root` is its own handle. */
  function ValidateExpression(root: nat, e: Expression, ctx: Context): (r: Result<set<ShaderStage>, ExpressionError>)
    requires Indexable(root, e, ctx)
    ensures r.Ok? ==> forall h :: h in Operands(e) ==> h < root
    ensures r.Ok? ==> r.value == StagesOf(e, ctx)
  {
    var res := ResolverFor(root, ctx);
    match e
    case Access(base, index) =>
      var b :- res.Resolve(base);
      if !(b.Vector? || b.Matrix? || b.Array? || b.Pointer?) then Err(InvalidBaseType(base))
      else
        var i :- res.Resolve(index);
        if i.Scalar? && (i.kind == Sint || i.kind == Uint) then Ok(AllStages)
        else Err(InvalidIndexType(index))
    case AccessIndex(base, index) =>
      var b :- res.Resolve(base);
      var limit :- IndexLimit(b, base, ctx.ir.constants);
      if index >= limit then Err(IndexOutOfBounds(base, index)) else Ok(AllStages)
    case Constant(h) =>
      if h < |ctx.ir.constants| then Ok(AllStages) else Err(ConstantDoesntExist(h))
    case Compose(ty, comps) =>
      if ty >= |ctx.ir.types| then Err(ComposeTypeDoesntExist(ty))
      else
        var _ :- ValidateCompose(res, ty, comps, ctx.ir);
        Ok(AllStages)
    case FunctionArgument(index) =>
      if index >= TruncateU32(|ctx.func.arguments|) then Err(FunctionArgumentDoesntExist(index))
      else Ok(AllStages)
    case GlobalVariable(h) =>
      if h < |ctx.ir.globalVariables| then Ok(AllStages) else Err(GlobalVarDoesntExist(h))
    case LocalVariable(h) =>
      if h < |ctx.func.localVariables| then Ok(AllStages) else Err(LocalVarDoesntExist(h))
    case Load(pointer) =>
      ValidateLoad(res, pointer, ctx)
    case ImageSample => Ok(AllStages)
    case ImageLoad => Ok(AllStages)
    case ImageQuery(image, query) =>
      ValidateImageQuery(image, query, ctx)
    case Unary(_, _) => ValidateOperator(res, e)
    case Binary(_, _, _) => ValidateOperator(res, e)
    case Select(_, _, _) => ValidateOperator(res, e)
    case Derivative(_, _) => Ok({Fragment})
    case Relational(_, _) => ValidateOperator(res, e)
    case Math => Ok(AllStages)
    case As => Ok(AllStages)
    case Call(f) => Ok(ctx.otherInfos[f].availableStages)
    case ArrayLength(_) => ValidateOperator(res, e)
  }

  // ---------------------------------------------------------------------
  // Properties of the rules
  // ---------------------------------------------------------------------

  predicate IsNumeric(t: TypeInner) {
    (t.Scalar? || t.Vector?) && (t.kind == Sint || t.kind == Uint || t.kind == Float)
  }

  /**
   * A constant index is checked against the static length of what it
   * indexes; runtime-sized arrays and pointers admit every index but the
   * largest `u32`.
   */
  lemma AccessIndexRule(root: nat, base: nat, index: U32, ctx: Context)
    requires Indexable(root, AccessIndex(base, index), ctx)
    requires base < root
    ensures var t := ResolverFor(root, ctx).TypeOf(base);
            var r := ValidateExpression(root, AccessIndex(base, index), ctx);
            && (t.Vector? ==> (r.Ok? <==> index < t.size.Count()))
            && (t.Matrix? ==> (r.Ok? <==> index < t.columns.Count()))
            && (t.Array? && t.asize.ConstantSize? ==>
                  (r.Ok? <==> index < ArrayLengthOf(ctx.ir.constants[t.asize.handle]).value))
            && ((t.Array? && t.asize.Dynamic?) || t.Pointer? ==> (r.Ok? <==> index != U32Max))
            && (t.Struct? && |t.members| <= U32Max ==> (r.Ok? <==> index < |t.members|))
            && (t.Vector? || t.Matrix? || t.Array? || t.Pointer? || t.Struct? ==>
                  r.Err? ==> r.error == IndexOutOfBounds(base, index))
            && (!(t.Vector? || t.Matrix? || t.Array? || t.Pointer? || t.Struct?) ==>
                  r == Err(InvalidBaseType(base)))
  {
  }

  /**
   * A vector is composed from scalars and vectors of its own kind and width
   * whose sizes add up to its size; a component that does not fit is
   * reported by position, the first one first.
   */
  lemma {:induction false} VectorComposeRule(root: nat, ty: nat, comps: seq<nat>, ctx: Context)
    requires Indexable(root, Compose(ty, comps), ctx)
    requires ty < |ctx.ir.types| && ctx.ir.types[ty].inner.Vector?
    ensures var v := ctx.ir.types[ty].inner;
            var res := ResolverFor(root, ctx);
            var r := ValidateExpression(root, Compose(ty, comps), ctx);
            && (r.Ok? <==> (forall k :: 0 <= k < |comps| ==> FitsVector(res, comps[k], v.kind, v.width))
                           && Total(res, v.kind, v.width, comps) == v.size.Count())
            && ((exists k :: 0 <= k < |comps| && !FitsVector(res, comps[k], v.kind, v.width)) ==>
                  r.Err? && FirstVectorMisfit(res, v.kind, v.width, comps, 0, r.error))
            && ((forall k :: 0 <= k < |comps| ==> FitsVector(res, comps[k], v.kind, v.width)) ==>
                  var total := Total(res, v.kind, v.width, comps);
                  total != v.size.Count() ==> r == Err(InvalidComposeCount(total, v.size.Count())))
  {
    var v := ctx.ir.types[ty].inner;
    var res := ResolverFor(root, ctx);
    var total := VectorTotal(res, v.kind, v.width, comps, 0, 0);
    assert comps[0..] == comps;
    assert total.Ok? ==> total.value == Total(res, v.kind, v.width, comps);
  }

  /** A matrix is composed from exactly `columns` float vectors of `rows` components and its width. */
  lemma {:induction false} MatrixComposeRule(root: nat, ty: nat, comps: seq<nat>, ctx: Context)
    requires Indexable(root, Compose(ty, comps), ctx)
    requires ty < |ctx.ir.types| && ctx.ir.types[ty].inner.Matrix?
    ensures var mat := ctx.ir.types[ty].inner;
            var res := ResolverFor(root, ctx);
            var r := ValidateExpression(root, Compose(ty, comps), ctx);
            && (r.Ok? <==> |comps| == mat.columns.Count()
                           && forall k :: 0 <= k < |comps| ==>
                                comps[k] < root && res.TypeOf(comps[k]) == Vector(mat.rows, Float, mat.width))
            && (|comps| != mat.columns.Count() ==> r == Err(InvalidComposeCount(|comps|, mat.columns.Count())))
  {
    var mat := ctx.ir.types[ty].inner;
    var res := ResolverFor(root, ctx);
    var column := Vector(mat.rows, Float, mat.width);
    var expected := seq(|comps|, _ => column);
    assert forall k :: 0 <= k < |comps| ==> expected[k] == column;
  }

  /**
   * An array of constant length is composed from exactly that many values of
   * its element type; a runtime-sized array cannot be composed.
   */
  lemma {:induction false} ArrayComposeRule(root: nat, ty: nat, comps: seq<nat>, ctx: Context)
    requires Indexable(root, Compose(ty, comps), ctx)
    requires ty < |ctx.ir.types| && ctx.ir.types[ty].inner.Array?
    ensures var a := ctx.ir.types[ty].inner;
            var res := ResolverFor(root, ctx);
            var r := ValidateExpression(root, Compose(ty, comps), ctx);
            && (a.asize.Dynamic? ==> r == Err(InvalidComposeType(ty)))
            && (a.asize.ConstantSize? ==>
                  var count := ArrayLengthOf(ctx.ir.constants[a.asize.handle]).value;
                  && (count != |comps| ==> r == Err(InvalidComposeCount(|comps|, count)))
                  && (r.Ok? <==> count == |comps|
                                 && forall k :: 0 <= k < |comps| ==>
                                      comps[k] < root && res.TypeOf(comps[k]) == ctx.ir.types[a.base].inner))
  {
    var a := ctx.ir.types[ty].inner;
    if a.asize.ConstantSize? && ArrayLengthOf(ctx.ir.constants[a.asize.handle]).value == |comps| {
      var element := ctx.ir.types[a.base].inner;
      var expected := seq(|comps|, _ => element);
      assert forall k :: 0 <= k < |comps| ==> expected[k] == element;
    }
  }

  /**
   * A struct checks its components member by member before it checks their
   * number, so a mismatched component is reported even when the count is wrong.
   */
  lemma {:induction false} StructComposeChecksMembersFirst(root: nat, ty: nat, comps: seq<nat>, ctx: Context)
    requires Indexable(root, Compose(ty, comps), ctx)
    requires ty < |ctx.ir.types| && ctx.ir.types[ty].inner.Struct?
    requires var members := ctx.ir.types[ty].inner.members;
             0 < |members| && 0 < |comps| && comps[0] < root
             && ResolverFor(root, ctx).TypeOf(comps[0]) != ctx.ir.types[members[0].ty].inner
    ensures ValidateExpression(root, Compose(ty, comps), ctx) == Err(InvalidComponentType(0, comps[0]))
  {
    var members := ctx.ir.types[ty].inner.members;
    var expected := MemberTypes(members, ctx.ir.types, Min(|members|, |comps|));
    assert expected[0] == ctx.ir.types[members[0].ty].inner;
  }

  /**
   * Addition, subtraction, division, modulo and ordering need identical
   * numeric scalar or vector operands; the logical operators identical
   * boolean ones; the bitwise operators identical integer ones; equality
   * identical sized ones.
   */
  lemma OperandClassRules(op: BinaryOperator, l: TypeInner, r: TypeInner)
    ensures op in {Add, Subtract, Divide, Modulo, Less, LessEqual, Greater, GreaterEqual} ==>
      (BinaryOperandsAgree(op, l, r) <==> IsNumeric(l) && l == r)
    ensures op in {LogicalAnd, LogicalOr} ==>
      (BinaryOperandsAgree(op, l, r) <==> (l.Scalar? || l.Vector?) && l.kind == Bool && l == r)
    ensures op in {And, ExclusiveOr, InclusiveOr} ==>
      (BinaryOperandsAgree(op, l, r) <==> IsNumeric(l) && l.kind != Float && l == r)
    ensures op in {Equal, NotEqual} ==> (BinaryOperandsAgree(op, l, r) <==> IsSized(l) && l == r)
  {
  }

  /**
   * Multiplication needs a numeric left operand and equal widths; a matrix
   * times a vector needs as many columns as components, a vector times a
   * matrix as many components as rows, and two matrices the left columns to
   * equal the right rows.
   */
  lemma MultiplyRule(l: TypeInner, r: TypeInner)
    ensures BinaryOperandsAgree(Multiply, l, r) ==>
      ScalarKindOf(l).Some? && ScalarKindOf(l) != Some(Bool) && WidthOf(l) == WidthOf(r)
    ensures l.Matrix? && r.Vector? && r.kind == Float ==>
      (BinaryOperandsAgree(Multiply, l, r) <==> l.columns == r.size && l.width == r.width)
    ensures l.Vector? && l.kind == Float && r.Matrix? ==>
      (BinaryOperandsAgree(Multiply, l, r) <==> l.size == r.rows && l.width == r.width)
    ensures l.Matrix? && r.Matrix? ==>
      (BinaryOperandsAgree(Multiply, l, r) <==> l.columns == r.rows && l.width == r.width)
    ensures l.Matrix? && r.Vector? && r.kind != Float ==> !BinaryOperandsAgree(Multiply, l, r)
    ensures l.Vector? && r.Vector? ==>
      (BinaryOperandsAgree(Multiply, l, r) <==> l.kind != Bool && l.kind == r.kind && l.size == r.size && l.width == r.width)
  {
  }

  /** A shift needs an integer scalar or vector shifted by unsigned amounts of the same shape. */
  lemma ShiftRule(op: BinaryOperator, l: TypeInner, r: TypeInner)
    requires op == ShiftLeft || op == ShiftRight
    ensures BinaryOperandsAgree(op, l, r) <==>
      && (l.Scalar? || l.Vector?) && (l.kind == Sint || l.kind == Uint)
      && (r.Scalar? || r.Vector?) && r.kind == Uint
      && ((l.Scalar? && r.Scalar?) || (l.Vector? && r.Vector? && l.size == r.size))
  {
  }

  /** A binary expression is accepted exactly when both operands come first and their types fit the operator. */
  lemma {:induction false} BinaryRule(root: nat, op: BinaryOperator, left: nat, right: nat, ctx: Context)
    requires Indexable(root, Binary(op, left, right), ctx)
    ensures var res := ResolverFor(root, ctx);
            var r := ValidateExpression(root, Binary(op, left, right), ctx);
            && (r.Ok? <==> left < root && right < root && BinaryOperandsAgree(op, res.TypeOf(left), res.TypeOf(right)))
            && (left >= root ==> r == Err(ForwardDependency(left)))
            && (left < root && right >= root ==> r == Err(ForwardDependency(right)))
            && (left < root && right < root && r.Err? ==> r.error == InvalidBinaryOperandTypes(op, left, right))
  {
  }

  /** Negation rejects unsigned operands and bitwise not rejects floats; both need a scalar kind. */
  lemma UnaryRule(root: nat, op: UnaryOperator, x: nat, ctx: Context)
    requires Indexable(root, Unary(op, x), ctx)
    requires x < root
    ensures var t := ResolverFor(root, ctx).TypeOf(x);
            var r := ValidateExpression(root, Unary(op, x), ctx);
            && (op == Negate ==> (r.Ok? <==> ScalarKindOf(t).Some? && ScalarKindOf(t) != Some(Uint)))
            && (op == Not ==> (r.Ok? <==> ScalarKindOf(t).Some? && ScalarKindOf(t) != Some(Float)))
            && (r.Err? ==> r.error == InvalidUnaryOperandType(op, x))
  {
    var t := ResolverFor(root, ctx).TypeOf(x);
    assert UnaryOperandAgrees(op, t) <==> ScalarKindOf(t).Some? && ScalarKindOf(t) != Some(if op == Negate then Uint else Float) by {
      match ScalarKindOf(t)
      case None =>
      case Some(k) =>
        assert k == Sint || k == Uint || k == Float || k == Bool;
        assert ScalarKindOf(t) != Some(if op == Negate then Uint else Float) <==> k != (if op == Negate then Uint else Float);
    }
  }

  /**
   * Both branches of a select have one type; a scalar boolean condition
   * needs a sized one, and a boolean vector condition a vector of its size.
   */
  lemma SelectRule(root: nat, condition: nat, accept: nat, reject: nat, ctx: Context)
    requires Indexable(root, Select(condition, accept, reject), ctx)
    requires condition < root && accept < root && reject < root
    ensures var res := ResolverFor(root, ctx);
            var c := res.TypeOf(condition);
            var a := res.TypeOf(accept);
            var r := ValidateExpression(root, Select(condition, accept, reject), ctx);
            && (r.Ok? ==> a == res.TypeOf(reject))
            && (c.Scalar? && c.kind == Bool ==> (r.Ok? <==> IsSized(a) && a == res.TypeOf(reject)))
            && (c.Vector? && c.kind == Bool ==> (r.Ok? <==> a.Vector? && a.size == c.size && a == res.TypeOf(reject)))
            && (!((c.Scalar? || c.Vector?) && c.kind == Bool) ==> r == Err(InvalidSelectTypes))
  {
  }

  /**
   * Querying layers needs an arrayed image; querying a level's size or the
   * number of levels needs a single-sampled sampled image or a depth image;
   * querying the size without a level or the number of samples needs a
   * multisampled or storage image.
   */
  lemma ImageQueryRule(root: nat, image: nat, query: ImageQuery, ctx: Context)
    requires Indexable(root, ImageQuery(image, query), ctx)
    ensures var r := ValidateExpression(root, ImageQuery(image, query), ctx);
            var x := ctx.func.expressions[image];
            && (!x.GlobalVariable? ==> r == Err(ExpectedGlobalVariable))
            && (x.GlobalVariable? ==>
                 var ty := ctx.ir.globalVariables[x.global].ty;
                 var t := ctx.ir.types[ty].inner;
                 && (!t.Image? ==> r == Err(ExpectedImageType(ty)))
                 && (t.Image? ==>
                      && (query == NumLayers ==> (r.Ok? <==> t.arrayed))
                      && (query == NumLevels || (query.Size? && query.level.Some?) ==>
                            (r.Ok? <==> t.iclass == Depth || (t.iclass.Sampled? && !t.iclass.multi)))
                      && (query == NumSamples || query == Size(None) ==>
                            (r.Ok? <==> t.iclass.StorageImage? || (t.iclass.Sampled? && t.iclass.multi)))
                      && (r.Err? ==> r == Err(InvalidImageClass(t.iclass)))))
  {
  }
}

=== FILE: glsl_common.dfy ===
/**
 * Text generation shared by the GLSL back end: GLSL names for types, storage
 * classes, image dimensions and flags, and the text of statements and
 * expressions.
 *
 * This part of the back end is written against an older shape of the
 * intermediate representation than the validator (depth images as their own
 * type, image flags, matrices with a scalar kind), so it has its own
 * datatypes here.
 *
 * A panic of the source (`unwrap` on a missing name, an index outside an
 * arena, an unimplemented case) is the error `Panic`.
 */
module GlslCommon {
  import opened Wrappers
  import opened Strings
  import opened IrBasics

  datatype Error =
    | Custom(message: string)
    | ResolveFailed(expression: nat)
    | Panic(what: string)

  datatype ArraySize = Static(length: nat) | Dynamic

  datatype StorageClass = ConstantClass | FunctionClass | Input | Output | Private | StorageBuffer | Uniform | WorkGroup

  datatype ImageFlag = Arrayed | Multisampled | Sampled | CanLoad | CanStore

  datatype TypeInner =
    | Scalar(kind: ScalarKind, width: nat)
    | Vector(size: VectorSize, kind: ScalarKind, width: nat)
    | Matrix(columns: VectorSize, rows: VectorSize, kind: ScalarKind, width: nat)
    | Pointer(base: nat, space: StorageClass)
    | Array(base: nat, asize: ArraySize, stride: Option<nat>)
    | Struct(members: seq<nat>)
    | Image(base: nat, dim: ImageDimension, flags: set<ImageFlag>)
    | DepthImage(dim: ImageDimension, arrayed: bool)
    | Sampler(comparison: bool)

  datatype Type = Type(name: Option<string>, inner: TypeInner)

  /** The name chosen for a struct and for each of its members. */
  datatype StructNames = StructNames(name: string, members: seq<string>)

  // ---------------------------------------------------------------------
  // Names of types
  // ---------------------------------------------------------------------

  function FloatWidthError(width: nat): Error {
    Custom("Cannot build float of width " + NatToString(width))
  }

  /** A scalar type's name; integers and booleans of any width share one name. */
  function ScalarName(kind: ScalarKind, width: nat): (r: Result<string, Error>)
    ensures kind == Sint ==> r == Ok("int")
    ensures kind == Uint ==> r == Ok("uint")
    ensures kind == Bool ==> r == Ok("bool")
    ensures kind == Float && width == 4 ==> r == Ok("float")
    ensures kind == Float && width == 8 ==> r == Ok("double")
    ensures kind == Float && width != 4 && width != 8 ==> r == Err(FloatWidthError(width))
  {
    match kind
    case Sint => Ok("int")
    case Uint => Ok("uint")
    case Float =>
      if width == 4 then Ok("float")
      else if width == 8 then Ok("double")
      else Err(FloatWidthError(width))
    case Bool => Ok("bool")
  }

  /** The letter that marks the component type of a vector or matrix name. */
  function KindPrefix(kind: ScalarKind, width: nat): (r: Result<string, Error>)
    ensures r.Ok? ==> |r.value| <= 1
    ensures r.Err? <==> kind == Float && width != 4 && width != 8
  {
    match kind
    case Sint => Ok("i")
    case Uint => Ok("u")
    case Float =>
      if width == 4 then Ok("")
      else if width == 8 then Ok("d")
      else Err(FloatWidthError(width))
    case Bool => Ok("b")
  }

  function SizeDigit(size: VectorSize): string {
    NatToString(size.Count())
  }

  function VectorName(size: VectorSize, kind: ScalarKind, width: nat): Result<string, Error> {
    var prefix :- KindPrefix(kind, width);
    Ok(prefix + "vec" + SizeDigit(size))
  }

  function MatrixName(columns: VectorSize, rows: VectorSize, kind: ScalarKind, width: nat): Result<string, Error> {
    var prefix :- KindPrefix(kind, width);
    Ok(prefix + "mat" + SizeDigit(columns) + "x" + SizeDigit(rows))
  }

  /** The `Display` text of an array size: the length, or nothing for a runtime-sized array. */
  function ArraySizeText(size: ArraySize): (r: string)
    ensures size.Dynamic? <==> r == ""
    ensures size.Static? ==> (forall i :: 0 <= i < |r| ==> IsDigit(r[i])) && DecimalValue(r) == size.length
  {
    match size
    case Static(n) => DecimalRoundTrip(n); NatToString(n)
    case Dynamic => ""
  }

  /** The dimension part of an image type's name. */
  function DimText(dim: ImageDimension): (r: string)
    ensures |r| == 2 || r == "Cube"
  {
    match dim
    case D1 => "1D"
    case D2 => "2D"
    case D3 => "3D"
    case Cube => "Cube"
  }

  /** The dimension a GLSL image name part denotes. */
  function ParseDim(text: string): Option<ImageDimension> {
    if text == "1D" then Some(D1)
    else if text == "2D" then Some(D2)
    else if text == "3D" then Some(D3)
    else if text == "Cube" then Some(Cube)
    else None
  }

  /** Each dimension has its own text, and it reads back as that dimension. */
  lemma DimRoundTrip(dim: ImageDimension)
    ensures ParseDim(DimText(dim)) == Some(dim)
  {
  }

  /** The suffix image flags add to an image type's name: `MS` for multisampled, then `Array` for arrayed. */
  function FlagsText(flags: set<ImageFlag>): (r: string)
    ensures r in {"", "MS", "Array", "MSArray"}
    ensures StartsWith(r, "MS") <==> Multisampled in flags
    ensures (|r| >= 5 && r[|r| - 5..] == "Array") <==> Arrayed in flags
  {
    var ms, arrayed := Multisampled in flags, Arrayed in flags;
    if ms && arrayed then
      assert "MSArray"[..2] == "MS" && "MSArray"[2..] == "Array";
      "MSArray"
    else if ms then
      assert "MS"[..2] == "MS";
      "MS"
    else if arrayed then
      assert "Array"[..2] != "MS" by { assert "Array"[0] == 'A'; }
      assert "Array"[0..] == "Array";
      "Array"
    else ""
  }

  /** The storage qualifier written before a declaration; the function class has none yet. */
  function StorageClassText(space: StorageClass): (r: Result<string, Error>)
    ensures r.Err? <==> space == FunctionClass
    ensures r.Ok? ==> r.value == "" || r.value[|r.value| - 1] == ' '
    ensures r.Ok? ==> r.value in {"const ", "in ", "out ", "", "buffer ", "uniform ", "shared "}
  {
    match space
    case ConstantClass => Ok("const ")
    case FunctionClass => Err(Panic("not yet implemented: function storage class"))
    case Input => Ok("in ")
    case Output => Ok("out ")
    case Private => Ok("")
    case StorageBuffer => Ok("buffer ")
    case Uniform => Ok("uniform ")
    case WorkGroup => Ok("shared ")
  }

  /** The storage class a GLSL qualifier (with its trailing space) declares; no qualifier is private. */
  function ParseQualifier(text: string): Option<StorageClass> {
    if text == "const " then Some(ConstantClass)
    else if text == "in " then Some(Input)
    else if text == "out " then Some(Output)
    else if text == "" then Some(Private)
    else if text == "buffer " then Some(StorageBuffer)
    else if text == "uniform " then Some(Uniform)
    else if text == "shared " then Some(WorkGroup)
    else None
  }

  /** Every storage class but the function class writes a qualifier that reads back as that class. */
  lemma QualifierRoundTrip(space: StorageClass)
    ensures StorageClassText(space).Ok? ==> ParseQualifier(StorageClassText(space).value) == Some(space)
  {
  }

  /**
   * The GLSL name of type `h`. Only array element types and image sample
   * types are followed, so `fuel` (the arena's size at the top) runs out
   * only on a chain of types that loops back on itself.
   */
  function TypeName(types: seq<Type>, structs: map<nat, StructNames>, h: nat, fuel: nat): Result<string, Error>
    decreases fuel, 1
  {
    if h >= |types| then Err(Panic("type handle outside the arena"))
    else
      match types[h].inner
      case Scalar(kind, width) => ScalarName(kind, width)
      case Vector(size, kind, width) => VectorName(size, kind, width)
      case Matrix(columns, rows, kind, width) => MatrixName(columns, rows, kind, width)
      case Pointer(_, _) => Err(Panic("not yet implemented: pointer type"))
      case Array(base, size, _) =>
        if fuel == 0 then Err(Panic("type refers to itself"))
        else
          var element :- TypeName(types, structs, base, fuel - 1);
          Ok(element + "[" + ArraySizeText(size) + "]")
      case Struct(_) =>
        if h in structs then Ok(structs[h].name) else Err(Panic("struct without a name"))
      case Image(base, dim, flags) =>
        var prefix :- ImageSamplePrefix(types, structs, base, fuel);
        Ok(prefix + "image" + DimText(dim) + FlagsText(flags))
      case DepthImage(dim, arrayed) =>
        Ok("image" + DimText(dim) + (if arrayed then "Array" else ""))
      case Sampler(comparison) =>
        Ok(if comparison then "sampler" else "samplerShadow")
  }

  /** The prefix for the sample type of an image: only integer and float scalars are allowed. */
  function ImageSamplePrefix(types: seq<Type>, structs: map<nat, StructNames>, base: nat, fuel: nat)
    : Result<string, Error>
    decreases fuel, 0
  {
    if base >= |types| then Err(Panic("type handle outside the arena"))
    else
      match types[base].inner
      case Scalar(Sint, _) => Ok("i")
      case Scalar(Uint, _) => Ok("u")
      case Scalar(Float, _) => Ok("")
      case Scalar(Bool, _) => Err(Custom("Cannot build image of booleans"))
      case _ =>
        if fuel == 0 then Err(Panic("type refers to itself"))
        else
          var name :- TypeName(types, structs, base, fuel - 1);
          Err(Custom("Cannot build image of type " + name))
  }

  /** `Handle<Type>::write_glsl`. */
  function WriteType(types: seq<Type>, structs: map<nat, StructNames>, h: nat): Result<string, Error> {
    TypeName(types, structs, h, |types|)
  }

  // ---------------------------------------------------------------------
  // Reading a numeric type back from its name
  // ---------------------------------------------------------------------

  datatype Shape = ScalarShape | VectorShape(size: VectorSize) | MatrixShape(columns: VectorSize, rows: VectorSize)

  /** What the name of a scalar, vector or matrix type identifies: the width matters only for floats. */
  datatype NameKey = NameKey(shape: Shape, kind: ScalarKind, double: bool)

  predicate IsNumeric(t: TypeInner) {
    t.Scalar? || t.Vector? || t.Matrix?
  }

  function KeyOf(t: TypeInner): NameKey
    requires IsNumeric(t)
  {
    var shape := match t
      case Scalar(_, _) => ScalarShape
      case Vector(size, _, _) => VectorShape(size)
      case Matrix(columns, rows, _, _) => MatrixShape(columns, rows);
    NameKey(shape, t.kind, t.kind == Float && t.width == 8)
  }

  function ParseSize(c: char): Option<VectorSize> {
    if c == '2' then Some(Bi) else if c == '3' then Some(Tri) else if c == '4' then Some(Quad) else None
  }

  /** `vecN` or `matCxR`. */
  function ParseShape(rest: string): Option<Shape> {
    if |rest| == 4 && rest[..3] == "vec" && ParseSize(rest[3]).Some? then
      Some(VectorShape(ParseSize(rest[3]).value))
    else if |rest| == 6 && rest[..3] == "mat" && rest[4] == 'x' && ParseSize(rest[3]).Some? && ParseSize(rest[5]).Some? then
      Some(MatrixShape(ParseSize(rest[3]).value, ParseSize(rest[5]).value))
    else None
  }

  /** The reading of a GLSL scalar, vector or matrix type name. */
  function ParseTypeName(s: string): Option<NameKey> {
    if s == "int" then Some(NameKey(ScalarShape, Sint, false))
    else if s == "uint" then Some(NameKey(ScalarShape, Uint, false))
    else if s == "bool" then Some(NameKey(ScalarShape, Bool, false))
    else if s == "float" then Some(NameKey(ScalarShape, Float, false))
    else if s == "double" then Some(NameKey(ScalarShape, Float, true))
    else if |s| > 0 && s[0] in "iudb" then
      match ParseShape(s[1..])
      case None => None
      case Some(shape) =>
        var kind := if s[0] == 'i' then Sint else if s[0] == 'u' then Uint else if s[0] == 'b' then Bool else Float;
        Some(NameKey(shape, kind, s[0] == 'd'))
    else
      match ParseShape(s)
      case None => None
      case Some(shape) => Some(NameKey(shape, Float, false))
  }

  lemma SizeDigitParses(size: VectorSize)
    ensures |SizeDigit(size)| == 1 && ParseSize(SizeDigit(size)[0]) == Some(size)
  {
  }

  lemma {:induction false} PrefixedShapeParses(prefix: string, body: string, shape: Shape, kind: ScalarKind, width: nat)
    requires KindPrefix(kind, width) == Ok(prefix)
    requires ParseShape(body) == Some(shape)
    requires |body| >= 4 && (body[0] == 'v' || body[0] == 'm')
    ensures ParseTypeName(prefix + body) == Some(NameKey(shape, kind, kind == Float && width == 8))
  {
    var s := prefix + body;
    if prefix == "" {
      assert s == body;
      assert s[0] !in "iudb";
      assert s != "int" && s != "uint" && s != "bool" && s != "float" && s != "double" by {
        assert "int"[0] == 'i' && "uint"[0] == 'u' && "bool"[0] == 'b' && "float"[0] == 'f' && "double"[0] == 'd';
      }
    } else {
      assert s[0] == prefix[0] && s[1..] == body;
      assert |s| >= 5;
      assert s != "int" && s != "uint" && s != "bool";
      assert s != "float" && s != "double" by {
        assert "float"[1] == 'l' && "double"[1] == 'o';
        assert s[1] == body[0];
      }
    }
  }

  /**
   * The name of a scalar, vector or matrix type reads back as its shape,
   * sizes and kind, and for floats its width: two such types share a name
   * exactly when they agree on those.
   */
  lemma {:induction false} NumericNameRoundTrip(t: TypeInner)
    requires IsNumeric(t)
    requires !(t.kind == Float && t.width != 4 && t.width != 8)
    ensures NumericName(t).Ok?
    ensures ParseTypeName(NumericName(t).value) == Some(KeyOf(t))
  {
    match t
    case Scalar(kind, width) =>
    case Vector(size, kind, width) =>
      var prefix := KindPrefix(kind, width).value;
      var body := "vec" + SizeDigit(size);
      SizeDigitParses(size);
      assert body[..3] == "vec" && body[3] == SizeDigit(size)[0];
      assert prefix + "vec" + SizeDigit(size) == prefix + body;
      PrefixedShapeParses(prefix, body, VectorShape(size), kind, width);
    case Matrix(columns, rows, kind, width) =>
      var prefix := KindPrefix(kind, width).value;
      var body := "mat" + SizeDigit(columns) + "x" + SizeDigit(rows);
      SizeDigitParses(columns);
      SizeDigitParses(rows);
      assert body[..3] == "mat" && body[3] == SizeDigit(columns)[0] && body[4] == 'x' && body[5] == SizeDigit(rows)[0];
      assert prefix + "mat" + SizeDigit(columns) + "x" + SizeDigit(rows) == prefix + body;
      PrefixedShapeParses(prefix, body, MatrixShape(columns, rows), kind, width);
  }

  /** The name of a scalar, vector or matrix type, as `TypeName` writes it. */
  function NumericName(t: TypeInner): Result<string, Error>
    requires IsNumeric(t)
  {
    match t
    case Scalar(kind, width) => ScalarName(kind, width)
    case Vector(size, kind, width) => VectorName(size, kind, width)
    case Matrix(columns, rows, kind, width) => MatrixName(columns, rows, kind, width)
  }

  /** Two scalar, vector or matrix types get the same name only if they agree on shape, sizes, kind and float width. */
  lemma {:induction false} NumericNamesDistinguishTypes(a: TypeInner, b: TypeInner)
    requires IsNumeric(a) && IsNumeric(b)
    requires NumericName(a).Ok? && NumericName(b).Ok?
    ensures NumericName(a) == NumericName(b) <==> KeyOf(a) == KeyOf(b)
  {
    NumericNameRoundTrip(a);
    NumericNameRoundTrip(b);
    if KeyOf(a) == KeyOf(b) {
      assert NumericName(a) == NumericName(b) by {
        match a
        case Scalar(_, _) =>
        case Vector(_, _, _) =>
        case Matrix(_, _, _, _) =>
      }
    }
  }

  /**
   * A float whose width is neither 4 nor 8 bytes has no GLSL name, whether it
   * is a scalar or the component of a vector or matrix.
   */
  lemma FloatWidthRule(types: seq<Type>, structs: map<nat, StructNames>, h: nat, fuel: nat)
    requires h < |types| && IsNumeric(types[h].inner)
    requires types[h].inner.kind == Float && types[h].inner.width != 4 && types[h].inner.width != 8
    ensures TypeName(types, structs, h, fuel) == Err(FloatWidthError(types[h].inner.width))
  {
  }

  /**
   * An array is named by its element type followed by its length in
   * brackets; a runtime-sized array gets empty brackets.
   */
  lemma ArrayNameRule(types: seq<Type>, structs: map<nat, StructNames>, h: nat, fuel: nat)
    requires h < |types| && types[h].inner.Array? && fuel > 0
    ensures var t := types[h].inner;
            var element := TypeName(types, structs, t.base, fuel - 1);
            var r := TypeName(types, structs, h, fuel);
            && (element.Err? ==> r == element)
            && (element.Ok? && t.asize.Static? ==> r == Ok(element.value + "[" + NatToString(t.asize.length) + "]"))
            && (element.Ok? && t.asize.Dynamic? ==> r == Ok(element.value + "[]"))
  {
    var element := TypeName(types, structs, types[h].inner.base, fuel - 1);
    if element.Ok? {
      assert element.value + "[" + "" + "]" == element.value + "[]";
    }
  }

  /**
   * The name of image type `h`, by the type of its samples: `iimage`,
   * `uimage` or `image` for a signed, unsigned or float scalar, followed by
   * the dimension and the flag suffix; an error for a boolean scalar, and an
   * error naming any other sample type.
   */
  predicate ImageNameRule(types: seq<Type>, structs: map<nat, StructNames>, h: nat, fuel: nat)
    requires h < |types| && types[h].inner.Image?
  {
    var t := types[h].inner;
    var r := TypeName(types, structs, h, fuel);
    var dimFlags := DimText(t.dim) + FlagsText(t.flags);
    && (t.base >= |types| ==> r == Err(Panic("type handle outside the arena")))
    && (t.base < |types| ==>
          var b := types[t.base].inner;
          && (b.Scalar? && b.kind == Sint ==> r == Ok("iimage" + dimFlags))
          && (b.Scalar? && b.kind == Uint ==> r == Ok("uimage" + dimFlags))
          && (b.Scalar? && b.kind == Float ==> r == Ok("image" + dimFlags))
          && (b.Scalar? && b.kind == Bool ==> r == Err(Custom("Cannot build image of booleans")))
          && (!b.Scalar? && fuel == 0 ==> r == Err(Panic("type refers to itself")))
          && (!b.Scalar? && fuel > 0 ==>
                var n := TypeName(types, structs, t.base, fuel - 1);
                && (n.Ok? ==> r == Err(Custom("Cannot build image of type " + n.value)))
                && (n.Err? ==> r == Err(n.error))))
  }

  /**
   * Image names follow ImageNameRule; a depth image has no prefix and only
   * an `Array` suffix. A sampler with comparison is named `sampler` and one
   * without `samplerShadow`.
   */
  lemma ImageAndSamplerNames(types: seq<Type>, structs: map<nat, StructNames>, h: nat, fuel: nat)
    requires h < |types|
    ensures var t := types[h].inner;
            var r := TypeName(types, structs, h, fuel);
            && (t.Image? ==> ImageNameRule(types, structs, h, fuel))
            && (t.DepthImage? ==> r == Ok("image" + DimText(t.dim) + (if t.arrayed then "Array" else "")))
            && (t.Sampler? ==> (r == Ok("sampler") <==> t.comparison))
            && (t.Sampler? ==> (r == Ok("samplerShadow") <==> !t.comparison))
  {
    var t := types[h].inner;
    if t.Image? {
      ImageName(types, structs, h, fuel);
    } else if t.Sampler? {
      SamplerName(types, structs, h, fuel);
    }
  }

  lemma ImageName(types: seq<Type>, structs: map<nat, StructNames>, h: nat, fuel: nat)
    requires h < |types| && types[h].inner.Image?
    ensures ImageNameRule(types, structs, h, fuel)
  {
    var t := types[h].inner;
    if t.base < |types| && types[t.base].inner.Scalar? {
      ImageScalarName(types, structs, h, fuel);
    }
  }

  /** The image arm of the type writer for a scalar sample type. */
  lemma ImageScalarName(types: seq<Type>, structs: map<nat, StructNames>, h: nat, fuel: nat)
    requires h < |types| && types[h].inner.Image?
    requires types[h].inner.base < |types| && types[types[h].inner.base].inner.Scalar?
    ensures var t := types[h].inner;
            var r := TypeName(types, structs, h, fuel);
            var dimFlags := DimText(t.dim) + FlagsText(t.flags);
            match types[t.base].inner.kind
            case Sint => r == Ok("iimage" + dimFlags)
            case Uint => r == Ok("uimage" + dimFlags)
            case Float => r == Ok("image" + dimFlags)
            case Bool => r == Err(Custom("Cannot build image of booleans"))
  {
    var t := types[h].inner;
    var p := ImageSamplePrefix(types, structs, t.base, fuel);
    ImagePrefixStep(types, structs, h, fuel);
    match types[t.base].inner.kind
    case Sint => assert p == Ok("i") && "i" + "image" == "iimage";
    case Uint => assert p == Ok("u") && "u" + "image" == "uimage";
    case Float => assert p == Ok("") && "" + "image" == "image";
    case Bool => assert p.Err?;
  }

  /** The image arm of the type writer is its sample prefix followed by `image`, the dimension and the flags. */
  lemma ImagePrefixStep(types: seq<Type>, structs: map<nat, StructNames>, h: nat, fuel: nat)
    requires h < |types| && types[h].inner.Image?
    ensures var t := types[h].inner;
            var p := ImageSamplePrefix(types, structs, t.base, fuel);
            var r := TypeName(types, structs, h, fuel);
            && (p.Ok? ==> r == Ok(p.value + "image" + (DimText(t.dim) + FlagsText(t.flags))))
            && (p.Err? ==> r == Err(p.error))
  {
    var t := types[h].inner;
    var p := ImageSamplePrefix(types, structs, t.base, fuel);
    if p.Ok? {
      assert p.value + "image" + DimText(t.dim) + FlagsText(t.flags) == p.value + "image" + (DimText(t.dim) + FlagsText(t.flags));
    }
  }

  lemma SamplerName(types: seq<Type>, structs: map<nat, StructNames>, h: nat, fuel: nat)
    requires h < |types| && types[h].inner.Sampler?
    ensures var r := TypeName(types, structs, h, fuel);
            && (r == Ok("sampler") <==> types[h].inner.comparison)
            && (r == Ok("samplerShadow") <==> !types[h].inner.comparison)
  {
    assert "sampler" != "samplerShadow";
  }

  // ---------------------------------------------------------------------
  // Statements and expressions
  // ---------------------------------------------------------------------

  datatype UnaryOperator = Negate | Not

  datatype BinaryOperator =
    | Add | Subtract | Multiply | Divide | Modulo
    | Equal | NotEqual | Less | LessEqual | Greater | GreaterEqual
    | And | ExclusiveOr | InclusiveOr | LogicalAnd | LogicalOr
    | ShiftLeftLogical | ShiftRightLogical | ShiftRightArithmetic

  datatype DerivativeAxis = X | Y | Width

  datatype FunctionOrigin = External(name: string) | Local(handle: nat)

  /** Float constants keep the text Rust's `Display` prints for them. */
  datatype ConstantInner = SintValue(i: int) | UintValue(u: nat) | FloatValue(text: string) | BoolValue(b: bool) | Composite(components: seq<nat>)

  /** The operands of image sampling and intrinsics are not modelled: their text is not written yet. */
  datatype Expression =
    | Access(base: nat, index: nat)
    | AccessIndex(base: nat, constIndex: nat)
    | Constant(constant: nat)
    | Compose(ty: nat, components: seq<nat>)
    | FunctionParameter(position: nat)
    | GlobalVariable(global: nat)
    | LocalVariable(local: nat)
    | Load(pointer: nat)
    | ImageSample
    | Unary(uop: UnaryOperator, expr: nat)
    | Binary(bop: BinaryOperator, left: nat, right: nat)
    | Intrinsic
    | DotProduct(a: nat, b: nat)
    | CrossProduct(a: nat, b: nat)
    | Derivative(axis: DerivativeAxis, expr: nat)
    | Call(origin: FunctionOrigin, arguments: seq<nat>)

  datatype Statement =
    | Empty
    | Block(statements: seq<Statement>)
    | If(condition: nat, accept: seq<Statement>, reject: seq<Statement>)
    | Switch(selector: nat, cases: seq<SwitchCase>, default: seq<Statement>)
    | Loop(body: seq<Statement>, continuing: seq<Statement>)
    | Break
    | Continue
    | Return(returned: Option<nat>)
    | Kill
    | Store(pointer: nat, value: nat)

  /** A case of a switch, in the order the case table yields them; `fallthrough` is present or not. */
  datatype SwitchCase = SwitchCase(caseValue: int, block: seq<Statement>, fallthrough: bool)

  /**
   * The names chosen for the module's items, and the arenas the emitted
   * function reads. `resolved` maps an expression to the handle of its type,
   * as the type resolution of the back end computes it.
   */
  datatype Builder = Builder(
    functions: map<nat, string>,
    globals: map<nat, string>,
    localsLookup: map<nat, string>,
    structs: map<nat, StructNames>,
    args: map<nat, string>,
    expressions: seq<Expression>,
    types: seq<Type>,
    constants: seq<ConstantInner>,
    resolved: map<nat, nat>)

  function UnarySymbol(op: UnaryOperator): string {
    match op
    case Negate => "-"
    case Not => "~"
  }

  function BinarySymbol(op: BinaryOperator): (r: Result<string, Error>)
    ensures r.Err? <==> op == ShiftRightLogical
    ensures r.Ok? ==> 1 <= |r.value| <= 2
  {
    match op
    case Add => Ok("+")
    case Subtract => Ok("-")
    case Multiply => Ok("*")
    case Divide => Ok("/")
    case Modulo => Ok("%")
    case Equal => Ok("==")
    case NotEqual => Ok("!=")
    case Less => Ok("<")
    case LessEqual => Ok("<=")
    case Greater => Ok(">")
    case GreaterEqual => Ok(">=")
    case And => Ok("&")
    case ExclusiveOr => Ok("^")
    case InclusiveOr => Ok("|")
    case LogicalAnd => Ok("&&")
    case LogicalOr => Ok("||")
    case ShiftLeftLogical => Ok("<<")
    case ShiftRightLogical => Err(Panic("not yet implemented: logical right shift"))
    case ShiftRightArithmetic => Ok(">>")
  }

  /** The `Display` text of a constant; composite constants are not written yet. */
  function ConstantText(c: ConstantInner): (r: Result<string, Error>)
    ensures r.Err? <==> c.Composite?
    ensures c.SintValue? ==> SignedValue(r.value) == c.i
    ensures c.UintValue? ==> DecimalValue(r.value) == c.u && forall k :: 0 <= k < |r.value| ==> IsDigit(r.value[k])
    ensures c.BoolValue? ==> (r.value == "true" <==> c.b) && (r.value == "false" <==> !c.b)
  {
    match c
    case SintValue(i) => SignedRoundTrip(i); Ok(IntToString(i))
    case UintValue(u) => DecimalRoundTrip(u); Ok(NatToString(u))
    case FloatValue(text) => Ok(text)
    case BoolValue(b) => Ok(if b then "true" else "false")
    case Composite(_) => Err(Panic("not yet implemented: composite constant"))
  }

  function Lookup<V>(m: map<nat, V>, key: nat, what: string): Result<V, Error> {
    if key in m then Ok(m[key]) else Err(Panic(what))
  }

  /** The name `Compose` writes before its arguments: that of a scalar, vector, matrix, array or struct type. */
  function ComposeTypeName(b: Builder, ty: nat): Result<string, Error> {
    if ty >= |b.types| then Err(Panic("type handle outside the arena"))
    else
      match b.types[ty].inner
      case Scalar(kind, width) => ScalarName(kind, width)
      case Vector(size, kind, width) => VectorName(size, kind, width)
      case Matrix(columns, rows, kind, width) => MatrixName(columns, rows, kind, width)
      case Array(_, _, _) => WriteType(b.types, b.structs, ty)
      case Struct(_) => var names :- Lookup(b.structs, ty, "struct without a name"); Ok(names.name)
      case _ =>
        var name :- WriteType(b.types, b.structs, ty);
        Err(Custom("Cannot compose type " + name))
  }

  /**
   * The text of expression `h`. Operands are followed through the
   * expression arena, so `fuel` (the arena's size at the top) runs out only
   * on an expression that refers back to itself.
   */
  function ExprText(b: Builder, h: nat, fuel: nat): Result<string, Error>
    decreases fuel, 0
  {
    if h >= |b.expressions| then Err(Panic("expression handle outside the arena"))
    else if fuel == 0 then Err(Panic("expression refers to itself"))
    else
      var f := fuel - 1;
      match b.expressions[h]
      case Access(base, index) =>
        var x :- ExprText(b, base, f);
        var i :- ExprText(b, index, f);
        Ok(x + "[" + i + "]")
      case AccessIndex(base, index) =>
        var ty :- if base in b.resolved then Ok(b.resolved[base]) else Err(ResolveFailed(base));
        if ty >= |b.types| then Err(Panic("type handle outside the arena"))
        else
          (match b.types[ty].inner
           case Vector(_, _, _) => var x :- ExprText(b, base, f); Ok(x + "[" + NatToString(index) + "]")
           case Matrix(_, _, _, _) => var x :- ExprText(b, base, f); Ok(x + "[" + NatToString(index) + "]")
           case Array(_, _, _) => var x :- ExprText(b, base, f); Ok(x + "[" + NatToString(index) + "]")
           case Struct(_) =>
             var x :- ExprText(b, base, f);
             var names :- Lookup(b.structs, ty, "struct without a name");
             if index < |names.members| then Ok(x + "." + names.members[index])
             else Err(Panic("struct member index outside the struct"))
           case _ =>
             var name :- WriteType(b.types, b.structs, ty);
             Err(Custom("Cannot index " + name)))
      case Constant(c) =>
        if c < |b.constants| then ConstantText(b.constants[c]) else Err(Panic("constant handle outside the arena"))
      case Compose(ty, components) =>
        var name :- ComposeTypeName(b, ty);
        var parts :- ExprTexts(b, components, f);
        Ok(name + "(" + Join(parts, ",") + ")")
      case FunctionParameter(position) => Lookup(b.args, position, "argument without a name")
      case GlobalVariable(g) => Lookup(b.globals, g, "global without a name")
      case LocalVariable(l) => Lookup(b.localsLookup, l, "local without a name")
      case Load(_) => Err(Panic("not yet implemented: load"))
      case ImageSample => Err(Panic("not yet implemented: image sample"))
      case Unary(op, x) =>
        var operand :- ExprText(b, x, f);
        Ok("(" + UnarySymbol(op) + " " + operand + ")")
      case Binary(op, left, right) =>
        var l :- ExprText(b, left, f);
        var symbol :- BinarySymbol(op);
        var r :- ExprText(b, right, f);
        Ok("(" + l + " " + symbol + " " + r + ")")
      case Intrinsic => Err(Panic("not yet implemented: intrinsic"))
      case DotProduct(x, y) =>
        var l :- ExprText(b, x, f);
        var r :- ExprText(b, y, f);
        Ok("dot(" + l + "," + r + ")")
      case CrossProduct(x, y) =>
        var l :- ExprText(b, x, f);
        var r :- ExprText(b, y, f);
        Ok("cross(" + l + "," + r + ")")
      case Derivative(axis, x) =>
        var name :- (match axis
                     case X => Ok("dFdx")
                     case Y => Ok("dFdy")
                     case Width => Err(Panic("not yet implemented: fwidth")));
        var operand :- ExprText(b, x, f);
        Ok(name + "(" + operand + ")")
      case Call(origin, arguments) =>
        var name :- (match origin
                     case External(n) => Ok(n)
                     case Local(fh) => Lookup(b.functions, fh, "function without a name"));
        var parts :- ExprTexts(b, arguments, f);
        Ok(name + "(" + Join(parts, ",") + ")")
  }

  /** The texts of several expressions, stopping at the first error. */
  function ExprTexts(b: Builder, hs: seq<nat>, fuel: nat): (r: Result<seq<string>, Error>)
    ensures r.Ok? ==> |r.value| == |hs|
    decreases fuel, 1, |hs|
  {
    if |hs| == 0 then Ok([])
    else
      var first :- ExprText(b, hs[0], fuel);
      var rest :- ExprTexts(b, hs[1..], fuel);
      Ok([first] + rest)
  }

  /** `Expression::write_glsl`. */
  function WriteExpression(b: Builder, h: nat): Result<string, Error> {
    ExprText(b, h, |b.expressions|)
  }

  /** Each statement's text after `indent`, one per line. */
  function Lines(b: Builder, indent: string, ss: seq<Statement>): Result<string, Error>
    decreases ss
  {
    if |ss| == 0 then Ok("")
    else
      var first :- StatementText(b, ss[0]);
      var rest :- Lines(b, indent, ss[1..]);
      Ok(indent + first + "\n" + rest)
  }

  /** The statements' texts joined by line breaks, stopping at the first error. */
  function BlockTexts(b: Builder, ss: seq<Statement>): (r: Result<seq<string>, Error>)
    ensures r.Ok? ==> |r.value| == |ss|
    decreases ss
  {
    if |ss| == 0 then Ok([])
    else
      var first :- StatementText(b, ss[0]);
      var rest :- BlockTexts(b, ss[1..]);
      Ok([first] + rest)
  }

  function CaseLines(b: Builder, cases: seq<SwitchCase>): Result<string, Error>
    decreases cases
  {
    if |cases| == 0 then Ok("")
    else
      var c := cases[0];
      var body :- Lines(b, "      ", c.block);
      var rest :- CaseLines(b, cases[1..]);
      Ok("   case " + IntToString(c.caseValue) + ":\n" + body + (if c.fallthrough then "      break;\n" else "") + rest)
  }

  /** `Statement::write_glsl`. */
  function StatementText(b: Builder, s: Statement): Result<string, Error>
    decreases s
  {
    match s
    case Empty => Ok("")
    case Block(ss) =>
      var parts :- BlockTexts(b, ss);
      Ok(Join(parts, "\n"))
    case If(condition, accept, reject) =>
      var c :- WriteExpression(b, condition);
      var yes :- Lines(b, "", accept);
      var no :- Lines(b, "", reject);
      Ok("if(" + c + ") {\n" + yes + "} else {\n" + no + "}")
    case Switch(selector, cases, default) =>
      var sel :- WriteExpression(b, selector);
      var body :- CaseLines(b, cases);
      var otherwise :- Lines(b, "      ", default);
      Ok("switch(" + sel + ") {\n" + body + "   default:\n" + otherwise + "}")
    case Loop(body, continuing) =>
      var first :- Lines(b, "    ", body);
      var last :- Lines(b, "    ", continuing);
      Ok("while(true) {\n" + first + last + "}")
    case Break => Ok("break;")
    case Continue => Ok("continue;")
    case Return(value) =>
      var v :- if value.Some? then WriteExpression(b, value.value) else Ok("");
      Ok("return  " + v + ";")
    case Kill => Ok("discard;")
    case Store(pointer, value) =>
      var p :- WriteExpression(b, pointer);
      var v :- WriteExpression(b, value);
      Ok(p + " = " + v + ";")
  }

  /**
   * The type writer and `Compose` name a scalar, vector or matrix type the
   * same way, so a constructor call reads back as the type it builds.
   */
  lemma ComposeNamesNumericType(b: Builder, ty: nat)
    requires ty < |b.types| && IsNumeric(b.types[ty].inner)
    ensures ComposeTypeName(b, ty) == WriteType(b.types, b.structs, ty) == NumericName(b.types[ty].inner)
    ensures ComposeTypeName(b, ty).Ok? ==> ParseTypeName(ComposeTypeName(b, ty).value) == Some(KeyOf(b.types[ty].inner))
  {
    var t := b.types[ty].inner;
    if !(t.kind == Float && t.width != 4 && t.width != 8) {
      NumericNameRoundTrip(t);
    }
  }

  // ---------------------------------------------------------------------
  // Properties of the emitters
  // ---------------------------------------------------------------------

  /** No two operators share a symbol, so the operator can be read back from the text. */
  lemma BinarySymbolsDistinct(x: BinaryOperator, y: BinaryOperator)
    requires BinarySymbol(x).Ok? && BinarySymbol(y).Ok?
    ensures BinarySymbol(x) == BinarySymbol(y) <==> x == y
  {
  }

  /** Negation and bitwise complement are written with different symbols. */
  lemma UnarySymbolsDistinct(x: UnaryOperator, y: UnaryOperator)
    ensures UnarySymbol(x) == UnarySymbol(y) <==> x == y
  {
  }

  /**
   * Fuel only cuts off cyclic expressions: once an expression has a text,
   * more fuel gives the same text.
   */
  lemma {:induction false} ExprTextFuel(b: Builder, h: nat, f: nat, g: nat)
    requires f <= g && ExprText(b, h, f).Ok?
    ensures ExprText(b, h, g) == ExprText(b, h, f)
    decreases f, 1
  {
    match b.expressions[h]
    case Access(base, index) => PairFuel(b, h, base, index, f, g);
    case Binary(_, left, right) => PairFuel(b, h, left, right, f, g);
    case DotProduct(x, y) => PairFuel(b, h, x, y, f, g);
    case CrossProduct(x, y) => PairFuel(b, h, x, y, f, g);
    case AccessIndex(base, _) => OperandFuel(b, h, base, f, g);
    case Unary(_, x) => OperandFuel(b, h, x, f, g);
    case Derivative(_, x) => OperandFuel(b, h, x, f, g);
    case Compose(_, components) => ListFuel(b, h, components, f, g);
    case Call(_, arguments) => ListFuel(b, h, arguments, f, g);
    case _ =>
  }

  /** The fuel lemma for the expressions with two operands. */
  lemma {:induction false} PairFuel(b: Builder, h: nat, x: nat, y: nat, f: nat, g: nat)
    requires f <= g && ExprText(b, h, f).Ok?
    requires match b.expressions[h]
             case Access(base, index) => base == x && index == y
             case Binary(_, left, right) => left == x && right == y
             case DotProduct(l, r) => l == x && r == y
             case CrossProduct(l, r) => l == x && r == y
             case _ => false
    ensures ExprText(b, h, g) == ExprText(b, h, f)
    decreases f, 0
  {
    ExprTextFuel(b, x, f - 1, g - 1);
    ExprTextFuel(b, y, f - 1, g - 1);
  }

  /** The fuel lemma for the expressions with one operand. */
  lemma {:induction false} OperandFuel(b: Builder, h: nat, x: nat, f: nat, g: nat)
    requires f <= g && ExprText(b, h, f).Ok?
    requires match b.expressions[h]
             case AccessIndex(base, _) => base == x
             case Unary(_, e) => e == x
             case Derivative(_, e) => e == x
             case _ => false
    ensures ExprText(b, h, g) == ExprText(b, h, f)
    decreases f, 0
  {
    if ExprText(b, x, f - 1).Ok? {
      ExprTextFuel(b, x, f - 1, g - 1);
    }
  }

  /** The fuel lemma for the expressions with a list of operands. */
  lemma {:induction false} ListFuel(b: Builder, h: nat, xs: seq<nat>, f: nat, g: nat)
    requires f <= g && ExprText(b, h, f).Ok?
    requires match b.expressions[h]
             case Compose(_, components) => components == xs
             case Call(_, arguments) => arguments == xs
             case _ => false
    ensures ExprText(b, h, g) == ExprText(b, h, f)
    decreases f, 0
  {
    ExprTextsFuel(b, xs, f - 1, g - 1);
  }

  /** A list of operands is written exactly when each operand is, and its texts are theirs, in order. */
  lemma {:induction false} ExprTextsEach(b: Builder, hs: seq<nat>, fuel: nat)
    ensures var r := ExprTexts(b, hs, fuel);
            && (r.Ok? <==> forall i :: 0 <= i < |hs| ==> ExprText(b, hs[i], fuel).Ok?)
            && (r.Ok? ==> forall i :: 0 <= i < |hs| ==> ExprText(b, hs[i], fuel) == Ok(r.value[i]))
    decreases |hs|
  {
    if |hs| > 0 {
      ExprTextsEach(b, hs[1..], fuel);
      forall i | 0 < i < |hs|
        ensures ExprText(b, hs[i], fuel) == ExprText(b, hs[1..][i - 1], fuel)
      {
        assert hs[1..][i - 1] == hs[i];
      }
    }
  }

  /** A block is written exactly when each statement is, and its texts are theirs, in order. */
  lemma {:induction false} BlockTextsEach(b: Builder, ss: seq<Statement>)
    ensures var r := BlockTexts(b, ss);
            && (r.Ok? <==> forall i :: 0 <= i < |ss| ==> StatementText(b, ss[i]).Ok?)
            && (r.Ok? ==> forall i :: 0 <= i < |ss| ==> StatementText(b, ss[i]) == Ok(r.value[i]))
    decreases |ss|
  {
    if |ss| > 0 {
      BlockTextsEach(b, ss[1..]);
      forall i | 0 < i < |ss|
        ensures StatementText(b, ss[i]) == StatementText(b, ss[1..][i - 1])
      {
        assert ss[1..][i - 1] == ss[i];
      }
    }
  }

  lemma {:induction false} ExprTextsFuel(b: Builder, hs: seq<nat>, f: nat, g: nat)
    requires f <= g && ExprTexts(b, hs, f).Ok?
    ensures ExprTexts(b, hs, g) == ExprTexts(b, hs, f)
    decreases f, 2, |hs|
  {
    if |hs| > 0 {
      ExprTextFuel(b, hs[0], f, g);
      ExprTextsFuel(b, hs[1..], f, g);
    }
  }

  /**
   * An operand that has a text inside an expression has the same text when
   * written on its own.
   */
  lemma OperandText(b: Builder, x: nat)
    requires 0 < |b.expressions| && ExprText(b, x, |b.expressions| - 1).Ok?
    ensures WriteExpression(b, x) == ExprText(b, x, |b.expressions| - 1)
  {
    ExprTextFuel(b, x, |b.expressions| - 1, |b.expressions|);
  }

  /**
   * A binary expression is written as its operands' own texts around the
   * operator's symbol, spaced and parenthesised; a logical right shift
   * cannot be written.
   */
  lemma BinaryText(b: Builder, h: nat)
    requires h < |b.expressions| && b.expressions[h].Binary?
    ensures var e := b.expressions[h];
      WriteExpression(b, h).Ok? ==>
        && WriteExpression(b, e.left).Ok? && WriteExpression(b, e.right).Ok? && BinarySymbol(e.bop).Ok?
        && WriteExpression(b, h).value ==
             "(" + WriteExpression(b, e.left).value + " " + BinarySymbol(e.bop).value + " " + WriteExpression(b, e.right).value + ")"
    ensures b.expressions[h].bop == ShiftRightLogical ==> WriteExpression(b, h).Err?
  {
    var e := b.expressions[h];
    if WriteExpression(b, h).Ok? {
      OperandText(b, e.left);
      OperandText(b, e.right);
    }
  }

  /** A unary expression is written as its symbol, a space and its operand's own text, parenthesised. */
  lemma UnaryText(b: Builder, h: nat)
    requires h < |b.expressions| && b.expressions[h].Unary?
    ensures var e := b.expressions[h];
      WriteExpression(b, h).Ok? ==>
        && WriteExpression(b, e.expr).Ok?
        && WriteExpression(b, h).value == "(" + UnarySymbol(e.uop) + " " + WriteExpression(b, e.expr).value + ")"
  {
    if WriteExpression(b, h).Ok? {
      OperandText(b, b.expressions[h].expr);
    }
  }

  /** Writing two statement lists in a row is writing their concatenation. */
  lemma {:induction false} LinesAppend(b: Builder, indent: string, xs: seq<Statement>, ys: seq<Statement>)
    ensures Lines(b, indent, xs + ys) ==
              (var l :- Lines(b, indent, xs); var r :- Lines(b, indent, ys); Ok(l + r))
    decreases xs
  {
    if |xs| == 0 {
      assert xs + ys == ys;
      if Lines(b, indent, ys).Ok? {
        assert "" + Lines(b, indent, ys).value == Lines(b, indent, ys).value;
      }
    } else {
      assert (xs + ys)[0] == xs[0];
      assert (xs + ys)[1..] == xs[1..] + ys;
      LinesAppend(b, indent, xs[1..], ys);
      var first := StatementText(b, xs[0]);
      if first.Ok? && Lines(b, indent, xs[1..]).Ok? && Lines(b, indent, ys).Ok? {
        var t, u, v := first.value, Lines(b, indent, xs[1..]).value, Lines(b, indent, ys).value;
        assert indent + t + "\n" + (u + v) == (indent + t + "\n" + u) + v;
      }
    }
  }

  /**
   * A loop is written as `while(true)` around the lines of its body followed
   * by the lines of its continuing block.
   */
  lemma LoopText(b: Builder, body: seq<Statement>, continuing: seq<Statement>)
    ensures StatementText(b, Loop(body, continuing)) ==
              (var t :- Lines(b, "    ", body + continuing); Ok("while(true) {\n" + t + "}"))
  {
    LinesAppend(b, "    ", body, continuing);
    var f, c := Lines(b, "    ", body), Lines(b, "    ", continuing);
    if f.Ok? && c.Ok? {
      assert "while(true) {\n" + f.value + c.value + "}" == "while(true) {\n" + (f.value + c.value) + "}";
    }
  }

  /**
   * A loop writes its continuing block inside the `while(true)` body, after
   * the body's own statements, so moving the continuing statements to the
   * end of the body does not change the text.
   */
  lemma LoopInlinesContinuing(b: Builder, body: seq<Statement>, continuing: seq<Statement>)
    ensures StatementText(b, Loop(body, continuing)) == StatementText(b, Loop(body + continuing, []))
  {
    LoopText(b, body, continuing);
    LoopText(b, body + continuing, []);
    assert body + continuing + [] == body + continuing;
  }

  /**
   * Every case label opens a `case` line followed by the case's statements;
   * `break;` closes the case exactly when it carries a fall-through block.
   */
  lemma SwitchCaseLayout(b: Builder, c: SwitchCase)
    requires Lines(b, "      ", c.block).Ok?
    ensures var head := "   case " + IntToString(c.caseValue) + ":\n";
            var body := Lines(b, "      ", c.block).value;
            var r := CaseLines(b, [c]);
            && r.Ok?
            && StartsWith(r.value, head + body)
            && (c.fallthrough ==> r.value == head + body + "      break;\n")
            && (!c.fallthrough ==> r.value == head + body)
  {
    var head := "   case " + IntToString(c.caseValue) + ":\n";
    var body := Lines(b, "      ", c.block).value;
    assert [c][1..] == [];
    assert CaseLines(b, []) == Ok("");
    var r := head + body + (if c.fallthrough then "      break;\n" else "") + "";
    assert CaseLines(b, [c]) == Ok(r);
    assert r[..|head + body|] == head + body;
  }
}

=== FILE: ir.dfy ===
/**
 * The intermediate representation as the validator sees it: arenas are
 * sequences and a handle is an index into its arena. Only the parts of each
 * record that the validator reads are kept.
 */
module Ir {
  import opened Wrappers
  import opened IrBasics

  /** The largest `u32`, written `!0` in the source. */
  const U32Max: nat := 0xFFFF_FFFF

  type U32 = x: nat | x <= U32Max

  datatype ShaderStage = Vertex | Fragment | Compute

  /** `ShaderStages::all()`. */
  const AllStages: set<ShaderStage> := {Vertex, Fragment, Compute}

  datatype StorageClass = FunctionClass | Input | Output | Private | WorkGroup | Uniform | Storage | HandleClass | PushConstant

  /** An array length, either a handle into the constant arena or unknown until run time. */
  datatype ArraySize = ConstantSize(handle: nat) | Dynamic

  datatype ImageClass = Sampled(kind: ScalarKind, multi: bool) | Depth | StorageImage(format: nat)

  datatype StructMember = StructMember(name: Option<string>, ty: nat)

  datatype TypeInner =
    | Scalar(kind: ScalarKind, width: nat)
    | Vector(size: VectorSize, kind: ScalarKind, width: nat)
    | Matrix(columns: VectorSize, rows: VectorSize, width: nat)
    | Pointer(base: nat, space: StorageClass)
    | ValuePointer(vsize: Option<VectorSize>, kind: ScalarKind, width: nat, space: StorageClass)
    | Array(base: nat, asize: ArraySize, stride: Option<nat>)
    | Struct(block: bool, members: seq<StructMember>)
    | Image(dim: ImageDimension, arrayed: bool, iclass: ImageClass)
    | Sampler(comparison: bool)

  datatype Type = Type(name: Option<string>, inner: TypeInner)

  datatype ScalarValue = SintValue(i: int) | UintValue(u: nat) | FloatValue(bits: nat) | BoolValue(b: bool)

  datatype ConstantInner =
    | ScalarConstant(width: nat, value: ScalarValue)
    | Composite(ty: nat, components: seq<nat>)

  datatype Constant = Constant(name: Option<string>, inner: ConstantInner)

  /** Address space, binding and initializer are not read by the parts modelled here. */
  datatype GlobalVariable = GlobalVariable(name: Option<string>, ty: nat)

  datatype LocalVariable = LocalVariable(name: Option<string>, ty: nat)

  datatype UnaryOperator = Negate | Not

  datatype BinaryOperator =
    | Add | Subtract | Multiply | Divide | Modulo
    | Equal | NotEqual | Less | LessEqual | Greater | GreaterEqual
    | And | ExclusiveOr | InclusiveOr | LogicalAnd | LogicalOr
    | ShiftLeft | ShiftRight

  datatype RelationalFunction = All | Any | IsNan | IsInf | IsFinite | IsNormal

  datatype DerivativeAxis = X | Y | Width

  datatype ImageQuery = Size(level: Option<nat>) | NumLevels | NumLayers | NumSamples

  /**
   * Expressions refer to other expressions of the same function by handle.
   * The operands of image sampling, image loads, math functions and casts are
   * not modelled: the validator accepts those expressions unconditionally.
   */
  datatype Expression =
    | Access(base: nat, index: nat)
    | AccessIndex(base: nat, constIndex: U32)
    | Constant(constant: nat)
    | Compose(ty: nat, components: seq<nat>)
    | FunctionArgument(position: U32)
    | GlobalVariable(global: nat)
    | LocalVariable(local: nat)
    | Load(pointer: nat)
    | ImageSample
    | ImageLoad
    | ImageQuery(image: nat, query: ImageQuery)
    | Unary(uop: UnaryOperator, expr: nat)
    | Binary(bop: BinaryOperator, left: nat, right: nat)
    | Select(condition: nat, accept: nat, reject: nat)
    | Derivative(axis: DerivativeAxis, expr: nat)
    | Relational(fun: RelationalFunction, argument: nat)
    | Math
    | As
    | Call(callee: nat)
    | ArrayLength(expr: nat)

  datatype FunctionArgument = FunctionArgument(name: Option<string>, ty: nat)

  /** Statements are checked by `validate_function`, which is not part of this model. */
  datatype Function = Function(
    name: Option<string>,
    arguments: seq<FunctionArgument>,
    localVariables: seq<LocalVariable>,
    expressions: seq<Expression>)

  datatype EntryPoint = EntryPoint(name: string, stage: ShaderStage, body: Function)

  datatype Module = Module(
    types: seq<Type>,
    constants: seq<Constant>,
    globalVariables: seq<GlobalVariable>,
    functions: seq<Function>,
    entryPoints: seq<EntryPoint>)

  /** How the analysis resolved an expression's type: a handle into the type arena or a type of its own. */
  datatype TypeResolution = TypeHandle(handle: nat) | Value(inner: TypeInner)

  /** Per-function analysis results; `expressions[h]` describes expression `h`. */
  datatype FunctionInfo = FunctionInfo(availableStages: set<ShaderStage>, expressions: seq<TypeResolution>)

  /** The kind of the scalars a type is made of: matrices hold floats, and the rest have no kind. */
  function ScalarKindOf(t: TypeInner): (k: Option<ScalarKind>)
    ensures k.Some? <==> t.Scalar? || t.Vector? || t.Matrix?
    ensures t.Matrix? ==> k == Some(Float)
    ensures t.Scalar? || t.Vector? ==> k == Some(t.kind)
  {
    match t
    case Scalar(kind, _) => Some(kind)
    case Vector(_, kind, _) => Some(kind)
    case Matrix(_, _, _) => Some(Float)
    case _ => None
  }

  /**
   * The array length a constant denotes: an integer scalar that fits in a
   * `u32`. Signed integers are accepted so that a plain literal can size an array.
   */
  function ArrayLengthOf(c: Constant): Option<U32> {
    match c.inner
    case ScalarConstant(_, UintValue(u)) => if u <= U32Max then Some(u) else None
    case ScalarConstant(_, SintValue(i)) => if 0 <= i <= U32Max then Some(i) else None
    case _ => None
  }
}

=== FILE: lexer.dfy ===
/**
 * The GLSL preprocessor's tokenizer and line-joining lexer
 * (the `lex` module of `src/front/glsl/preprocessor.rs`).
 *
 * Positions are character indices into the current (joined) line. The
 * source counts bytes; the two agree on ASCII text.
 */
module Lex {
  import opened Wrappers
  import opened Strings

  datatype Token =
    | Separator(c: char)
    | DoubleColon
    | Paren(c: char)
    | Integral(value: nat)
    | Float(lit: string)
    | Double(lit: string)
    | Word(name: string)
    | Operation(c: char)
    | OpAssign(c: char)
    | LogicalOperation(c: char)
    | ShiftOperation(c: char)
    | Unknown(c: char)
    | LineComment
    | MultiLineCommentOpen
    | MultiLineCommentClose
    | Preprocessor
    | End
    | Selection
    | Sufix(c: char)
    | TokenPasting

  /** Rust's `char::is_whitespace`: the Unicode White_Space property. */
  predicate IsWhitespace(c: char) {
    || ('\t' <= c <= '\r')
    || c == ' '
    || c == '\U{0085}'
    || c == '\U{00A0}'
    || c == '\U{1680}'
    || ('\U{2000}' <= c <= '\U{200A}')
    || c == '\U{2028}'
    || c == '\U{2029}'
    || c == '\U{202F}'
    || c == '\U{205F}'
    || c == '\U{3000}'
  }

  predicate IsAsciiAlpha(c: char) {
    ('a' <= c <= 'z') || ('A' <= c <= 'Z')
  }

  /** Characters that continue a word (`is_alphanumeric() || c == '_'`, ASCII only here). */
  predicate IsWordChar(c: char) {
    IsAsciiAlpha(c) || IsDigit(c) || c == '_'
  }

  /** Characters that continue a number literal. */
  predicate IsNumberChar(c: char) {
    IsDigit(c) || c == '.'
  }

  /** The first character of `to_lowercase()` for the letters the lexer compares against. */
  function Lower(c: char): char {
    if 'A' <= c <= 'Z' then (c as int + 32) as char else c
  }

  datatype Split = Split(taken: string, rest: string, pos: nat)

  /**
   * `consume_any`: split `input` before the first character that fails `what`.
   */
  function ConsumeAny(input: string, what: char -> bool): (r: Split)
    ensures r.taken + r.rest == input
    ensures r.pos == |r.taken|
    ensures forall i :: 0 <= i < |r.taken| ==> what(r.taken[i])
    ensures r.pos < |input| ==> !what(input[r.pos])
    decreases |input|
  {
    if |input| == 0 || !what(input[0]) then Split("", input, 0)
    else
      var tail := ConsumeAny(input[1..], what);
      Split([input[0]] + tail.taken, tail.rest, tail.pos + 1)
  }

  /** A token recognised at the very start of a non-empty string, and how many characters it spans. */
  datatype Scanned = Scanned(token: Token, width: nat)

  /** The result of `consume_token`: the token, the rest of the input, and its span. */
  datatype Lexed = Lexed(token: Token, rest: string, start: nat, end: nat)

  /** Whether the character after the first one is `c`. */
  predicate SecondIs(s: string, c: char) {
    |s| > 1 && s[1] == c
  }

  /** `<` or `>`: `<=` is a logical operation, `<<` a shift, a lone `<` a bracket. */
  function ScanAngle(s: string): (r: Scanned)
    requires |s| > 0 && (s[0] == '<' || s[0] == '>')
    ensures 1 <= r.width <= |s| && r.width <= 2
    ensures r.width == 2 <==> |s| >= 2 && (s[1] == '=' || s[1] == s[0])
  {
    if SecondIs(s, '=') then Scanned(LogicalOperation(s[0]), 2)
    else if SecondIs(s, s[0]) then Scanned(ShiftOperation(s[0]), 2)
    else Scanned(Paren(s[0]), 1)
  }

  /**
   * A number: a run of digits and dots. With a dot it is a float, or a double
   * when the two characters after the run are `l` and `f` in any case.
   */
  function ScanNumber(s: string): (r: Scanned)
    requires |s| > 0 && IsDigit(s[0])
    ensures 1 <= r.width <= |s|
  {
    var n := ConsumeAny(s, IsNumberChar);
    if '.' in n.taken then
      if |n.rest| >= 2 && Lower(n.rest[0]) == 'l' && Lower(n.rest[1]) == 'f' then
        Scanned(Double(n.taken), n.pos + 2)
      else
        Scanned(Float(n.taken), n.pos)
    else
      Scanned(Integral(DecimalValue(n.taken)), n.pos)
  }

  /** The one-character-lookahead token recogniser of `consume_token`, after leading whitespace. */
  function ScanToken(s: string): (r: Scanned)
    requires |s| > 0
    ensures 1 <= r.width <= |s|
    ensures r.token != End
  {
    var cur := s[0];
    if cur == ':' then
      if SecondIs(s, ':') then Scanned(DoubleColon, 2) else Scanned(Separator(cur), 1)
    else if cur == ';' || cur == ',' || cur == '.' then Scanned(Separator(cur), 1)
    else if cur in "(){}[]" then Scanned(Paren(cur), 1)
    else if cur == '<' || cur == '>' then ScanAngle(s)
    else if IsDigit(cur) then ScanNumber(s)
    else if IsAsciiAlpha(cur) || cur == '_' then
      var w := ConsumeAny(s, IsWordChar);
      Scanned(Word(w.taken), w.pos)
    else if cur == '+' || cur == '-' then
      if SecondIs(s, '=') then Scanned(OpAssign(cur), 2)
      else if SecondIs(s, cur) then Scanned(Sufix(cur), 2)
      else Scanned(Operation(cur), 1)
    else if cur == '%' || cur == '^' then
      if SecondIs(s, '=') then Scanned(OpAssign(cur), 2) else Scanned(Operation(cur), 1)
    else if cur == '!' then
      if SecondIs(s, '=') then Scanned(LogicalOperation(cur), 2) else Scanned(Operation(cur), 1)
    else if cur == '*' then
      if SecondIs(s, '=') then Scanned(OpAssign(cur), 2)
      else if SecondIs(s, '/') then Scanned(MultiLineCommentClose, 2)
      else Scanned(Operation(cur), 1)
    else if cur == '/' then
      if SecondIs(s, '=') then Scanned(OpAssign(cur), 2)
      else if SecondIs(s, '/') then Scanned(LineComment, 2)
      else if SecondIs(s, '*') then Scanned(MultiLineCommentOpen, 2)
      else Scanned(Operation(cur), 1)
    else if cur == '=' || cur == '&' || cur == '|' then
      if SecondIs(s, cur) then Scanned(LogicalOperation(cur), 2) else Scanned(Operation(cur), 1)
    else if cur == '#' then
      if SecondIs(s, '#') then Scanned(TokenPasting, 2) else Scanned(Preprocessor, 1)
    else if cur == '~' then Scanned(Operation(cur), 1)
    else if cur == '?' then Scanned(Selection, 1)
    else Scanned(Unknown(cur), 1)
  }

  /**
   * `consume_token`: skip leading whitespace, then recognise one token. An
   * empty or blank input yields `End` with the span `start..start+1`.
   */
  function ConsumeToken(input: string): (r: Lexed)
    ensures r.start <= |input|
    ensures forall i :: 0 <= i < r.start ==> IsWhitespace(input[i])
    ensures r.token == End <==> r.start == |input|
    ensures r.token == End ==> r.end == r.start + 1 && r.rest == ""
    ensures r.token != End ==>
              && !IsWhitespace(input[r.start])
              && r.start < r.end <= |input|
              && r.rest == input[r.end..]
  {
    var start := ConsumeAny(input, IsWhitespace).pos;
    var s := input[start..];
    if |s| == 0 then Lexed(End, s, start, start + 1)
    else
      var sc := ScanToken(s);
      Lexed(sc.token, s[sc.width..], start, start + sc.width)
  }

  /**
   * The `Display` text of a token. Numbers print their value (`Integral`) or
   * their literal text (`Float`, `Double`).
   */
  function TokenText(t: Token): string {
    match t
    case Separator(c) => [c]
    case DoubleColon => ":"
    case Paren(c) => [c]
    case Integral(v) => NatToString(v)
    case Float(lit) => lit
    case Double(lit) => lit
    case Word(w) => w
    case Operation(c) => [c]
    case OpAssign(c) => [c, '=']
    case LogicalOperation(c) => if c == '&' || c == '|' then [c, c] else [c, '=']
    case ShiftOperation(c) => [c, c]
    case Unknown(c) => [c]
    case LineComment => "//"
    case MultiLineCommentOpen => "/*"
    case MultiLineCommentClose => "*/"
    case Preprocessor => "#"
    case End => ""
    case Selection => "?"
    case Sufix(c) => [c, c]
    case TokenPasting => "##"
  }

  /**
   * Every token except a number and `::` is displayed exactly as the text it
   * was recognised from; an integer displays its decimal value.
   */
  lemma ScanLexeme(s: string)
    requires |s| > 0
    ensures var r := ScanToken(s);
            !r.token.Integral? && !r.token.Double? && !r.token.DoubleColon? ==>
              s[..r.width] == TokenText(r.token)
    ensures var r := ScanToken(s);
            r.token.Integral? ==>
              (forall i :: 0 <= i < r.width ==> IsDigit(s[i])) && r.token.value == DecimalValue(s[..r.width])
    ensures var r := ScanToken(s);
            r.token.Double? ==> s[..r.width - 2] == r.token.lit && '.' in r.token.lit
  {
    var cur := s[0];
    if IsDigit(cur) {
      NumberLexeme(s);
    } else if IsAsciiAlpha(cur) || cur == '_' {
      WordLexeme(s);
    } else {
      SymbolLexeme(s);
    }
  }

  /** A number token is read from a run of digits and dots. */
  lemma NumberLexeme(s: string)
    requires |s| > 0 && IsDigit(s[0])
    ensures var r := ScanToken(s);
            r.token.Integral? ==>
              (forall i :: 0 <= i < r.width ==> IsDigit(s[i])) && r.token.value == DecimalValue(s[..r.width])
    ensures var r := ScanToken(s);
            r.token.Double? ==> s[..r.width - 2] == r.token.lit && '.' in r.token.lit
    ensures var r := ScanToken(s);
            !r.token.Integral? && !r.token.Double? ==> s[..r.width] == TokenText(r.token)
  {
    assert ScanToken(s) == ScanNumber(s);
    var n := ConsumeAny(s, IsNumberChar);
    assert n.taken == s[..n.pos];
  }

  /** A word is displayed as the run of letters, digits and underscores it was read from. */
  lemma WordLexeme(s: string)
    requires |s| > 0 && !IsDigit(s[0]) && (IsAsciiAlpha(s[0]) || s[0] == '_')
    ensures var r := ScanToken(s);
            r.token.Word? && s[..r.width] == TokenText(r.token)
  {
    var w := ConsumeAny(s, IsWordChar);
    assert ScanToken(s) == Scanned(Word(w.taken), w.pos);
    assert w.taken == s[..w.pos];
  }

  /** A token that starts with neither a digit nor a letter is displayed as the one or two characters it was read from. */
  lemma SymbolLexeme(s: string)
    requires |s| > 0 && !IsDigit(s[0]) && !IsAsciiAlpha(s[0]) && s[0] != '_'
    ensures var r := ScanToken(s);
            !r.token.Integral? && !r.token.Double?
    ensures var r := ScanToken(s);
            r.token != DoubleColon ==> s[..r.width] == TokenText(r.token)
  {
    var r := ScanToken(s);
    if r.width == 1 {
      assert s[..1] == [s[0]];
    } else {
      assert s[..2] == [s[0], s[1]];
    }
  }

  /** The two-character symbols the lexer recognises. */
  predicate IsTwoCharSymbol(a: char, b: char) {
    || (a == ':' && b == ':')
    || ((a == '<' || a == '>') && (b == '=' || b == a))
    || ((a == '+' || a == '-') && (b == '=' || b == a))
    || ((a == '%' || a == '^' || a == '!') && b == '=')
    || (a == '*' && (b == '=' || b == '/'))
    || (a == '/' && (b == '=' || b == '/' || b == '*'))
    || ((a == '=' || a == '&' || a == '|' || a == '#') && b == a)
  }

  /**
   * Maximal munch: a token starting with a symbol takes two characters
   * exactly when those two form one of the two-character symbols.
   */
  lemma MaximalMunch(s: string)
    requires |s| > 0 && !IsDigit(s[0]) && !IsAsciiAlpha(s[0]) && s[0] != '_'
    ensures ScanToken(s).width == 2 <==> |s| >= 2 && IsTwoCharSymbol(s[0], s[1])
  {
    var c := s[0];
    if c == ':' || c == '<' || c == '>' || c == '+' || c == '-' {
      assert ScanToken(s).width == 2 <==> |s| >= 2 && IsTwoCharSymbol(s[0], s[1]);
    } else if c == '%' || c == '^' || c == '!' || c == '*' || c == '/' {
      assert ScanToken(s).width == 2 <==> |s| >= 2 && IsTwoCharSymbol(s[0], s[1]);
    } else if c == '=' || c == '&' || c == '|' || c == '#' {
      assert ScanToken(s).width == 2 <==> |s| >= 2 && IsTwoCharSymbol(s[0], s[1]);
    } else {
      assert ScanToken(s).width == 1 && !IsTwoCharSymbol(c, if |s| >= 2 then s[1] else c);
    }
  }

  /** `+` and `-`: followed by `=` an assignment, doubled a suffix operator, alone an operation. */
  lemma PlusMinus(s: string)
    requires |s| > 0 && (s[0] == '+' || s[0] == '-')
    ensures SecondIs(s, '=') ==> ScanToken(s) == Scanned(OpAssign(s[0]), 2)
    ensures SecondIs(s, s[0]) ==> ScanToken(s) == Scanned(Sufix(s[0]), 2)
    ensures !SecondIs(s, '=') && !SecondIs(s, s[0]) ==> ScanToken(s) == Scanned(Operation(s[0]), 1)
  {
  }

  // ---------------------------------------------------------------------------
  // Lines and continuation joining

  predicate EndsWithBackslash(s: string) {
    |s| > 0 && s[|s| - 1] == '\\'
  }

  function StripCr(s: string): string {
    if |s| > 0 && s[|s| - 1] == '\r' then s[..|s| - 1] else s
  }

  /** `str::lines`: split at `\n`, drop a trailing `\r`, no empty line after a final `\n`. */
  function Lines(s: string): (ls: seq<string>)
    ensures forall i :: 0 <= i < |ls| ==> '\n' !in ls[i]
    decreases |s|
  {
    if |s| == 0 then []
    else
      var sp := ConsumeAny(s, c => c != '\n');
      if sp.pos == |s| then [StripCr(s)]
      else [StripCr(sp.taken)] + Lines(s[sp.pos + 1..])
  }

  function TotalLength(ls: seq<string>): nat {
    if |ls| == 0 then 0 else |ls[0]| + TotalLength(ls[1..])
  }

  datatype Joined = Joined(text: string, consumed: nat)

  /**
   * While the text ends in a backslash and another line follows, drop the
   * backslash and append that line. `consumed` counts the lines appended.
   */
  function JoinContinuations(text: string, next: seq<string>): (r: Joined)
    ensures r.consumed <= |next|
    ensures EndsWithBackslash(r.text) ==> r.consumed == |next|
    ensures r.consumed == 0 <==> !(EndsWithBackslash(text) && |next| > 0)
    ensures r.consumed == 0 ==> r.text == text
    ensures r.consumed > 0 ==> |next[r.consumed - 1]| <= |r.text| && r.text[|r.text| - |next[r.consumed - 1]|..] == next[r.consumed - 1]
    ensures |r.text| + r.consumed == |text| + TotalLength(next[..r.consumed])
    decreases |next|
  {
    if EndsWithBackslash(text) && |next| > 0 then
      var j := JoinContinuations(text[..|text| - 1] + next[0], next[1..]);
      assert next[..j.consumed + 1] == [next[0]] + next[1..][..j.consumed];
      Joined(j.text, j.consumed + 1)
    else
      Joined(text, 0)
  }

  function DropLast(s: string): string {
    if |s| > 0 then s[..|s| - 1] else s
  }

  /**
   * Physical lines read as one logical line: every line but the last loses
   * its final character (the continuation backslash).
   */
  function Splice(ls: seq<string>): string
    requires |ls| > 0
  {
    if |ls| == 1 then ls[0] else DropLast(ls[0]) + Splice(ls[1..])
  }

  /** No line before the last of the first `k` is empty. */
  predicate NoEmptyBefore(next: seq<string>, k: nat) {
    forall i :: 0 <= i < k - 1 && i < |next| ==> next[i] != ""
  }

  lemma SpliceGlue(a: string, b: string, rest: seq<string>)
    requires b != "" || rest == []
    ensures Splice([a + b] + rest) == a + Splice([b] + rest)
  {
    if rest != [] {
      assert (a + b)[..|a + b| - 1] == a + b[..|b| - 1];
      assert ([a + b] + rest)[1..] == rest;
      assert ([b] + rest)[1..] == rest;
    }
  }

  lemma SpliceHead(text: string, next: seq<string>, k: nat)
    requires 0 < k <= |next|
    ensures Splice([text] + next[..k]) == DropLast(text) + Splice([next[0]] + next[1..][..k - 1])
  {
    assert next[..k] == [next[0]] + next[1..][..k - 1];
    assert ([text] + next[..k])[1..] == next[..k];
  }

  /**
   * Joining is splicing: the joined text is the splice of the first line and
   * the `consumed` lines after it. The one departure is an empty continuation
   * line: it ends in no backslash of its own, so joining goes on past it only
   * if the text before it ended in two; the hypothesis excludes that case.
   */
  lemma {:induction false} JoinSplices(text: string, next: seq<string>, r: Joined)
    requires r == JoinContinuations(text, next)
    requires NoEmptyBefore(next, r.consumed)
    ensures r.text == Splice([text] + next[..r.consumed])
    decreases |next|
  {
    if r.consumed > 0 {
      var t' := text[..|text| - 1] + next[0];
      var j := JoinContinuations(t', next[1..]);
      assert r == Joined(j.text, j.consumed + 1);
      assert NoEmptyBefore(next[1..], j.consumed) by {
        forall i | 0 <= i < j.consumed - 1 && i < |next[1..]| ensures next[1..][i] != "" {
          assert next[1..][i] == next[i + 1];
        }
      }
      JoinSplices(t', next[1..], j);
      SpliceGlue(DropLast(text), next[0], next[1..][..j.consumed]);
      SpliceHead(text, next, r.consumed);
    }
  }

  lemma ContinuedShift(next: seq<string>, k: nat)
    requires 1 <= k < |next|
    requires EndsWithBackslash(next[0])
    requires forall i :: 0 <= i < k - 1 ==> EndsWithBackslash(next[1..][i])
    ensures forall i :: 0 <= i < k ==> EndsWithBackslash(next[i])
  {
    forall i | 1 <= i < k ensures EndsWithBackslash(next[i]) {
      assert next[1..][i - 1] == next[i];
    }
  }

  /** Every line taken but the last ends in the backslash that continued it. */
  lemma {:induction false} JoinBackslashes(text: string, next: seq<string>, r: Joined)
    requires r == JoinContinuations(text, next)
    requires NoEmptyBefore(next, r.consumed)
    ensures r.consumed > 0 ==> EndsWithBackslash(text)
    ensures forall i :: 0 <= i < r.consumed - 1 ==> EndsWithBackslash(next[i])
    decreases |next|
  {
    if r.consumed > 1 {
      var t' := text[..|text| - 1] + next[0];
      var j := JoinContinuations(t', next[1..]);
      assert r == Joined(j.text, j.consumed + 1);
      assert NoEmptyBefore(next[1..], j.consumed) by {
        forall i | 0 <= i < j.consumed - 1 && i < |next[1..]| ensures next[1..][i] != "" {
          assert next[1..][i] == next[i + 1];
        }
      }
      JoinBackslashes(t', next[1..], j);
      assert next[0] != "" && EndsWithBackslash(t');
      assert t'[|t'| - 1] == next[0][|next[0]| - 1];
      ContinuedShift(next, j.consumed);
    }
  }

  /** An empty line after a line ending in two backslashes keeps the join going. */
  lemma EmptyContinuation()
    ensures JoinContinuations("a\\\\", ["", "b"]) == Joined("ab", 2)
  {
    assert "a\\\\"[..2] + "" == "a\\";
    assert "a\\"[..1] + "b" == "ab";
  }

  // ---------------------------------------------------------------------------
  // The lexer

  /**
   * Lexer state: the lines not yet loaded (`pending`, the first of which has
   * index `nextIndex`), the rest of the current joined line, its line index,
   * and the column where that rest begins.
   */
  datatype Lexer = Lexer(pending: seq<string>, nextIndex: nat, input: string, line: nat, offset: nat)

  datatype TokenMetadata = TokenMetadata(token: Token, line: nat, start: int, end: int)

  /** Once lines remain to be loaded, they come strictly after the current one. */
  predicate Valid(lx: Lexer) {
    |lx.pending| > 0 ==> lx.line < lx.nextIndex
  }

  /** The lexer `a` has strictly less left to read than `b`. */
  predicate Below(a: Lexer, b: Lexer) {
    || |a.pending| < |b.pending|
    || (|a.pending| == |b.pending| && |a.input| < |b.input|)
  }

  /** Load the next line (joining continuations) as the current line. */
  function LoadLine(lx: Lexer): (r: Lexer)
    requires |lx.pending| > 0
    ensures |r.pending| < |lx.pending|
    ensures r.line == lx.nextIndex && r.offset == 0 && r.line < r.nextIndex
    ensures r.nextIndex + |r.pending| == lx.nextIndex + |lx.pending|
    ensures !EndsWithBackslash(r.input) || |r.pending| == 0
    ensures var j := JoinContinuations(lx.pending[0], lx.pending[1..]);
      r.input == j.text && r.pending == lx.pending[1 + j.consumed..]
  {
    var j := JoinContinuations(lx.pending[0], lx.pending[1..]);
    Lexer(lx.pending[1 + j.consumed..], lx.nextIndex + 1 + j.consumed, j.text, lx.nextIndex, 0)
  }

  /** `Lexer::new`: the first line, joined with its continuation lines. */
  function NewLexer(source: string): (lx: Lexer)
    ensures Valid(lx) && lx.line == 0 && lx.offset == 0
    ensures lx.nextIndex + |lx.pending| == |Lines(source)|
    ensures !EndsWithBackslash(lx.input) || |lx.pending| == 0
    ensures |Lines(source)| == 0 ==> lx.input == "" && lx.pending == []
    ensures var ls := Lines(source); |ls| > 0 ==>
      var j := JoinContinuations(ls[0], ls[1..]);
      lx.input == j.text && lx.pending == ls[1 + j.consumed..]
  {
    var ls := Lines(source);
    if |ls| == 0 then Lexer([], 0, "", 0, 0)
    else
      var first := LoadLine(Lexer(ls, 0, "", 0, 0));
      first
  }

  /** The `End` an exhausted lexer reports: at the span `ConsumeToken` gives past the line's last token. */
  function Stop(lx: Lexer): TokenMetadata {
    var c := ConsumeToken(lx.input);
    TokenMetadata(End, lx.line, lx.offset + c.start, c.end + lx.offset)
  }

  /**
   * `Lexer::next`: the next token with its line and span. At the end of a
   * line the next line is loaded; at the end of the input `End` is returned
   * and the lexer does not move.
   */
  function Next(lx: Lexer): (r: (TokenMetadata, Lexer))
    requires Valid(lx)
    ensures Valid(r.1)
    ensures r.0.token != End ==> Below(r.1, lx)
    ensures r.0.token == End ==> r.1 == lx || Below(r.1, lx)
    ensures r.0.token == End ==> r.1.pending == [] && r.1.line == r.0.line
    ensures r.0.start < r.0.end
    ensures r.0.token != End ==> r.0.line == r.1.line && r.0.end == r.1.offset
    ensures r.0.line == lx.line ==> lx.offset <= r.0.start
    ensures r.0.line != lx.line ==> lx.line < r.0.line
    ensures lx.pending == [] ==> r.1.pending == [] && r.0.line == lx.line && r.1.line == lx.line
    ensures r.0.token == End ==> ConsumeToken(r.1.input).token == End && r.0 == Stop(r.1)
    decreases |lx.pending|
  {
    var c := ConsumeToken(lx.input);
    if c.token == End then
      if |lx.pending| > 0 then Next(LoadLine(lx))
      else (Stop(lx), lx)
    else
      (TokenMetadata(c.token, lx.line, lx.offset + c.start, c.end + lx.offset),
       lx.(input := c.rest, offset := lx.offset + c.end))
  }

  /** `Lexer::peek`: the token `Next` would return, without moving. */
  function Peek(lx: Lexer): (r: TokenMetadata)
    requires Valid(lx)
    ensures r == At(AllTokens(lx), 0)
  {
    StreamStep(lx);
    Next(lx).0
  }

  /** Spans of consecutive tokens on one line do not overlap and appear in order. */
  lemma SpansNonDecreasing(lx: Lexer)
    requires Valid(lx)
    ensures var (t1, lx1) := Next(lx);
            var t2 := Next(lx1).0;
            t1.token != End && t2.line == t1.line ==> t1.start < t1.end <= t2.start
  {
  }

  /** An exhausted lexer returns `End` forever without moving. */
  lemma ExhaustedIsFixedPoint(lx: Lexer)
    requires Valid(lx) && lx.pending == [] && Next(lx).0.token == End
    ensures Next(lx).1 == lx
    ensures Next(lx).0.line == lx.line
  {
  }

  /** Reading again after `End` returns the same `End` and leaves the lexer where it was. */
  lemma EndIsStable(lx: Lexer)
    requires Valid(lx) && Next(lx).0.token == End
    ensures Next(Next(lx).1) == (Next(lx).0, Next(lx).1)
  {
    ExhaustedIsFixedPoint(Next(lx).1);
  }

  /** The tokens of the lexer up to and including the first `End`. */
  function AllTokens(lx: Lexer): (ts: seq<TokenMetadata>)
    requires Valid(lx)
    ensures IsStream(ts)
    decreases |lx.pending|, |lx.input|
  {
    var r := Next(lx);
    if r.0.token == End then [r.0]
    else
      var rest := AllTokens(r.1);
      ConsStream(r.0, rest);
      [r.0] + rest
  }

  /** A token stream as the lexer produces it: exactly one `End`, at the end. */
  predicate IsStream(ts: seq<TokenMetadata>) {
    && |ts| > 0
    && ts[|ts| - 1].token == End
    && forall i :: 0 <= i < |ts| - 1 ==> ts[i].token != End
  }

  /** A token other than `End` in front of a stream makes a stream. */
  lemma ConsStream(t: TokenMetadata, rest: seq<TokenMetadata>)
    requires t.token != End && IsStream(rest)
    ensures IsStream([t] + rest)
  {
    var ts := [t] + rest;
    assert ts[|ts| - 1] == rest[|rest| - 1];
    forall i | 0 <= i < |ts| - 1
      ensures ts[i].token != End
    {
      if i > 0 {
        assert ts[i] == rest[i - 1];
      }
    }
  }

  /** The `k`-th read from a stream; reads past the end repeat its final `End`. */
  function At(ts: seq<TokenMetadata>, k: nat): TokenMetadata
    requires |ts| > 0
  {
    if k < |ts| then ts[k] else ts[|ts| - 1]
  }

  /**
   * One read takes the head off the stream; at `End` the stream stays
   * `[End]`. So the `k`-th read of a lexer is `At(AllTokens(lx), k)`, reads
   * past the end included.
   */
  lemma StreamStep(lx: Lexer)
    requires Valid(lx)
    ensures Next(lx).0 == At(AllTokens(lx), 0)
    ensures Next(lx).0.token != End ==> AllTokens(lx) == [Next(lx).0] + AllTokens(Next(lx).1)
    ensures Next(lx).0.token == End ==> AllTokens(lx) == [Next(lx).0] == AllTokens(Next(lx).1)
    ensures forall k: nat :: At(AllTokens(lx), k + 1) == At(AllTokens(Next(lx).1), k)
  {
    if Next(lx).0.token == End {
      EndIsStable(lx);
    }
    AtShift(Next(lx).0, AllTokens(Next(lx).1), AllTokens(lx));
  }

  lemma AtShift(t: TokenMetadata, tail: seq<TokenMetadata>, whole: seq<TokenMetadata>)
    requires |tail| > 0
    requires whole == [t] + tail || whole == [t] == tail
    ensures whole[0] == t
    ensures forall k: nat :: At(whole, k + 1) == At(tail, k)
  {
  }

  // ---------------------------------------------------------------------------
  // The code as written, where it differs from the definitions above

  /**
   * The number branch as the source writes it: after a run containing a dot
   * it looks at the 2nd and 3rd characters of the run itself for `lf`, and a
   * float resumes lexing right after the first digit.
   */
  function LexNumberAsWritten(s: string): (r: Lexed)
    requires |s| > 0 && IsDigit(s[0])
  {
    var n := ConsumeAny(s, IsNumberChar);
    if '.' in n.taken then
      if |s| >= 3 && Lower(s[1]) == 'l' && Lower(s[2]) == 'f' then
        Lexed(Double(n.taken), s[3..], 0, n.pos + 2)
      else
        Lexed(Float(n.taken), s[1..], 0, n.pos)
    else
      Lexed(Integral(DecimalValue(n.taken)), n.rest, 0, n.pos)
  }

  /** As written, a double literal is never recognised: `1.5lf` is a float. */
  lemma DoubleUnreachableAsWritten(s: string)
    requires |s| > 0 && IsDigit(s[0])
    ensures !LexNumberAsWritten(s).token.Double?
  {
    var n := ConsumeAny(s, IsNumberChar);
    if '.' in n.taken && |s| >= 3 {
      assert n.taken[0] == s[0];
      assert n.pos >= 2;
      assert s[1] == n.taken[1];
    }
  }

  /** As written, `1.5` is a float spanning three characters whose rest is `.5`, not the empty string. */
  lemma FloatRestAsWritten()
    ensures LexNumberAsWritten("1.5") == Lexed(Float("1.5"), ".5", 0, 3)
  {
    NumberRun("1.5", "");
    assert "1.5" + "" == "1.5";
    assert "1.5"[1] == '.';
  }

  /** The corrected scanner reads `1.5` whole as a float. */
  lemma FloatExample()
    ensures ScanNumber("1.5") == Scanned(Float("1.5"), 3)
  {
    NumberRun("1.5", "");
    assert "1.5" + "" == "1.5";
    assert "1.5"[1] == '.';
  }

  /** The corrected scanner reads `1.5lf` whole as a double whose literal is `1.5`. */
  lemma DoubleExample()
    ensures ScanNumber("1.5lf") == Scanned(Double("1.5"), 5)
  {
    NumberRun("1.5", "lf");
    assert "1.5" + "lf" == "1.5lf";
    assert "1.5"[1] == '.';
    assert "1.5lf"[3..] == "lf";
  }

  /** A run of number characters followed by a non-number character is split off whole. */
  lemma {:induction false} NumberRun(number: string, tail: string)
    requires forall i :: 0 <= i < |number| ==> IsNumberChar(number[i])
    requires |tail| > 0 ==> !IsNumberChar(tail[0])
    ensures ConsumeAny(number + tail, IsNumberChar) == Split(number, tail, |number|)
    decreases |number|
  {
    if |number| > 0 {
      assert (number + tail)[1..] == number[1..] + tail;
      NumberRun(number[1..], tail);
      assert [number[0]] + number[1..] == number;
    } else {
      assert number + tail == tail;
    }
  }

  /** The `<`/`>` branch as written: `<=` consumes two characters but reports a span of one. */
  function LexAngleAsWritten(s: string): (r: Lexed)
    requires |s| > 0 && (s[0] == '<' || s[0] == '>')
  {
    if SecondIs(s, '=') then Lexed(LogicalOperation(s[0]), s[2..], 0, 1)
    else if SecondIs(s, s[0]) then Lexed(ShiftOperation(s[0]), s[2..], 0, 2)
    else Lexed(Paren(s[0]), s[1..], 0, 1)
  }

  /** As written, the rest after `<=` does not start at the reported span end. */
  lemma AngleSpanAsWritten()
    ensures var r := LexAngleAsWritten("<=x");
            r.end == 1 && r.rest == "x" && r.rest != "<=x"[r.end..]
    ensures ScanAngle("<=x") == Scanned(LogicalOperation('<'), 2)
  {
  }

  /** `Display` as written: every logical operation prints as the operator followed by `=`. */
  function TokenTextAsWritten(t: Token): string {
    match t
    case LogicalOperation(c) => [c, '=']
    case _ => TokenText(t)
  }

  /** As written, `&&` and `||` are rebuilt as `&=` and `|=`. */
  lemma LogicalTextAsWritten()
    ensures ScanToken("&&") == Scanned(LogicalOperation('&'), 2)
    ensures TokenTextAsWritten(LogicalOperation('&')) == "&="
    ensures TokenTextAsWritten(LogicalOperation('|')) == "|="
    ensures TokenText(LogicalOperation('&')) == "&&"
  {
  }
}

=== FILE: preprocessor.dfy ===
/**
 * The GLSL preprocessor of `src/front/glsl/preprocessor.rs`: comment
 * stripping, the directive state machine with its macro table, and the
 * reconstruction of text from token spans. Directives follow (part of)
 * section 3.3 of the OpenGL Shading Language 4.60 specification.
 */
module Preprocessor {
  import opened Wrappers
  import opened Strings
  import opened Lex

  datatype ErrorKind =
    | UnexpectedToken(expected: seq<Token>, got: TokenMetadata)
    | ExpectedEOL(got: TokenMetadata)
    | UnknownPragma(pragma: string)
    | ExtensionNotSupported(extension: string)
    | AllExtensionsEnabled
    | ExtensionUnknownBehavior(behavior: string)
    | UnsupportedVersion(version: nat)
    | UnsupportedProfile(profile: string)
    | UnknownProfile(profile: string)
    | UnknownPreprocessorDirective(directive: string)
    | ReservedMacro
    | EOL
    | EOF
      /** Where the source panics (`unimplemented!`, `panic!`, an empty-vector index, an unsigned underflow). */
    | Abort(reason: string)

  // ---------------------------------------------------------------------------
  // Comments
  //
  // `parse_comments` pulls tokens from the lexer one at a time. The lexer's
  // tokens are `AllTokens(lx)`, and once exhausted it keeps returning the
  // same `End` (`Lex.ExhaustedIsFixedPoint`), so the reads are modelled as
  // positions in that stream, clamped at its last element (`Lex.At`).

  // The position after the comment close ending a block comment whose body starts at `i`; reaching `End` is `EOF`.
  function BlockCommentEnd(ts: seq<TokenMetadata>, i: nat): (r: Result<nat, ErrorKind>)
    requires IsStream(ts) && i < |ts|
    ensures r.Ok? ==> i < r.value < |ts| && ts[r.value - 1].token == MultiLineCommentClose
    ensures r.Ok? ==> forall k :: i <= k < r.value - 1 ==> ts[k].token != MultiLineCommentClose
    ensures r.Err? ==> r.error == EOF && forall k :: i <= k < |ts| ==> ts[k].token != MultiLineCommentClose
    decreases |ts| - i
  {
    if ts[i].token == MultiLineCommentClose then Ok(i + 1)
    else if ts[i].token == End then Err(EOF)
    else BlockCommentEnd(ts, i + 1)
  }

  /** The first position from `i` on that is not a token of `line` other than `End`: where a `//` comment stops. */
  function LineCommentEnd(ts: seq<TokenMetadata>, line: nat, i: nat): (r: nat)
    requires IsStream(ts) && i < |ts|
    ensures i <= r < |ts|
    ensures ts[r].line != line || ts[r].token == End
    ensures forall k :: i <= k < r ==> ts[k].line == line && ts[k].token != End
    decreases |ts| - i
  {
    if ts[i].line == line && ts[i].token != End then LineCommentEnd(ts, line, i + 1) else i
  }

  predicate IsCommentOpener(t: Token) {
    t == LineComment || t == MultiLineCommentOpen
  }

  /**
   * `parse_comments` from position `i`: the tokens with comments removed,
   * ending with the stream's `End`.
   */
  function StripComments(ts: seq<TokenMetadata>, i: nat): (r: Result<seq<TokenMetadata>, ErrorKind>)
    requires IsStream(ts) && i < |ts|
    ensures r.Ok? ==> |r.value| > 0 && r.value[|r.value| - 1] == ts[|ts| - 1]
    ensures r.Ok? ==> forall k :: 0 <= k < |r.value| - 1 ==>
                        r.value[k].token != End && !IsCommentOpener(r.value[k].token)
    ensures r.Err? ==> r.error == EOF
    decreases |ts| - i
  {
    var t := ts[i];
    if t.token == MultiLineCommentOpen then
      var j :- BlockCommentEnd(ts, i + 1);
      StripComments(ts, j)
    else if t.token == LineComment then
      StripComments(ts, LineCommentEnd(ts, t.line, i + 1))
    else if t.token == End then
      Ok([t])
    else
      var tail :- StripComments(ts, i + 1);
      Ok([t] + tail)
  }

  /** Stripping only removes tokens: every token kept comes from the input at or after `i`. */
  lemma {:induction false} StrippedTokensFromInput(ts: seq<TokenMetadata>, i: nat)
    requires IsStream(ts) && i < |ts|
    ensures var r := StripComments(ts, i);
            r.Ok? ==> forall x :: x in r.value ==> x in ts[i..]
    decreases |ts| - i
  {
    var t := ts[i];
    if t.token == MultiLineCommentOpen {
      var e := BlockCommentEnd(ts, i + 1);
      if e.Ok? {
        StrippedTokensFromInput(ts, e.value);
        SuffixWithin(ts, i, e.value);
      }
    } else if t.token == LineComment {
      var j := LineCommentEnd(ts, t.line, i + 1);
      StrippedTokensFromInput(ts, j);
      SuffixWithin(ts, i, j);
    } else if t.token == End {
      assert ts[i..][0] == t;
    } else {
      StrippedTokensFromInput(ts, i + 1);
      SuffixWithin(ts, i, i + 1);
      assert ts[i..][0] == t;
    }
  }

  lemma SuffixWithin(ts: seq<TokenMetadata>, i: nat, j: nat)
    requires i <= j <= |ts|
    ensures forall x :: x in ts[j..] ==> x in ts[i..]
  {
    forall x | x in ts[j..]
      ensures x in ts[i..]
    {
      var m :| 0 <= m < |ts[j..]| && ts[j..][m] == x;
      assert ts[i..][m + j - i] == x;
    }
  }

  /** `parse_comments` on a fresh lexer. */
  function ParseComments(lx: Lexer): (r: Result<seq<TokenMetadata>, ErrorKind>)
    requires Valid(lx)
    ensures r.Ok? ==> |r.value| > 0 && r.value[|r.value| - 1].token == End
  {
    StripComments(AllTokens(lx), 0)
  }

  /** Without comment openers, stripping comments returns the stream unchanged. */
  lemma {:induction false} NoCommentsIsIdentity(ts: seq<TokenMetadata>, i: nat)
    requires IsStream(ts) && i < |ts|
    requires forall k :: i <= k < |ts| ==> !IsCommentOpener(ts[k].token)
    ensures StripComments(ts, i) == Ok(ts[i..])
    decreases |ts| - i
  {
    if ts[i].token != End {
      NoCommentsIsIdentity(ts, i + 1);
      assert ts[i..] == [ts[i]] + ts[i + 1..];
    } else {
      assert i == |ts| - 1;
      assert ts[i..] == [ts[i]];
    }
  }

  /** A block comment disappears entirely: what follows its close is stripped as if it were not there. */
  lemma BlockCommentRemoved(ts: seq<TokenMetadata>, i: nat, j: nat)
    requires IsStream(ts) && i < j < |ts|
    requires ts[i].token == MultiLineCommentOpen && ts[j - 1].token == MultiLineCommentClose
    requires forall k :: i < k < j - 1 ==> ts[k].token != MultiLineCommentClose
    ensures StripComments(ts, i) == StripComments(ts, j)
  {
    assert BlockCommentEnd(ts, i + 1) == Ok(j);
  }

  /**
   * The loop condition of the `//` branch as written: it keeps reading while
   * the next token is on another line OR is not `End`.
   */
  predicate LineCommentLoopContinuesAsWritten(ts: seq<TokenMetadata>, commentLine: nat, k: nat)
    requires |ts| > 0
  {
    At(ts, k).line != commentLine || At(ts, k).token != End
  }

  /**
   * As written, a `//` comment whose line is not the line of the final `End`
   * never stops skipping: however many tokens have been read, the loop
   * condition still holds.
   */
  lemma LineCommentNeverEndsAsWritten(ts: seq<TokenMetadata>, commentLine: nat, k: nat)
    requires IsStream(ts)
    requires ts[|ts| - 1].line != commentLine
    ensures LineCommentLoopContinuesAsWritten(ts, commentLine, k)
  {
  }

  /** A concrete stream: `//` on line 0, then a word on line 1. */
  lemma LineCommentCounterexampleAsWritten()
    ensures var ts := [TokenMetadata(LineComment, 0, 0, 2), TokenMetadata(Word("x"), 1, 0, 1), TokenMetadata(End, 1, 1, 2)];
            IsStream(ts) && forall k: nat :: LineCommentLoopContinuesAsWritten(ts, 0, k)
  {
    var ts := [TokenMetadata(LineComment, 0, 0, 2), TokenMetadata(Word("x"), 1, 0, 1), TokenMetadata(End, 1, 1, 2)];
    forall k: nat ensures LineCommentLoopContinuesAsWritten(ts, 0, k) {
      LineCommentNeverEndsAsWritten(ts, 0, k);
    }
  }

  /** With the intended condition the same stream strips to the word and `End`. */
  lemma LineCommentCorrected()
    ensures var ts := [TokenMetadata(LineComment, 0, 0, 2), TokenMetadata(Word("x"), 1, 0, 1), TokenMetadata(End, 1, 1, 2)];
            IsStream(ts) && StripComments(ts, 0) == Ok(ts[1..])
  {
    var ts := [TokenMetadata(LineComment, 0, 0, 2), TokenMetadata(Word("x"), 1, 0, 1), TokenMetadata(End, 1, 1, 2)];
    assert LineCommentEnd(ts, 0, 1) == 1;
    NoCommentsIsIdentity(ts, 1);
  }

  // ---------------------------------------------------------------------------
  // Directives and macros

  /**
   * The state of `parse_preprocessor`: the macro table, the `#line` offset,
   * and the column shift left by the last macro expansion (`offset`).
   */
  datatype PpState = PpState(macros: map<string, seq<TokenMetadata>>, lineOffset: int, shiftLine: int, shift: int)

  /**
   * A predefined one-token macro body, at line 0, columns 0..1. It is also
   * where `get_macro!` leaves the tokens of `__LINE__`, `__FILE__` and
   * `__VERSION__`, whatever the use (see BuiltinAfterTokenAsWritten).
   */
  function Builtin(v: nat): seq<TokenMetadata> {
    [TokenMetadata(Integral(v), 0, 0, 1)]
  }

  /** `GL_SPIRV` and `VULKAN` are predefined as 100. */
  function InitialState(): PpState {
    PpState(map["GL_SPIRV" := Builtin(100), "VULKAN" := Builtin(100)], 0, 0, 0)
  }

  /** Rust's `as i32` on an integer: two's-complement truncation to 32 bits. */
  function I32(x: int): (r: int)
    ensures -0x8000_0000 <= r < 0x8000_0000
    ensures -0x8000_0000 <= x < 0x8000_0000 ==> r == x
  {
    (x + 0x8000_0000) % 0x1_0000_0000 - 0x8000_0000
  }

  /** Rust's `as usize` on a 64-bit target. */
  function AsUsize(x: int): (r: nat)
    ensures r < 0x1_0000_0000_0000_0000
    ensures (r - x) % 0x1_0000_0000_0000_0000 == 0
    ensures 0 <= x < 0x1_0000_0000_0000_0000 ==> r == x
  {
    x % 0x1_0000_0000_0000_0000
  }

  /** Whether `x` is a value of Rust's `i32`. */
  predicate InI32(x: int) {
    -0x8000_0000 <= x < 0x8000_0000
  }

  /**
   * The value `__LINE__` expands to on line `line`: the line as an `i32`
   * plus the `#line` offset plus one, as a `usize`. Either `i32` addition
   * overflowing panics, which aborts.
   */
  function LineValue(line: nat, lineOffset: int): (r: Result<nat, ErrorKind>)
    ensures r.Ok? <==> InI32(I32(line) + lineOffset) && InI32(I32(line) + lineOffset + 1)
    ensures r.Ok? ==> r.value < 0x1_0000_0000_0000_0000
    ensures r.Ok? ==> (r.value - (I32(line) + lineOffset + 1)) % 0x1_0000_0000_0000_0000 == 0
    ensures r.Err? ==> r.error.Abort?
  {
    var sum := I32(line) + lineOffset;
    if !InI32(sum) || !InI32(sum + 1) then Err(Abort("integer overflow in __LINE__"))
    else Ok(AsUsize(sum + 1))
  }

  /** On a line below 2^31 with an offset that keeps the sum a non-negative `i32`, `__LINE__` is the plain sum. */
  lemma LineValueInRange(line: nat, lineOffset: int)
    requires line < 0x8000_0000 && 0 <= line + lineOffset + 1 < 0x8000_0000
    ensures LineValue(line, lineOffset) == Ok(line + lineOffset + 1)
  {
  }

  /** A `#line` that numbers lines below zero makes `__LINE__` wrap to a huge unsigned value. */
  lemma LineValueWraps()
    ensures LineValue(0, -2) == Ok(0xFFFF_FFFF_FFFF_FFFF)
  {
  }

  /** `#line 2147483647` on line 0 makes `__LINE__` on line 1 overflow `i32`, which aborts. */
  lemma LineValueOverflows()
    ensures LineValue(1, 0x7FFF_FFFF).Err?
  {
  }

  /** The body tokens, from `prevStart` on, never start before the previous one and never end before they start. */
  predicate Ascending(body: seq<TokenMetadata>, prevStart: int) {
    && (|body| > 0 ==> prevStart <= body[0].start)
    && (forall i :: 0 < i < |body| ==> body[i - 1].start <= body[i].start)
    && (forall i :: 0 <= i < |body| ==> body[i].start <= body[i].end)
  }

  lemma AscendingTail(body: seq<TokenMetadata>, prevStart: int)
    requires |body| > 0
    ensures Ascending(body, prevStart) <==>
              prevStart <= body[0].start && body[0].start <= body[0].end && Ascending(body[1..], body[0].start)
  {
    if prevStart <= body[0].start && body[0].start <= body[0].end && Ascending(body[1..], body[0].start) {
      forall i | 0 < i < |body| ensures body[i - 1].start <= body[i].start {
        if i > 1 {
          assert body[1..][i - 2] == body[i - 1] && body[1..][i - 1] == body[i];
        }
      }
      forall i | 0 <= i < |body| ensures body[i].start <= body[i].end {
        if i > 0 {
          assert body[1..][i - 1] == body[i];
        }
      }
    }
    if Ascending(body, prevStart) {
      forall i | 0 < i < |body[1..]| ensures body[1..][i - 1].start <= body[1..][i].start {
        assert body[1..][i - 1] == body[i] && body[1..][i] == body[i + 1];
      }
    }
  }

  /**
   * The relocation loop of `get_macro!`: every body token moves to the line
   * of the use and keeps its distance from the first body token and its width.
   * The distances and widths are `usize` subtractions, so a token that starts
   * before the previous one, or ends before it starts, underflows and aborts.
   */
  function RelocateFrom(body: seq<TokenMetadata>, use: TokenMetadata, prevStart: int, offset: int)
    : (r: Result<seq<TokenMetadata>, ErrorKind>)
    ensures r.Ok? <==> Ascending(body, prevStart)
    ensures r.Err? ==> r.error.Abort?
    ensures r.Ok? ==> |r.value| == |body|
    ensures r.Ok? ==> forall i :: 0 <= i < |r.value| ==>
              && r.value[i].token == body[i].token
              && r.value[i].line == use.line
              && r.value[i].start == use.start + offset + body[i].start - prevStart
              && r.value[i].end - r.value[i].start == body[i].end - body[i].start
    decreases |body|
  {
    if |body| == 0 then Ok([])
    else
      var t := body[0];
      AscendingTail(body, prevStart);
      if t.end < t.start then Err(Abort("token length underflow"))
      else if t.start < prevStart then Err(Abort("token offset underflow"))
      else
        var length := t.end - t.start;
        var off := offset + (t.start - prevStart);
        var rest :- RelocateFrom(body[1..], use, t.start, off);
        Ok([TokenMetadata(t.token, use.line, use.start + off, length + use.start + off)] + rest)
  }

  /**
   * A macro body placed at the span of its use: the first token starts where
   * the use starts; a body whose tokens are out of order aborts.
   */
  function Relocate(body: seq<TokenMetadata>, use: TokenMetadata): (r: Result<seq<TokenMetadata>, ErrorKind>)
    requires |body| > 0
    ensures r.Ok? <==> Ascending(body, body[0].start)
    ensures r.Ok? ==> |r.value| == |body| && r.value[0].start == use.start
    ensures r.Ok? ==> forall i :: 0 <= i < |r.value| ==>
              && r.value[i].token == body[i].token && r.value[i].line == use.line
              && r.value[i].start - r.value[0].start == body[i].start - body[0].start
              && r.value[i].end - r.value[i].start == body[i].end - body[i].start
  {
    RelocateFrom(body, use, body[0].start, 0)
  }

  /** A one-token body lands exactly on the span of the use's start, keeping its width. */
  lemma RelocateSingle(t: TokenMetadata, use: TokenMetadata)
    requires t.start <= t.end
    ensures Relocate([t], use) == Ok([TokenMetadata(t.token, use.line, use.start, t.end - t.start + use.start)])
  {
    assert [t][1..] == [];
    assert Ascending([t], t.start);
    assert RelocateFrom([], use, t.start, 0) == Ok([]);
    var moved := TokenMetadata(t.token, use.line, use.start, t.end - t.start + use.start);
    assert [moved] + [] == [moved];
    assert RelocateFrom([t], use, t.start, 0) == Ok([moved] + []);
  }

  /**
   * The token of `__LINE__`, `__FILE__` or `__VERSION__` placed at its use,
   * as a defined one-token macro is (corrected placement, see BuiltinKeepsReadingOrder).
   */
  function BuiltinAt(v: nat, use: TokenMetadata): (r: seq<TokenMetadata>)
    ensures Relocate(Builtin(v), use) == Ok(r)
  {
    RelocateSingle(Builtin(v)[0], use);
    [TokenMetadata(Integral(v), use.line, use.start, use.start + 1)]
  }

  /**
   * As written, a built-in expanded after any output token sends the rebuild
   * back to line 0, column 0, and the `usize` subtraction there underflows.
   */
  lemma BuiltinAfterTokenAsWritten(ts: seq<TokenMetadata>, k: nat, v: nat, line: nat, start: int)
    requires 0 < k < |ts| && (ts[k - 1].line > 0 || ts[k - 1].end > 0)
    ensures Render(ts[k := Builtin(v)[0]], line, start).Err?
  {
    var ts' := ts[k := Builtin(v)[0]];
    assert !FitsAfter(ts'[k - 1].line, ts'[k - 1].end, ts'[k]);
    RenderSucceedsIffInReadingOrder(ts', line, start);
  }

  /**
   * Placed at its use, a built-in keeps a stream in reading order, so the
   * rebuild succeeds wherever it did with the use's word in its place.
   */
  lemma BuiltinKeepsReadingOrder(ts: seq<TokenMetadata>, k: nat, v: nat, line: nat, start: int)
    requires k < |ts| && ts[k].start < ts[k].end && InReadingOrder(ts, line, start)
    ensures Render(ts[k := BuiltinAt(v, ts[k])[0]], line, start).Ok?
  {
    var ts' := ts[k := BuiltinAt(v, ts[k])[0]];
    forall i | 0 <= i < |ts'| - 1
      ensures FitsAfter(ts'[i].line, ts'[i].end, ts'[i + 1])
    {
      assert FitsAfter(ts[i].line, ts[i].end, ts[i + 1]);
    }
    assert InReadingOrder(ts', line, start);
    RenderSucceedsIffInReadingOrder(ts', line, start);
  }

  /**
   * `get_macro!`: the expansion of `name` at `use`, if it is a macro.
   * `__LINE__` is the 1-based line adjusted by `#line`; `__FILE__` is 0;
   * `__VERSION__` is 460. Expanding a macro with an empty body aborts.
   */
  function Expand(name: string, use: TokenMetadata, st: PpState): (r: Result<Option<seq<TokenMetadata>>, ErrorKind>)
    ensures r.Ok? && r.value.Some? ==> |r.value.value| > 0
    ensures r.Ok? && r.value.None? <==>
              name !in st.macros && name != "__LINE__" && name != "__FILE__" && name != "__VERSION__"
    ensures name == "__LINE__" ==>
              var v := LineValue(use.line, st.lineOffset);
              && (r.Ok? <==> v.Ok?)
              && (r.Ok? ==> r.value == Some(BuiltinAt(v.value, use)))
    ensures name == "__FILE__" ==> r == Ok(Some(BuiltinAt(0, use)))
    ensures name == "__VERSION__" ==> r == Ok(Some(BuiltinAt(460, use)))
    ensures name !in {"__LINE__", "__FILE__", "__VERSION__"} && name in st.macros ==>
              var body := st.macros[name];
              && (r.Ok? <==> |body| > 0 && Ascending(body, body[0].start))
              && (r.Ok? ==> r.value == Some(Relocate(body, use).value))
  {
    if name == "__LINE__" then
      var v :- LineValue(use.line, st.lineOffset);
      Ok(Some(BuiltinAt(v, use)))
    else if name == "__FILE__" then Ok(Some(BuiltinAt(0, use)))
    else if name == "__VERSION__" then Ok(Some(BuiltinAt(460, use)))
    else if name in st.macros then
      if |st.macros[name]| == 0 then Err(Abort("macro with an empty body"))
      else
        var moved :- Relocate(st.macros[name], use);
        Ok(Some(moved))
    else Ok(None)
  }

  /** A token moved `d` columns along its line. */
  function Moved(t: TokenMetadata, d: int): (r: TokenMetadata)
    ensures r.token == t.token && r.line == t.line && r.end - r.start == t.end - t.start
  {
    t.(start := t.start + d, end := t.end + d)
  }

  /** Every token of `ts` moved `d` columns. */
  function MovedAll(ts: seq<TokenMetadata>, d: int): (r: seq<TokenMetadata>)
    ensures |r| == |ts|
    ensures forall i :: 0 <= i < |r| ==> r[i] == Moved(ts[i], d)
  {
    if |ts| == 0 then [] else [Moved(ts[0], d)] + MovedAll(ts[1..], d)
  }

  /** Apply the column shift left by the previous expansion when the token is on that line. */
  function Shift(t: TokenMetadata, st: PpState): TokenMetadata {
    if st.shiftLine == t.line then Moved(t, st.shift) else t
  }

  datatype Taken = Taken(tok: TokenMetadata, rest: seq<TokenMetadata>)

  /** The next token of a directive, which must be on the directive's line. */
  function Expect(ts: seq<TokenMetadata>, line: nat): (r: Result<Taken, ErrorKind>)
    ensures r.Ok? <==> |ts| > 0 && ts[0].line == line
    ensures r.Ok? ==> r.value == Taken(ts[0], ts[1..])
    ensures r.Err? ==> r.error == (if |ts| == 0 then EOF else EOL)
  {
    if |ts| == 0 then Err(EOF)
    else if ts[0].line == line then Ok(Taken(ts[0], ts[1..]))
    else Err(EOL)
  }

  datatype TakenWord = TakenWord(word: string, rest: seq<TokenMetadata>)

  function ExpectWord(ts: seq<TokenMetadata>, line: nat): (r: Result<TakenWord, ErrorKind>)
    ensures r.Ok? ==> |ts| > 0 && ts[0].line == line && ts[0].token == Word(r.value.word) && r.value.rest == ts[1..]
  {
    var t :- Expect(ts, line);
    if t.tok.token.Word? then Ok(TakenWord(t.tok.token.name, t.rest))
    else Err(UnexpectedToken([Word("")], t.tok))
  }

  datatype TakenInt = TakenInt(value: nat, rest: seq<TokenMetadata>)

  function ExpectIntegral(ts: seq<TokenMetadata>, line: nat): (r: Result<TakenInt, ErrorKind>)
    ensures r.Ok? ==> |ts| > 0 && ts[0].line == line && ts[0].token == Integral(r.value.value) && r.value.rest == ts[1..]
  {
    var t :- Expect(ts, line);
    if t.tok.token.Integral? then Ok(TakenInt(t.tok.token.value, t.rest))
    else Err(UnexpectedToken([Integral(0)], t.tok))
  }

  function ExpectToken(ts: seq<TokenMetadata>, line: nat, want: Token): (r: Result<seq<TokenMetadata>, ErrorKind>)
    ensures r.Ok? ==> |ts| > 0 && ts[0].line == line && ts[0].token == want && r.value == ts[1..]
  {
    var t :- Expect(ts, line);
    if t.tok.token == want then Ok(t.rest)
    else Err(UnexpectedToken([want], t.tok))
  }

  datatype Body = Body(body: seq<TokenMetadata>, rest: seq<TokenMetadata>)

  /**
   * The body of `#define`: every token on the directive's line, with macros
   * in it expanded at the position of the `#`.
   */
  function DefineBody(ts: seq<TokenMetadata>, hash: TokenMetadata, st: PpState): (r: Result<Body, ErrorKind>)
    ensures r.Ok? ==> |r.value.rest| <= |ts| && r.value.rest == ts[|ts| - |r.value.rest|..]
    ensures r.Ok? ==> |r.value.rest| > 0 && r.value.rest[0].line != hash.line
    ensures r.Ok? ==> forall i :: 0 <= i < |ts| - |r.value.rest| ==> ts[i].line == hash.line
    ensures (forall i :: 0 <= i < |ts| ==> ts[i].line == hash.line) ==> r.Err?
    decreases |ts|
  {
    if |ts| == 0 then Err(EOF)
    else if ts[0].line != hash.line then Ok(Body([], ts))
    else
      var piece :- Piece(ts[0], hash, st);
      var tail :- DefineBody(ts[1..], hash, st);
      Ok(Body(piece + tail.body, tail.rest))
  }

  /** What one token of a `#define` line adds to the body: its expansion at `hash`, or itself. */
  function Piece(t: TokenMetadata, hash: TokenMetadata, st: PpState): (r: Result<seq<TokenMetadata>, ErrorKind>)
    ensures Verbatim(t, hash, st) ==> r == Ok([t])
  {
    if t.token.Word? then
      var e :- Expand(t.token.name, hash, st);
      Ok(if e.Some? then e.value else [t])
    else Ok([t])
  }

  /** The token `t` of a `#define` line stays as it is in the body: it is not a word that expands. */
  predicate Verbatim(t: TokenMetadata, hash: TokenMetadata, st: PpState) {
    !t.token.Word? || Expand(t.token.name, hash, st) == Ok(None)
  }

  /** Every token of `ts` up to the first one on another line than `hash` is verbatim. */
  predicate LineVerbatim(ts: seq<TokenMetadata>, hash: TokenMetadata, st: PpState)
    decreases |ts|
  {
    |ts| == 0 || ts[0].line != hash.line || (Verbatim(ts[0], hash, st) && LineVerbatim(ts[1..], hash, st))
  }

  /** Without macros to expand on the line, the body is exactly the tokens of the line after the name. */
  lemma {:induction false} DefineBodyVerbatim(ts: seq<TokenMetadata>, hash: TokenMetadata, st: PpState, b: Body)
    requires DefineBody(ts, hash, st) == Ok(b)
    requires LineVerbatim(ts, hash, st)
    ensures b.body == ts[..|ts| - |b.rest|]
    decreases |ts|
  {
    assert |ts| > 0;
    if ts[0].line != hash.line {
      assert b == Body([], ts);
      assert ts[..|ts| - |b.rest|] == ts[..0] == [];
    } else {
      var t := ts[0];
      DefineBodyStep(ts, hash, st);
      var tail := DefineBody(ts[1..], hash, st).value;
      assert b == Body([t] + tail.body, tail.rest);
      assert LineVerbatim(ts[1..], hash, st);
      DefineBodyVerbatim(ts[1..], hash, st, tail);
      PrefixAfterHead(ts, tail.body, |tail.rest|);
      assert ts[..|ts| - |b.rest|] == [t] + tail.body == b.body;
    }
  }

  lemma DefineBodyStep(ts: seq<TokenMetadata>, hash: TokenMetadata, st: PpState)
    requires |ts| > 0 && ts[0].line == hash.line && Verbatim(ts[0], hash, st)
    ensures DefineBody(ts, hash, st) == (var tail :- DefineBody(ts[1..], hash, st); Ok(Body([ts[0]] + tail.body, tail.rest)))
  {
    assert Piece(ts[0], hash, st) == Ok([ts[0]]);
  }

  lemma PrefixAfterHead(ts: seq<TokenMetadata>, tailBody: seq<TokenMetadata>, k: nat)
    requires k < |ts| && tailBody == ts[1..][..|ts[1..]| - k]
    ensures ts[..|ts| - k] == [ts[0]] + tailBody
  {
  }

  /** What a successful directive leaves: the tokens after it and the new state. */
  datatype Step = Step(rest: seq<TokenMetadata>, st: PpState)

  /** `#extension name :: behavior`: which behaviours are accepted for `all` and for a named extension. */
  function ExtensionBehavior(name: string, behavior: string): Outcome<ErrorKind> {
    if name == "all" then
      if behavior == "require" || behavior == "enable" then Fail(AllExtensionsEnabled)
      else if behavior == "warn" || behavior == "disable" then Pass
      else Fail(ExtensionUnknownBehavior(behavior))
    else
      if behavior == "require" then Fail(ExtensionNotSupported(name))
      else if behavior == "enable" || behavior == "warn" || behavior == "disable" then Pass
      else Fail(ExtensionUnknownBehavior(behavior))
  }

  function Pragma(ts: seq<TokenMetadata>, line: nat, st: PpState): (r: Result<Step, ErrorKind>)
    ensures r.Ok? ==> |r.value.rest| < |ts| && r.value.st == st
  {
    var p :- ExpectWord(ts, line);
    if p.word == "optimize" || p.word == "debug" then
      var r1 :- ExpectToken(p.rest, line, Paren('('));
      var s :- ExpectWord(r1, line);
      var r2 :- ExpectToken(s.rest, line, Paren(')'));
      Ok(Step(r2, st))
    else
      Err(UnknownPragma(p.word))
  }

  /**
   * `#pragma optimize(word)` and `#pragma debug(word)` are accepted and
   * change nothing; any other pragma word is unknown.
   */
  lemma PragmaRules(ts: seq<TokenMetadata>, line: nat, st: PpState)
    ensures var r := Pragma(ts, line, st);
            r.Ok? <==>
              && |ts| >= 4 && ts[0].line == line && ts[1].line == line && ts[2].line == line && ts[3].line == line
              && (ts[0].token == Word("optimize") || ts[0].token == Word("debug"))
              && ts[1].token == Paren('(') && ts[2].token.Word? && ts[3].token == Paren(')')
    ensures var r := Pragma(ts, line, st); r.Ok? ==> r.value == Step(ts[4..], st)
    ensures |ts| > 0 && ts[0].line == line && ts[0].token.Word? && ts[0].token.name != "optimize" && ts[0].token.name != "debug" ==>
              Pragma(ts, line, st) == Err(UnknownPragma(ts[0].token.name))
  {
    if |ts| >= 4 {
      assert ts[1..][0] == ts[1] && ts[1..][1..][0] == ts[2] && ts[1..][1..][1..][0] == ts[3];
      assert ts[1..][1..][1..][1..] == ts[4..];
    }
  }

  function Extension(ts: seq<TokenMetadata>, line: nat, st: PpState): (r: Result<Step, ErrorKind>)
    ensures r.Ok? ==> |r.value.rest| < |ts| && r.value.st == st
  {
    var n :- ExpectWord(ts, line);
    var r1 :- ExpectToken(n.rest, line, DoubleColon);
    var b :- ExpectWord(r1, line);
    var verdict := ExtensionBehavior(n.word, b.word);
    if verdict.Fail? then Err(verdict.error) else Ok(Step(b.rest, st))
  }

  function Version(ts: seq<TokenMetadata>, line: nat, st: PpState): (r: Result<Step, ErrorKind>)
    ensures r.Ok? ==> |r.value.rest| < |ts|
  {
    var v :- ExpectIntegral(ts, line);
    if v.value != 450 && v.value != 460 then Err(UnsupportedVersion(v.value))
    else
      var p :- ExpectWord(v.rest, line);
      if p.word == "core" then
        Ok(Step(p.rest, st.(macros := st.macros["GL_core_profile" := Builtin(1)])))
      else if p.word == "compatibility" || p.word == "es" then Err(UnsupportedProfile(p.word))
      else Err(UnknownProfile(p.word))
  }

  /**
   * `#line n source`: the offset that makes `__LINE__` count from `n`, as an
   * `i32` subtraction that aborts when it overflows.
   */
  function LineDirective(ts: seq<TokenMetadata>, line: nat, st: PpState): (r: Result<Step, ErrorKind>)
    ensures r.Ok? ==> |r.value.rest| < |ts|
    ensures r.Ok? ==>
              && |ts| >= 2 && ts[0].token.Integral? && ts[1].token.Word?
              && r.value == Step(ts[2..], st.(lineOffset := I32(ts[0].token.value) - I32(line)))
              && InI32(r.value.st.lineOffset)
    ensures |ts| >= 2 && ts[0].line == line && ts[1].line == line && ts[0].token.Integral? && ts[1].token.Word? ==>
              (r.Ok? <==> InI32(I32(ts[0].token.value) - I32(line)))
  {
    var n :- ExpectIntegral(ts, line);
    var src :- ExpectWord(n.rest, line);
    var offset := I32(n.value) - I32(line);
    if !InI32(offset) then Err(Abort("integer overflow in #line"))
    else Ok(Step(src.rest, st.(lineOffset := offset)))
  }

  predicate IsConditional(name: string) {
    name == "if" || name == "ifdef" || name == "ifndef" || name == "else" || name == "elif" || name == "endif"
  }

  /** One directive: `hash` is the `#`, `op` the word after it on the same line, `ts` what follows. */
  function Directive(hash: TokenMetadata, op: TokenMetadata, ts: seq<TokenMetadata>, st: PpState): (r: Result<Step, ErrorKind>)
    ensures r.Ok? ==> |r.value.rest| <= |ts|
  {
    if !op.token.Word? then Err(UnexpectedToken([Word("")], op))
    else
      var name := op.token.name;
      if name == "define" then
        var n :- ExpectWord(ts, hash.line);
        if StartsWith(n.word, "GL_") then Err(ReservedMacro)
        else
          var b :- DefineBody(n.rest, hash, st);
          Ok(Step(b.rest, st.(macros := st.macros[n.word := b.body])))
      else if name == "undef" then
        var n :- ExpectWord(ts, hash.line);
        Ok(Step(n.rest, st.(macros := st.macros - {n.word})))
      else if IsConditional(name) then Err(Abort("unimplemented conditional directive"))
      else if name == "error" then (if |ts| == 0 then Err(EOF) else Err(Abort("#error directive")))
      else if name == "pragma" then Pragma(ts, hash.line, st)
      else if name == "extension" then Extension(ts, hash.line, st)
      else if name == "version" then Version(ts, hash.line, st)
      else if name == "line" then LineDirective(ts, hash.line, st)
      else Err(UnknownPreprocessorDirective(name))
  }

  /** A token stream that ends with `End`. */
  predicate EndsWithEnd(ts: seq<TokenMetadata>) {
    |ts| > 0 && ts[|ts| - 1].token == End
  }

  function Prepend(xs: seq<TokenMetadata>, r: Result<seq<TokenMetadata>, ErrorKind>): (p: Result<seq<TokenMetadata>, ErrorKind>)
    ensures r.Ok? && EndsWithEnd(r.value) ==> p.Ok? && EndsWithEnd(p.value)
    ensures r.Err? ==> p == r
  {
    if r.Ok? then
      assert EndsWithEnd(r.value) ==> (xs + r.value)[|xs + r.value| - 1] == r.value[|r.value| - 1];
      Ok(xs + r.value)
    else r
  }

  /**
   * `parse_preprocessor`: execute directives, expand macros and apply the
   * column shifts of expansions, up to and including `End`.
   */
  function Run(ts: seq<TokenMetadata>, st: PpState): (r: Result<seq<TokenMetadata>, ErrorKind>)
    ensures r.Ok? ==> EndsWithEnd(r.value)
    decreases |ts|
  {
    if |ts| == 0 then Err(EOF)
    else
      var token := ts[0];
      var rest := ts[1..];
      if token.token == Preprocessor then
        if |rest| == 0 then Err(EOF)
        else if rest[0].line != token.line then Run(rest, st)
        else
          var step :- Directive(token, rest[0], rest[1..], st);
          if |step.rest| > 0 && step.rest[0].line == token.line then Err(ExpectedEOL(step.rest[0]))
          else Run(step.rest, step.st)
      else if token.token == End then Ok([Shift(token, st)])
      else
        var out :- Emit(token, st);
        Prepend(out.tokens, Run(rest, out.st))
  }

  /** What one ordinary token contributes to the output, and the state after it. */
  datatype Emitted = Emitted(tokens: seq<TokenMetadata>, st: PpState)

  /**
   * A token that is neither `#` nor `End`: a macro use is replaced by its
   * expansion, which sets the column shift for the rest of its line; any
   * other token is passed on, moved by the pending shift when on that line.
   */
  function Emit(token: TokenMetadata, st: PpState): (r: Result<Emitted, ErrorKind>)
    ensures r.Ok? ==> |r.value.tokens| > 0
    ensures !token.token.Word? ==> r == Ok(Emitted([Shift(token, st)], st))
    ensures token.token.Word? && Expand(token.token.name, token, st) == Ok(None) ==>
              r == Ok(Emitted([Shift(token, st)], st))
  {
    if token.token.Word? then
      var e :- Expand(token.token.name, token, st);
      if e.Some? then
        var shifted := if st.shiftLine == token.line then MovedAll(e.value, st.shift) else e.value;
        var last := shifted[|shifted| - 1];
        Ok(Emitted(shifted, st.(shiftLine := last.line, shift := last.end - token.end)))
      else Ok(Emitted([Shift(token, st)], st))
    else Ok(Emitted([Shift(token, st)], st))
  }

  // ---------------------------------------------------------------------------
  // Rebuilding text

  /**
   * The fold of `preprocess`: newlines up to each token's line, spaces up to
   * its column, then its text. An unsigned underflow (a token before the
   * previous one) aborts.
   */
  function Render(ts: seq<TokenMetadata>, line: nat, start: int): (r: Result<string, ErrorKind>)
    decreases |ts|
  {
    if |ts| == 0 then Ok("")
    else
      var t := ts[0];
      if t.line < line then Err(Abort("line number underflow"))
      else
        var col := if t.line != line then 0 else start;
        if t.start < col then Err(Abort("column underflow"))
        else
          var tail :- Render(ts[1..], t.line, t.end);
          Ok(Repeat("\n", t.line - line) + Repeat(" ", t.start - col) + TokenText(t.token) + tail)
  }

  /** The token stream of `source` with its comments removed. */
  function Tokenize(source: string): Result<seq<TokenMetadata>, ErrorKind> {
    ParseComments(NewLexer(source))
  }

  /** Run the directives over a comment-free stream and rebuild its text. */
  function Generate(stripped: seq<TokenMetadata>): Result<string, ErrorKind> {
    match Run(stripped, InitialState())
    case Err(e) => Err(e)
    case Ok(tokens) => Render(tokens, 0, 0)
  }

  /** `preprocess`: lex, strip comments, run directives, rebuild text. */
  function Preprocess(source: string): Result<string, ErrorKind> {
    match Tokenize(source)
    case Err(e) => Err(e)
    case Ok(stripped) => Generate(stripped)
  }

  // ---------------------------------------------------------------------------
  // Properties of rebuilding text

  /** `t` may follow a token that ended at column `prevEnd` of line `prevLine`. */
  predicate FitsAfter(prevLine: nat, prevEnd: int, t: TokenMetadata) {
    || (t.line > prevLine && t.start >= 0)
    || (t.line == prevLine && t.start >= prevEnd)
  }

  /** Tokens in reading order: never backwards in lines, never overlapping within a line. */
  predicate InReadingOrder(ts: seq<TokenMetadata>, line: nat, start: int) {
    && (|ts| > 0 ==> FitsAfter(line, start, ts[0]))
    && forall i :: 0 <= i < |ts| - 1 ==> FitsAfter(ts[i].line, ts[i].end, ts[i + 1])
  }

  /** Rebuilding text succeeds exactly when the tokens are in reading order. */
  lemma {:induction false} RenderSucceedsIffInReadingOrder(ts: seq<TokenMetadata>, line: nat, start: int)
    ensures Render(ts, line, start).Ok? <==> InReadingOrder(ts, line, start)
    decreases |ts|
  {
    if |ts| > 0 {
      var t := ts[0];
      RenderSucceedsIffInReadingOrder(ts[1..], t.line, t.end);
      if InReadingOrder(ts, line, start) {
        assert InReadingOrder(ts[1..], t.line, t.end) by {
          forall i | 0 <= i < |ts[1..]| - 1
            ensures FitsAfter(ts[1..][i].line, ts[1..][i].end, ts[1..][i + 1])
          {
            assert ts[1..][i] == ts[i + 1] && ts[1..][i + 1] == ts[i + 2];
          }
        }
      }
      if FitsAfter(line, start, t) && InReadingOrder(ts[1..], t.line, t.end) {
        forall i | 0 <= i < |ts| - 1
          ensures FitsAfter(ts[i].line, ts[i].end, ts[i + 1])
        {
          if i > 0 {
            assert ts[i] == ts[1..][i - 1] && ts[i + 1] == ts[1..][i];
          }
        }
      }
    }
  }

  /** Every token of `ts` is on `line` and its span is as wide as its text. */
  predicate OnLineAtWidth(ts: seq<TokenMetadata>, line: nat) {
    forall i :: 0 <= i < |ts| ==> ts[i].line == line && |TokenText(ts[i].token)| == ts[i].end - ts[i].start
  }

  /**
   * On one line, rebuilding text puts every token's text at its own columns
   * (counted from `start`) and pads the gaps with spaces.
   */
  lemma {:induction false} RenderKeepsColumns(ts: seq<TokenMetadata>, line: nat, start: int)
    requires |ts| > 0 && OnLineAtWidth(ts, line) && InReadingOrder(ts, line, start)
    ensures Render(ts, line, start).Ok?
    ensures var out := Render(ts, line, start).value;
            && |out| == ts[|ts| - 1].end - start
            && forall u :: u in ts ==> ColumnsHold(out, start, u)
    decreases |ts|
  {
    RenderFirstOnLine(ts, line, start);
    var t := ts[0];
    var pad := Repeat(" ", t.start - start);
    var rest := ts[1..];
    var tail := Render(rest, t.line, t.end).value;
    if |ts| == 1 {
      assert tail == "";
    } else {
      TailOnLine(ts, line);
      RenderKeepsColumns(rest, t.line, t.end);
    }
    PlaceFirst(ts, start, pad, TokenText(t.token), tail);
  }

  /** The text of `u` sits at its columns, counted from `start`, in `out`. */
  predicate ColumnsHold(out: string, start: int, u: TokenMetadata) {
    && 0 <= u.start - start <= u.end - start <= |out|
    && out[u.start - start..u.end - start] == TokenText(u.token)
  }

  /** Columns of a line are those of its first token followed by those of the rest, shifted by the first token's end. */
  lemma PlaceFirst(ts: seq<TokenMetadata>, start: int, pad: string, text: string, tail: string)
    requires |ts| > 0 && |pad| == ts[0].start - start && text == TokenText(ts[0].token)
    requires |text| == ts[0].end - ts[0].start
    requires |ts| == 1 ==> tail == ""
    requires |ts| > 1 ==> |tail| == ts[|ts| - 1].end - ts[0].end
    requires forall u :: u in ts[1..] ==> ColumnsHold(tail, ts[0].end, u)
    ensures var out := pad + text + tail;
            && |out| == ts[|ts| - 1].end - start
            && forall u :: u in ts ==> ColumnsHold(out, start, u)
  {
    var head := pad + text;
    SliceMiddle(pad, text, tail);
    PlaceHead(ts[0], start, pad, text, tail);
    forall u | u in ts
      ensures ColumnsHold(head + tail, start, u)
    {
      if u != ts[0] {
        assert u in ts[1..];
        PlaceAfter(head, tail, ts[0].end, start, u);
      }
    }
  }

  lemma PlaceHead(t: TokenMetadata, start: int, pad: string, text: string, tail: string)
    requires |pad| == t.start - start && text == TokenText(t.token) && |text| == t.end - t.start
    requires (pad + text + tail)[|pad|..|pad| + |text|] == text
    ensures ColumnsHold(pad + text + tail, start, t)
  {
  }

  lemma PlaceAfter(head: string, tail: string, base: int, start: int, u: TokenMetadata)
    requires |head| == base - start && ColumnsHold(tail, base, u)
    ensures ColumnsHold(head + tail, start, u)
  {
    SliceAfterPrefix(head, tail, u.start - start, u.end - start);
  }

  /** The first token on the current line: spaces up to its column, its text, then the rest. */
  lemma RenderFirstOnLine(ts: seq<TokenMetadata>, line: nat, start: int)
    requires |ts| > 0 && ts[0].line == line && InReadingOrder(ts, line, start)
    ensures Render(ts, line, start).Ok? && Render(ts[1..], ts[0].line, ts[0].end).Ok?
    ensures Render(ts, line, start).value
              == Repeat(" ", ts[0].start - start) + TokenText(ts[0].token) + Render(ts[1..], ts[0].line, ts[0].end).value
  {
    RenderSucceedsIffInReadingOrder(ts, line, start);
    assert Repeat("\n", 0) == "";
  }

  lemma SliceMiddle(a: string, b: string, c: string)
    ensures (a + b + c)[|a|..|a| + |b|] == b
  {
  }

  /** The tokens after the first of a line keep being on that line and in reading order. */
  lemma TailOnLine(ts: seq<TokenMetadata>, line: nat)
    requires |ts| > 1 && OnLineAtWidth(ts, line) && InReadingOrder(ts, line, ts[0].start)
    ensures OnLineAtWidth(ts[1..], ts[0].line) && InReadingOrder(ts[1..], ts[0].line, ts[0].end)
  {
    var rest := ts[1..];
    forall i | 0 <= i < |rest| - 1 ensures FitsAfter(rest[i].line, rest[i].end, rest[i + 1]) {
      assert rest[i] == ts[i + 1] && rest[i + 1] == ts[i + 2];
    }
  }

  lemma SliceAfterPrefix(a: string, b: string, x: int, y: int)
    requires |a| <= x <= y <= |a| + |b|
    ensures (a + b)[x..y] == b[x - |a|..y - |a|]
  {
  }

  // ---------------------------------------------------------------------------
  // Properties of the directive machine

  /** `name` is neither a built-in macro nor defined in `st`. */
  predicate NotMacro(name: string, st: PpState) {
    name !in st.macros && name != "__LINE__" && name != "__FILE__" && name != "__VERSION__"
  }

  /**
   * A stream without `#` and without macro uses, and with no column shift
   * pending, passes through the directive machine unchanged.
   */
  lemma {:induction false} RunWithoutDirectivesIsIdentity(ts: seq<TokenMetadata>, i: nat, st: PpState)
    requires IsStream(ts) && i < |ts| && st.shift == 0
    requires forall k :: i <= k < |ts| ==> ts[k].token != Preprocessor
    requires forall k :: i <= k < |ts| ==> ts[k].token.Word? ==> NotMacro(ts[k].token.name, st)
    ensures Run(ts[i..], st) == Ok(ts[i..])
    decreases |ts| - i
  {
    assert ts[i..][0] == ts[i];
    if ts[i].token != End {
      RunWithoutDirectivesIsIdentity(ts, i + 1, st);
      assert ts[i..][1..] == ts[i + 1..];
      assert ts[i..] == [ts[i]] + ts[i + 1..];
      assert Shift(ts[i], st) == ts[i];
    } else {
      assert i == |ts| - 1;
      assert ts[i..] == [ts[i]];
    }
  }

  /** A `#define` of a name starting with `GL_` is rejected, whatever follows. */
  lemma DefineOfReservedNameFails(hash: TokenMetadata, op: TokenMetadata, name: TokenMetadata, rest: seq<TokenMetadata>, st: PpState)
    requires hash.token == Preprocessor && op.token == Word("define") && name.token.Word?
    requires op.line == hash.line && name.line == hash.line
    requires StartsWith(name.token.name, "GL_")
    ensures Run([hash, op, name] + rest, st) == Err(ReservedMacro)
  {
    assert ([hash, op, name] + rest)[1..][1..] == [name] + rest;
  }

  /** After `#undef`, the name is no longer a macro; the remaining tokens are those after the name. */
  lemma UndefRemovesMacro(hash: TokenMetadata, op: TokenMetadata, name: TokenMetadata, rest: seq<TokenMetadata>, st: PpState)
    requires op.token == Word("undef") && name.token.Word? && name.line == hash.line
    ensures Directive(hash, op, [name] + rest, st) == Ok(Step(rest, st.(macros := st.macros - {name.token.name})))
    ensures name.token.name !in Directive(hash, op, [name] + rest, st).value.st.macros
  {
    assert ([name] + rest)[1..] == rest;
  }

  /**
   * `#version`: only 450 and 460 are accepted; of the profiles only `core`,
   * which defines `GL_core_profile` as 1; `compatibility` and `es` are
   * unsupported and anything else is unknown.
   */
  lemma VersionRules(hash: TokenMetadata, op: TokenMetadata, v: TokenMetadata, p: TokenMetadata, rest: seq<TokenMetadata>, st: PpState)
    requires op.token == Word("version") && v.line == hash.line && p.line == hash.line
    ensures var r := Directive(hash, op, [v, p] + rest, st);
            && (!v.token.Integral? ==> r == Err(UnexpectedToken([Integral(0)], v)))
            && (v.token.Integral? && v.token.value != 450 && v.token.value != 460 ==> r == Err(UnsupportedVersion(v.token.value)))
            && (v.token in {Integral(450), Integral(460)} && p.token == Word("core") ==>
                  r == Ok(Step(rest, st.(macros := st.macros["GL_core_profile" := Builtin(1)]))))
            && (v.token in {Integral(450), Integral(460)} && p.token in {Word("compatibility"), Word("es")} ==>
                  r == Err(UnsupportedProfile(p.token.name)))
            && (v.token in {Integral(450), Integral(460)} && p.token.Word? && p.token.name !in {"core", "compatibility", "es"} ==>
                  r == Err(UnknownProfile(p.token.name)))
  {
    assert ([v, p] + rest)[1..] == [p] + rest;
    assert ([p] + rest)[1..] == rest;
  }

  /**
   * `#extension name :: behavior`: `all` may only be warned about or
   * disabled; a named extension may be enabled, warned about or disabled
   * but never required; any other behaviour is unknown.
   */
  lemma ExtensionRules(hash: TokenMetadata, op: TokenMetadata, n: TokenMetadata, sep: TokenMetadata, b: TokenMetadata, rest: seq<TokenMetadata>, st: PpState)
    requires op.token == Word("extension") && n.token.Word? && sep.token == DoubleColon && b.token.Word?
    requires n.line == hash.line && sep.line == hash.line && b.line == hash.line
    ensures var r := Directive(hash, op, [n, sep, b] + rest, st);
            var name := n.token.name;
            var behavior := b.token.name;
            && (r.Ok? <==> (name == "all" && behavior in {"warn", "disable"}) || (name != "all" && behavior in {"enable", "warn", "disable"}))
            && (r.Ok? ==> r.value == Step(rest, st))
            && (name == "all" && behavior in {"require", "enable"} ==> r == Err(AllExtensionsEnabled))
            && (name != "all" && behavior == "require" ==> r == Err(ExtensionNotSupported(name)))
            && (behavior !in {"require", "enable", "warn", "disable"} ==> r == Err(ExtensionUnknownBehavior(behavior)))
  {
    assert ([n, sep, b] + rest)[1..] == [sep, b] + rest;
    assert ([sep, b] + rest)[1..] == [b] + rest;
    assert ([b] + rest)[1..] == rest;
  }

  /**
   * `#line n source` on line `L` makes `__LINE__` on a later line `L2`
   * expand to `L2 - L + n + 1` (for lines and numbers that fit in 32 bits).
   */
  lemma LineDirectiveRenumbers(hash: TokenMetadata, op: TokenMetadata, n: TokenMetadata, src: TokenMetadata, rest: seq<TokenMetadata>, st: PpState, use: TokenMetadata)
    requires op.token == Word("line") && n.token.Integral? && src.token.Word?
    requires n.line == hash.line && src.line == hash.line
    requires hash.line < 0x4000_0000 && n.token.value < 0x4000_0000 && use.line < 0x4000_0000
    requires hash.line <= use.line
    ensures var r := Directive(hash, op, [n, src] + rest, st);
            && r.Ok? && r.value.rest == rest
            && Expand("__LINE__", use, r.value.st) == Ok(Some(BuiltinAt(use.line - hash.line + n.token.value + 1, use)))
  {
    assert ([n, src] + rest)[1..] == [src] + rest;
    assert ([src] + rest)[1..] == rest;
  }

  /** A directive followed by another token on its own line is an error naming that token. */
  lemma TrailingTokenAfterDirective(hash: TokenMetadata, op: TokenMetadata, ts: seq<TokenMetadata>, st: PpState)
    requires hash.token == Preprocessor && op.line == hash.line
    requires Directive(hash, op, ts, st).Ok?
    requires var rest := Directive(hash, op, ts, st).value.rest; |rest| > 0 && rest[0].line == hash.line
    ensures Run([hash, op] + ts, st) == Err(ExpectedEOL(Directive(hash, op, ts, st).value.rest[0]))
  {
    assert ([hash, op] + ts)[1..] == [op] + ts;
    assert ([op] + ts)[1..] == ts;
  }

  /** A `#` alone on its line is dropped. */
  lemma LoneHashIsDropped(hash: TokenMetadata, ts: seq<TokenMetadata>, st: PpState)
    requires hash.token == Preprocessor && |ts| > 0 && ts[0].line != hash.line
    ensures Run([hash] + ts, st) == Run(ts, st)
  {
    assert ([hash] + ts)[1..] == ts;
  }

  /**
   * A macro use is replaced by its body placed at the use, and the next token
   * on the same line keeps its distance to the end of the replacement.
   */
  lemma ExpansionKeepsGap(w: TokenMetadata, u: TokenMetadata, rest: seq<TokenMetadata>, st: PpState)
    requires w.token.Word? && w.token.name in st.macros && |st.macros[w.token.name]| > 0
    requires Ascending(st.macros[w.token.name], st.macros[w.token.name][0].start)
    requires w.token.name !in {"__LINE__", "__FILE__", "__VERSION__"}
    requires st.shiftLine != w.line
    requires u.line == w.line && u.token != Preprocessor && u.token != End && !u.token.Word?
    ensures var body := st.macros[w.token.name];
            var r := Run([w, u] + rest, st);
            r.Ok? ==>
              && |r.value| > |body|
              && r.value[..|body|] == Relocate(body, w).value
              && r.value[|body|].start - r.value[|body| - 1].end == u.start - w.end
  {
    var body := st.macros[w.token.name];
    var e := Relocate(body, w).value;
    var st1 := st.(shiftLine := e[|e| - 1].line, shift := e[|e| - 1].end - w.end);
    assert [w, u] + rest == [w] + ([u] + rest);
    assert Expand(w.token.name, w, st) == Ok(Some(e));
    assert Emit(w, st) == Ok(Emitted(e, st1));
    RunEmitStep(w, [u] + rest, st);
    RunEmitStep(u, rest, st1);
  }

  /** An ordinary token adds what `Emit` gives for it and the run goes on in the state `Emit` leaves. */
  lemma RunEmitStep(t: TokenMetadata, rest: seq<TokenMetadata>, st: PpState)
    requires t.token != Preprocessor && t.token != End
    ensures Emit(t, st).Err? ==> Run([t] + rest, st) == Err(Emit(t, st).error)
    ensures Emit(t, st).Ok? ==>
              Run([t] + rest, st) == Prepend(Emit(t, st).value.tokens, Run(rest, Emit(t, st).value.st))
  {
    assert ([t] + rest)[0] == t && ([t] + rest)[1..] == rest;
  }

  /**
   * A macro used inside a `#define` after other tokens is expanded at the
   * column of the `#`: `#define B x A` on line 1, with `A` defined as `1`,
   * stores `1` at column 0, after `x` at column 10.
   */
  lemma NestedDefineOutOfOrder(st: PpState)
    requires "A" in st.macros && st.macros["A"] == [TokenMetadata(Integral(1), 0, 10, 11)]
    requires "x" !in st.macros
    ensures DefineBody([TokenMetadata(Word("x"), 1, 10, 11), TokenMetadata(Word("A"), 1, 12, 13), TokenMetadata(Word("B"), 2, 0, 1)],
                       TokenMetadata(Preprocessor, 1, 0, 1), st)
            == Ok(Body([TokenMetadata(Word("x"), 1, 10, 11), TokenMetadata(Integral(1), 1, 0, 1)], [TokenMetadata(Word("B"), 2, 0, 1)]))
  {
    var hash := TokenMetadata(Preprocessor, 1, 0, 1);
    var x := TokenMetadata(Word("x"), 1, 10, 11);
    var a := TokenMetadata(Word("A"), 1, 12, 13);
    var next := TokenMetadata(Word("B"), 2, 0, 1);
    var one := TokenMetadata(Integral(1), 1, 0, 1);
    var ts := [x, a, next];
    assert ts[1..] == [a, next];
    NestedDefineTail(st);
    var tail := Body([one], [next]);
    assert DefineBody(ts[1..], hash, st) == Ok(tail);
    assert Expand("x", hash, st) == Ok(None);
    assert ts[0].line == hash.line && ts[0] == x;
    assert [x] + tail.body == [x, one];
  }

  /** The `A` of `#define B x A` becomes `1` at the column of the `#`. */
  lemma NestedDefineTail(st: PpState)
    requires "A" in st.macros && st.macros["A"] == [TokenMetadata(Integral(1), 0, 10, 11)]
    ensures DefineBody([TokenMetadata(Word("A"), 1, 12, 13), TokenMetadata(Word("B"), 2, 0, 1)], TokenMetadata(Preprocessor, 1, 0, 1), st)
            == Ok(Body([TokenMetadata(Integral(1), 1, 0, 1)], [TokenMetadata(Word("B"), 2, 0, 1)]))
  {
    var hash := TokenMetadata(Preprocessor, 1, 0, 1);
    var a := TokenMetadata(Word("A"), 1, 12, 13);
    var next := TokenMetadata(Word("B"), 2, 0, 1);
    var one := TokenMetadata(Integral(1), 1, 0, 1);
    assert [a, next][1..] == [next];
    assert DefineBody([next], hash, st) == Ok(Body([], [next]));
    RelocateSingle(TokenMetadata(Integral(1), 0, 10, 11), hash);
    assert Expand("A", hash, st) == Ok(Some([one]));
    assert [one] + [] == [one];
  }

  /** Using such a macro later subtracts column 10 from column 0 as `usize`, which aborts. */
  lemma NestedExpansionAborts(st: PpState, use: TokenMetadata)
    requires "B" in st.macros && st.macros["B"] == [TokenMetadata(Word("x"), 1, 10, 11), TokenMetadata(Integral(1), 1, 0, 1)]
    ensures Expand("B", use, st).Err?
  {
    var body := st.macros["B"];
    assert !Ascending(body, body[0].start) by {
      assert body[0].start > body[1].start;
    }
  }

  // The source text `#define TWO 2` followed by `TWO+x` on the next line.
  const ExampleDefine := [TokenMetadata(Preprocessor, 0, 0, 1), TokenMetadata(Word("define"), 0, 1, 7),
                          TokenMetadata(Word("TWO"), 0, 8, 11), TokenMetadata(Integral(2), 0, 12, 13)]
  const ExampleUse := [TokenMetadata(Word("TWO"), 1, 0, 3), TokenMetadata(Operation('+'), 1, 3, 4),
                       TokenMetadata(Word("x"), 1, 4, 5), TokenMetadata(End, 1, 5, 6)]
  const ExampleState := InitialState().(macros := InitialState().macros["TWO" := [TokenMetadata(Integral(2), 0, 12, 13)]])

  /** The directive line defines `TWO` as the token `2` and consumes exactly its own line. */
  lemma ExampleDefineStep()
    ensures Run(ExampleDefine + ExampleUse, InitialState()) == Run(ExampleUse, ExampleState)
  {
    var ts := ExampleDefine + ExampleUse;
    assert ts[1..][1..] == ts[2..];
    ExampleDirective();
    assert ExampleUse[0].line != ts[0].line;
  }

  /** `#define TWO 2` as a directive: the step to the next line with `TWO` defined. */
  lemma ExampleDirective()
    ensures var ts := ExampleDefine + ExampleUse;
            Directive(ts[0], ts[1], ts[2..], InitialState()) == Ok(Step(ExampleUse, ExampleState))
  {
    var ts := ExampleDefine + ExampleUse;
    ExampleDefineBody();
    assert "TWO"[..3][0] != "GL_"[0];
  }

  /** The body of `#define TWO 2` is the token `2`; the next line is left. */
  lemma ExampleDefineBody()
    ensures var ts := ExampleDefine + ExampleUse;
            ts[2..][1..] == ts[3..] && DefineBody(ts[3..], ts[0], InitialState()) == Ok(Body([ts[3]], ExampleUse))
  {
    var ts := ExampleDefine + ExampleUse;
    var hash := ts[0];
    var value := ts[3];
    var st := InitialState();
    assert ts[2..][1..] == ts[3..];
    assert ts[3..][1..] == ExampleUse;
    assert DefineBody(ExampleUse, hash, st) == Ok(Body([], ExampleUse));
    assert [value] + [] == [value];
  }

  /** After the expansion, `+`, `x` and `End` are emitted as they are, moved two columns left. */
  lemma ExampleUseTail()
    ensures Run(ExampleUse[1..], ExampleState.(shiftLine := 1, shift := -2))
            == Ok([TokenMetadata(Operation('+'), 1, 1, 2), TokenMetadata(Word("x"), 1, 2, 3), TokenMetadata(End, 1, 3, 4)])
  {
    var st2 := ExampleState.(shiftLine := 1, shift := -2);
    var plus, x, end := ExampleUse[1], ExampleUse[2], ExampleUse[3];
    var outPlus := TokenMetadata(Operation('+'), 1, 1, 2);
    var outX := TokenMetadata(Word("x"), 1, 2, 3);
    var outEnd := TokenMetadata(End, 1, 3, 4);
    assert ExampleUse[1..] == [plus] + ([x] + [end]);
    // `End`
    assert Run([end], st2) == Ok([outEnd]);
    // `x` is not a macro
    assert "x" !in st2.macros && "x" != "__LINE__" && "x" != "__FILE__" && "x" != "__VERSION__";
    assert Emit(x, st2) == Ok(Emitted([outX], st2));
    RunEmitStep(x, [end], st2);
    assert Run([x] + [end], st2) == Ok([outX] + [outEnd]);
    // `+`
    assert Emit(plus, st2) == Ok(Emitted([outPlus], st2));
    RunEmitStep(plus, [x] + [end], st2);
    assert [outPlus] + ([outX] + [outEnd]) == [outPlus, outX, outEnd];
  }

  /** The use line: `2` at the column of `TWO`, then `+`, `x` and `End` moved two columns left. */
  lemma ExampleUseStep()
    ensures Run(ExampleUse, ExampleState)
            == Ok([TokenMetadata(Integral(2), 1, 0, 1), TokenMetadata(Operation('+'), 1, 1, 2),
                   TokenMetadata(Word("x"), 1, 2, 3), TokenMetadata(End, 1, 3, 4)])
  {
    var st2 := ExampleState.(shiftLine := 1, shift := -2);
    var two := ExampleUse[0];
    var out2 := TokenMetadata(Integral(2), 1, 0, 1);
    var tail := [TokenMetadata(Operation('+'), 1, 1, 2), TokenMetadata(Word("x"), 1, 2, 3), TokenMetadata(End, 1, 3, 4)];
    assert ExampleUse == [two] + ExampleUse[1..];
    ExampleUseTail();
    // `TWO` expands to `2` and leaves a shift of -2 on line 1
    RelocateSingle(TokenMetadata(Integral(2), 0, 12, 13), two);
    assert Expand("TWO", two, ExampleState) == Ok(Some([out2]));
    assert Emit(two, ExampleState) == Ok(Emitted([out2], st2));
    RunEmitStep(two, ExampleUse[1..], ExampleState);
    assert [out2] + tail == [out2, tail[0], tail[1], tail[2]];
  }

  // The source text `x __LINE__` on line 1 (after an empty line 0).
  const LineUse := [TokenMetadata(Word("x"), 1, 0, 1), TokenMetadata(Word("__LINE__"), 1, 2, 10), TokenMetadata(End, 1, 10, 11)]

  /** `__LINE__` becomes `2` at its own column, and `End` moves left to close the gap. */
  lemma LineUseRun()
    ensures Run(LineUse, InitialState())
            == Ok([TokenMetadata(Word("x"), 1, 0, 1), TokenMetadata(Integral(2), 1, 2, 3), TokenMetadata(End, 1, 3, 4)])
  {
    var st := InitialState();
    var x, line, end := LineUse[0], LineUse[1], LineUse[2];
    LineUseTail();
    assert "x" !in st.macros && "x" != "__LINE__" && "x" != "__FILE__" && "x" != "__VERSION__";
    assert Expand("x", x, st) == Ok(None);
    assert Emit(x, st) == Ok(Emitted([x], st));
    assert LineUse == [x] + [line, end] && LineUse[1..] == [line, end];
    RunEmitStep(x, [line, end], st);
    assert [x] + [TokenMetadata(Integral(2), 1, 2, 3), TokenMetadata(End, 1, 3, 4)]
           == [x, TokenMetadata(Integral(2), 1, 2, 3), TokenMetadata(End, 1, 3, 4)];
  }

  /** The `__LINE__` step of LineUseRun. */
  lemma LineUseTail()
    ensures Run(LineUse[1..], InitialState()) == Ok([TokenMetadata(Integral(2), 1, 2, 3), TokenMetadata(End, 1, 3, 4)])
  {
    var st := InitialState();
    var line, end := LineUse[1], LineUse[2];
    var st2 := st.(shiftLine := 1, shift := -7);
    var out2 := TokenMetadata(Integral(2), 1, 2, 3);
    var outEnd := TokenMetadata(End, 1, 3, 4);
    assert Run([end], st2) == Ok([outEnd]);
    assert LineValue(1, 0) == Ok(2);
    assert Emit(line, st) == Ok(Emitted([out2], st2));
    RunEmitStep(line, [end], st);
    assert LineUse[1..] == [line] + [end];
    assert [out2] + [outEnd] == [out2, outEnd];
  }

  /** End to end from its token list, `x __LINE__` on line 1 rebuilds to an empty line and `x 2`. */
  lemma LineUseExample()
    ensures Generate(LineUse) == Ok("\nx 2")
  {
    LineUseRun();
    LineUseRender();
  }

  /** The output of LineUseRun rebuilds to an empty line and `x 2`. */
  lemma LineUseRender()
    ensures Render([TokenMetadata(Word("x"), 1, 0, 1), TokenMetadata(Integral(2), 1, 2, 3), TokenMetadata(End, 1, 3, 4)], 0, 0)
            == Ok("\nx 2")
  {
    var out := [TokenMetadata(Word("x"), 1, 0, 1), TokenMetadata(Integral(2), 1, 2, 3), TokenMetadata(End, 1, 3, 4)];
    assert Repeat("\n", 0) == "" && Repeat(" ", 0) == "";
    assert out[2..][1..] == [];
    assert Render(out[2..], 1, 3) == Ok("" + "" + "" + "");
    assert "" + "" + "" + "" == "";
    assert out[1..][1..] == out[2..];
    assert NatToString(2) == "2";
    assert Repeat(" ", 1) == " ";
    assert Render(out[1..], 1, 1) == Ok("" + " " + "2" + "");
    assert "" + " " + "2" + "" == " 2";
    assert TokenText(Word("x")) == "x";
    assert Repeat("\n", 1) == "\n";
    assert Render(out, 0, 0) == Ok("\n" + "" + "x" + " 2");
    assert "\n" + "" + "x" + " 2" == "\nx 2";
  }

  /** The tokens of the use line rebuild to an empty line and `2+x`. */
  lemma ExampleRender()
    ensures Render([TokenMetadata(Integral(2), 1, 0, 1), TokenMetadata(Operation('+'), 1, 1, 2),
                    TokenMetadata(Word("x"), 1, 2, 3), TokenMetadata(End, 1, 3, 4)], 0, 0) == Ok("\n2+x")
  {
    var out := [TokenMetadata(Integral(2), 1, 0, 1), TokenMetadata(Operation('+'), 1, 1, 2),
                TokenMetadata(Word("x"), 1, 2, 3), TokenMetadata(End, 1, 3, 4)];
    assert Repeat("\n", 0) == "" && Repeat(" ", 0) == "";
    assert out[1..][0] == out[1] && out[2..][0] == out[2] && out[3..][0] == out[3];
    assert TokenText(Word("x")) == "x" && TokenText(Operation('+')) == "+";
    assert out[3..][1..] == [];
    assert Render(out[3..], 1, 3) == Ok("" + "" + "" + "");
    assert "" + "" + "" + "" == "";
    assert out[2..][1..] == out[3..];
    assert Render(out[2..], 1, 2) == Ok("" + "" + "x" + "");
    assert "" + "" + "x" + "" == "x";
    assert out[1..][1..] == out[2..];
    assert Render(out[1..], 1, 1) == Ok("" + "" + "+" + "x");
    assert "" + "" + "+" + "x" == "+x";
    assert NatToString(2) == "2";
    assert Repeat("\n", 1) == "\n";
    assert Render(out, 0, 0) == Ok("\n" + "" + "2" + "+x");
    assert "\n" + "" + "2" + "+x" == "\n2+x";
  }

  /** End to end: the two lines rebuild to an empty line and `2+x`. */
  lemma DefineAndUseExample()
    ensures Run(ExampleDefine + ExampleUse, InitialState()).Ok?
    ensures Render(Run(ExampleDefine + ExampleUse, InitialState()).value, 0, 0) == Ok("\n2+x")
  {
    ExampleDefineStep();
    ExampleUseStep();
    ExampleRender();
  }
}

=== FILE: validator.dfy ===
/**
 * Module-level validation: which types have a size, the checks on constants,
 * and the fail-fast order in which a whole module is validated.
 *
 * The per-item checks that live elsewhere in the validator (types, global
 * variables, function bodies and entry-point interfaces, and the scalar
 * width rule) are parameters, bundled in `Hooks`.
 */
module Valid {
  import opened Wrappers
  import opened IrBasics
  import opened Ir

  datatype TypeFlag = Data | Sized | Interface | HostShared

  /** What type validation records about a type. */
  datatype TypeInfo = TypeInfo(flags: set<TypeFlag>)

  /** The error of a check this model takes as a parameter. */
  datatype SubError = SubError(description: string)

  /**
   * `DanglingType` is not an error of the source: there, a composite constant
   * whose type handle is outside the type arena panics on `types[ty]`.
   */
  datatype ConstantError =
    | InvalidType
    | UnresolvedComponent(component: nat)
    | UnresolvedSize(sizeHandle: nat)
    | DanglingType(ty: nat)

  datatype EntryPointError = Conflict | EntryPointRejected(cause: SubError)

  datatype ValidationError =
    | TypeInvalid(handle: nat, name: string, typeError: SubError)
    | ConstantInvalid(handle: nat, name: string, constantError: ConstantError)
    | GlobalVariableInvalid(handle: nat, name: string, globalError: SubError)
    | FunctionInvalid(handle: nat, name: string, functionError: SubError)
    | EntryPointInvalid(stage: ShaderStage, epName: string, entryError: EntryPointError)
    | Corrupted

  datatype Hooks = Hooks(
    checkWidth: (ScalarKind, nat) -> bool,
    validateType: nat -> Result<TypeInfo, SubError>,
    validateGlobalVar: nat -> Result<(), SubError>,
    validateFunction: (nat, seq<FunctionInfo>) -> Result<FunctionInfo, SubError>,
    validateEntryPoint: (nat, seq<FunctionInfo>) -> Result<FunctionInfo, SubError>)

  /** The analysis results of every function and every entry point, in arena order. */
  datatype ModuleInfo = ModuleInfo(functions: seq<FunctionInfo>, entryPoints: seq<FunctionInfo>)

  /** `name.clone().unwrap_or_default()`. */
  function NameOrEmpty(name: Option<string>): string {
    if name.Some? then name.value else ""
  }

  /** Whether a value of this type has a size known before run time. */
  function IsSized(t: TypeInner): (r: bool)
    ensures r <==> t.Scalar? || t.Vector? || t.Matrix? || (t.Array? && t.asize.ConstantSize?)
                   || t.Pointer? || t.ValuePointer? || t.Struct?
    ensures !r <==> (t.Array? && t.asize.Dynamic?) || t.Image? || t.Sampler?
  {
    match t
    case Scalar(_, _) => true
    case Vector(_, _, _) => true
    case Matrix(_, _, _) => true
    case Array(_, ConstantSize(_), _) => true
    case Pointer(_, _) => true
    case ValuePointer(_, _, _, _) => true
    case Struct(_, _) => true
    case Array(_, Dynamic, _) => false
    case Image(_, _, _) => false
    case Sampler(_) => false
  }

  /** Indexing `ModuleInfo` by a function handle. */
  function FunctionInfoAt(info: ModuleInfo, handle: nat): FunctionInfo
    requires handle < |info.functions|
  {
    info.functions[handle]
  }

  function KindOfValue(v: ScalarValue): ScalarKind {
    match v
    case SintValue(_) => Sint
    case UintValue(_) => Uint
    case FloatValue(_) => Float
    case BoolValue(_) => Bool
  }

  /** `comp` is the first of `components` that is not declared before `handle`. */
  predicate FirstOffending(components: seq<nat>, handle: nat, comp: nat) {
    exists i :: 0 <= i < |components| && components[i] == comp && handle <= comp
      && forall j :: 0 <= j < i ==> components[j] < handle
  }

  /** The first component that is not declared before `handle`, as `Iterator::find` returns it. */
  function FirstNotBefore(components: seq<nat>, handle: nat): (r: Option<nat>)
    ensures r.None? <==> forall i :: 0 <= i < |components| ==> components[i] < handle
    ensures r.Some? ==> FirstOffending(components, handle, r.value)
  {
    if |components| == 0 then None
    else if handle <= components[0] then Some(components[0])
    else
      var rest := FirstNotBefore(components[1..], handle);
      assert forall i :: 1 <= i < |components| ==> components[i] == components[1..][i - 1];
      rest
  }

  /**
   * A constant may only refer to constants before it in the arena: for a
   * composite, both its array size and its components.
   */
  function ValidateConstant(handle: nat, constants: seq<Constant>, types: seq<Type>,
                            checkWidth: (ScalarKind, nat) -> bool): (r: Result<(), ConstantError>)
    requires handle < |constants|
    ensures constants[handle].inner.ScalarConstant? ==>
      var c := constants[handle].inner;
      (r.Ok? <==> checkWidth(KindOfValue(c.value), c.width)) && (r.Err? ==> r.error == InvalidType)
    ensures constants[handle].inner.Composite? && constants[handle].inner.ty >= |types| ==>
      r == Err(DanglingType(constants[handle].inner.ty))
    ensures constants[handle].inner.Composite? && constants[handle].inner.ty < |types| ==>
      var c := constants[handle].inner;
      var t := types[c.ty].inner;
      && (t.Array? && t.asize.Dynamic? ==> r == Err(InvalidType))
      && (t.Array? && t.asize.ConstantSize? && handle <= t.asize.handle ==> r == Err(UnresolvedSize(t.asize.handle)))
      && (!(t.Array? && (t.asize.Dynamic? || handle <= t.asize.handle)) ==>
            && (r.Ok? <==> forall i :: 0 <= i < |c.components| ==> c.components[i] < handle)
            && (r.Err? ==> r.error.UnresolvedComponent?))
    ensures r.Err? && r.error.UnresolvedComponent? ==>
      constants[handle].inner.Composite?
      && FirstOffending(constants[handle].inner.components, handle, r.error.component)
  {
    match constants[handle].inner
    case ScalarConstant(width, value) =>
      if !checkWidth(KindOfValue(value), width) then Err(InvalidType) else Ok(())
    case Composite(ty, components) =>
      if ty >= |types| then Err(DanglingType(ty))
      else
        match types[ty].inner
        case Array(_, Dynamic, _) => Err(InvalidType)
        case Array(_, ConstantSize(sizeHandle), _) =>
          if handle <= sizeHandle then Err(UnresolvedSize(sizeHandle))
          else ComponentsDeclaredBefore(handle, components)
        case _ => ComponentsDeclaredBefore(handle, components)
  }

  function ComponentsDeclaredBefore(handle: nat, components: seq<nat>): Result<(), ConstantError> {
    match FirstNotBefore(components, handle)
    case Some(comp) => Err(UnresolvedComponent(comp))
    case None => Ok(())
  }

  predicate ConstantsPass(m: Module, hooks: Hooks, n: nat)
    requires n <= |m.constants|
  {
    forall h :: 0 <= h < n ==> ValidateConstant(h, m.constants, m.types, hooks.checkWidth).Ok?
  }

  predicate TypesPass(hooks: Hooks, n: nat) {
    forall h :: 0 <= h < n ==> hooks.validateType(h).Ok?
  }

  predicate GlobalsPass(hooks: Hooks, n: nat) {
    forall h :: 0 <= h < n ==> hooks.validateGlobalVar(h).Ok?
  }

  /**
   * The analysis results of the first `n` functions, each function analysed
   * with the results of those before it; `None` if one of them fails.
   */
  function FunctionChain(hooks: Hooks, n: nat): (r: Option<seq<FunctionInfo>>)
    ensures r.Some? ==> |r.value| == n
  {
    if n == 0 then Some([])
    else
      match FunctionChain(hooks, n - 1)
      case None => None
      case Some(infos) =>
        match hooks.validateFunction(n - 1, infos)
        case Ok(info) => Some(infos + [info])
        case Err(_) => None
  }

  /** The last step of a successful chain: the chain before it, and the analysis of the last function. */
  lemma ChainStep(hooks: Hooks, n: nat, infos: seq<FunctionInfo>)
    requires n > 0 && FunctionChain(hooks, n) == Some(infos)
    ensures FunctionChain(hooks, n - 1) == Some(infos[..n - 1])
    ensures hooks.validateFunction(n - 1, infos[..n - 1]) == Ok(infos[n - 1])
  {
    var prefix := FunctionChain(hooks, n - 1).value;
    var last := hooks.validateFunction(n - 1, prefix).value;
    assert infos == prefix + [last];
    assert infos[..n - 1] == prefix;
  }

  /** The prefix of a successful chain of `n` functions that holds the first `i` is the chain of `i` functions. */
  lemma {:induction false} ChainPrefixAt(hooks: Hooks, n: nat, infos: seq<FunctionInfo>, i: nat)
    requires FunctionChain(hooks, n) == Some(infos) && i <= n
    ensures FunctionChain(hooks, i) == Some(infos[..i])
    ensures i < n ==> hooks.validateFunction(i, infos[..i]) == Ok(infos[i])
  {
    if i == n {
      assert infos[..i] == infos;
    } else {
      ChainStep(hooks, n, infos);
      var prefix := infos[..n - 1];
      ChainPrefixAt(hooks, n - 1, prefix, i);
      assert infos[..i] == prefix[..i];
      if i < n - 1 {
        assert infos[i] == prefix[i];
      }
    }
  }

  /** Every prefix of a successful chain is the chain of that many functions. */
  lemma ChainPrefixes(hooks: Hooks, n: nat, infos: seq<FunctionInfo>)
    requires FunctionChain(hooks, n) == Some(infos)
    ensures forall i :: 0 <= i <= n ==> FunctionChain(hooks, i) == Some(infos[..i])
    ensures forall i :: 0 <= i < n ==> hooks.validateFunction(i, infos[..i]) == Ok(infos[i])
  {
    forall i | 0 <= i <= n
      ensures FunctionChain(hooks, i) == Some(infos[..i])
      ensures i < n ==> hooks.validateFunction(i, infos[..i]) == Ok(infos[i])
    {
      ChainPrefixAt(hooks, n, infos, i);
    }
  }

  /**
   * After a successful validation, the info a function handle selects is the
   * analysis of that function, made with the infos of the functions before it.
   */
  lemma {:induction false} FunctionInfoIsItsAnalysis(hooks: Hooks, info: ModuleInfo, n: nat, handle: nat)
    requires FunctionChain(hooks, n) == Some(info.functions)
    requires handle < n
    ensures handle < |info.functions|
    ensures hooks.validateFunction(handle, info.functions[..handle]) == Ok(FunctionInfoAt(info, handle))
  {
    ChainPrefixes(hooks, n, info.functions);
  }

  /** Another entry point before `i` has the same stage and name. */
  predicate KeyTaken(eps: seq<EntryPoint>, i: nat)
    requires i < |eps|
  {
    exists j :: 0 <= j < i && eps[j].stage == eps[i].stage && eps[j].name == eps[i].name
  }

  predicate EntriesPass(m: Module, hooks: Hooks, functions: seq<FunctionInfo>, n: nat)
    requires n <= |m.entryPoints|
  {
    forall i :: 0 <= i < n ==> !KeyTaken(m.entryPoints, i) && hooks.validateEntryPoint(i, functions).Ok?
  }

  /** The items of every phase before the one that failed passed, and so did the earlier items of that phase. */
  predicate IsFirstFailure(m: Module, hooks: Hooks, e: ValidationError)
  {
    match e
    case ConstantInvalid(h, name, err) =>
      && h < |m.constants| && ConstantsPass(m, hooks, h)
      && ValidateConstant(h, m.constants, m.types, hooks.checkWidth) == Err(err)
      && name == NameOrEmpty(m.constants[h].name)
    case TypeInvalid(h, name, err) =>
      && ConstantsPass(m, hooks, |m.constants|)
      && h < |m.types| && TypesPass(hooks, h) && hooks.validateType(h) == Err(err)
      && name == NameOrEmpty(m.types[h].name)
    case GlobalVariableInvalid(h, name, err) =>
      && ConstantsPass(m, hooks, |m.constants|) && TypesPass(hooks, |m.types|)
      && h < |m.globalVariables| && GlobalsPass(hooks, h) && hooks.validateGlobalVar(h) == Err(err)
      && name == NameOrEmpty(m.globalVariables[h].name)
    case FunctionInvalid(h, name, err) =>
      && ConstantsPass(m, hooks, |m.constants|) && TypesPass(hooks, |m.types|)
      && GlobalsPass(hooks, |m.globalVariables|)
      && h < |m.functions| && FunctionChain(hooks, h).Some?
      && hooks.validateFunction(h, FunctionChain(hooks, h).value) == Err(err)
      && name == NameOrEmpty(m.functions[h].name)
    case EntryPointInvalid(stage, name, err) =>
      && ConstantsPass(m, hooks, |m.constants|) && TypesPass(hooks, |m.types|)
      && GlobalsPass(hooks, |m.globalVariables|) && FunctionChain(hooks, |m.functions|).Some?
      && var functions := FunctionChain(hooks, |m.functions|).value;
         exists i :: 0 <= i < |m.entryPoints| && EntriesPass(m, hooks, functions, i)
           && m.entryPoints[i].stage == stage && m.entryPoints[i].name == name
           && (if KeyTaken(m.entryPoints, i) then err == Conflict
               else hooks.validateEntryPoint(i, functions).Err?
                    && err == EntryPointRejected(hooks.validateEntryPoint(i, functions).error))
    case Corrupted => false
  }

  /**
   * Validate a module: constants, then types, then global variables, then
   * functions, then entry points, stopping at the first error. An entry point
   * whose stage and name repeat an earlier one's is a conflict, reported
   * before that entry point is validated.
   */
  method Validate(m: Module, hooks: Hooks) returns (r: Result<ModuleInfo, ValidationError>)
    ensures r.Err? ==> IsFirstFailure(m, hooks, r.error)
    ensures r.Ok? ==>
      && ConstantsPass(m, hooks, |m.constants|) && TypesPass(hooks, |m.types|)
      && GlobalsPass(hooks, |m.globalVariables|)
      && FunctionChain(hooks, |m.functions|) == Some(r.value.functions)
      && |r.value.entryPoints| == |m.entryPoints|
      && (forall i :: 0 <= i < |m.entryPoints| ==>
            hooks.validateEntryPoint(i, r.value.functions) == Ok(r.value.entryPoints[i]))
    ensures r.Ok? ==> forall i, j :: 0 <= i < j < |m.entryPoints| ==>
      m.entryPoints[i].stage != m.entryPoints[j].stage || m.entryPoints[i].name != m.entryPoints[j].name
  {
    var h := 0;
    while h < |m.constants|
      invariant h <= |m.constants|
      invariant ConstantsPass(m, hooks, h)
    {
      var checked := ValidateConstant(h, m.constants, m.types, hooks.checkWidth);
      if checked.Err? {
        return Err(ConstantInvalid(h, NameOrEmpty(m.constants[h].name), checked.error));
      }
      h := h + 1;
    }

    h := 0;
    while h < |m.types|
      invariant h <= |m.types|
      invariant TypesPass(hooks, h)
    {
      var checked := hooks.validateType(h);
      if checked.Err? {
        return Err(TypeInvalid(h, NameOrEmpty(m.types[h].name), checked.error));
      }
      h := h + 1;
    }

    h := 0;
    while h < |m.globalVariables|
      invariant h <= |m.globalVariables|
      invariant GlobalsPass(hooks, h)
    {
      var checked := hooks.validateGlobalVar(h);
      if checked.Err? {
        return Err(GlobalVariableInvalid(h, NameOrEmpty(m.globalVariables[h].name), checked.error));
      }
      h := h + 1;
    }

    var functions: seq<FunctionInfo> := [];
    h := 0;
    while h < |m.functions|
      invariant h <= |m.functions|
      invariant FunctionChain(hooks, h) == Some(functions)
    {
      var checked := hooks.validateFunction(h, functions);
      if checked.Err? {
        return Err(FunctionInvalid(h, NameOrEmpty(m.functions[h].name), checked.error));
      }
      functions := functions + [checked.value];
      h := h + 1;
    }

    var seen: set<(ShaderStage, string)> := {};
    var entryPoints: seq<FunctionInfo> := [];
    var i := 0;
    while i < |m.entryPoints|
      invariant i <= |m.entryPoints|
      invariant |entryPoints| == i
      invariant EntriesPass(m, hooks, functions, i)
      invariant forall k :: 0 <= k < i ==> hooks.validateEntryPoint(k, functions) == Ok(entryPoints[k])
      invariant forall key :: key in seen <==> exists j :: 0 <= j < i && key == (m.entryPoints[j].stage, m.entryPoints[j].name)
    {
      var ep := m.entryPoints[i];
      if (ep.stage, ep.name) in seen {
        return Err(EntryPointInvalid(ep.stage, ep.name, Conflict));
      }
      seen := seen + {(ep.stage, ep.name)};
      var checked := hooks.validateEntryPoint(i, functions);
      if checked.Err? {
        return Err(EntryPointInvalid(ep.stage, ep.name, EntryPointRejected(checked.error)));
      }
      entryPoints := entryPoints + [checked.value];
      i := i + 1;
    }
    r := Ok(ModuleInfo(functions, entryPoints));
    assert forall i, j :: 0 <= i < j < |m.entryPoints| ==>
      m.entryPoints[i].stage != m.entryPoints[j].stage || m.entryPoints[i].name != m.entryPoints[j].name by {
      forall i, j | 0 <= i < j < |m.entryPoints|
        ensures m.entryPoints[i].stage != m.entryPoints[j].stage || m.entryPoints[i].name != m.entryPoints[j].name
      {
        assert !KeyTaken(m.entryPoints, j);
      }
    }
  }
}
